=== FILE: README.md ===
# guildpilot core in Dafny

A model of the decision logic of guildpilot, a Discord bot made of several
cogs, with proofs about it:

- **PilotAI**: an OpenAI-backed chat assistant. It keeps per-conversation
  memory keyed by the bot message that started the conversation, trims that
  memory to the system prompt plus the last turns, expires idle
  conversations, and splits long replies into Discord-sized chunks.
- **RoleCop**: role requests (promote, demote, kick) that go to approvers
  through an Approve/Deny view. It has a layered JSON configuration, a
  per-guild settings store, the approver predicate, guardrails on which
  roles may be handed out, and the older two-step `/kick_request` admin vote.
- **StreamSentinel**: a Twitch "who is live" watcher. It covers the
  environment settings, the app-token cache, the streamer list file,
  resolving names to logins, stream cards, and the poll that announces a
  stream once and edits the announcement when the stream ends.
- **StatWrangler**: game statistics lookups. It covers username
  autocomplete and saving, platform names, the order of checks in
  `/game_stats`, the tracker links, and the server list kept on join and
  on ready.
- **Guild tracker**: the shared `servers` file that keeps one record per
  server. Each upsert refreshes seen servers and marks missing ones as left.

External effects become inputs. This covers Discord API calls, HTTP
requests, the LLM, file contents and the clock. Each one is modelled as an
outcome parameter: what the call returned or whether it failed. Files are
modelled as their decoded content. Times are integer seconds. The handlers
are pure functions from (state, inputs) to (new state, effects).

One Dafny module per source component:

- `Base`: Option and Result
- `Text`: ASCII `lower`, `strip`, Python `int()`, `str(int)` and `replace`
- `Json`: JSON values with Python truthiness and `dict.get`
- `Seqs`: order-preserving de-duplication
- `PilotMemory`, `PilotLegacy`, `PilotEnv`
- `Permissions`, `Approvals`, `ConfigLoader`, `RoleCopEnv`, `RoleCopGuild`,
  `RoleCopRequests`, `KickVote`
- `StreamEnv`, `TwitchAuth`, `StreamerList`, `TwitchStatus`, `StreamWatch`
- `StatCommands`, `StatLinks`, `StatGuilds`
- `GuildTracker`

## Model

| member | source | states |
|---|---|---|
| PilotEnv.Require | modules/pilotai/env_check.py:20-24 | a variable's value is returned exactly when it is set and non-empty; otherwise the error names the variable |
| PilotEnv.GetEnvVars | modules/pilotai/env_check.py:19-30 | loading succeeds iff the Discord token and the OpenAI key are both provided; the token is checked first; the organisation is present iff its variable is set |
| PilotMemory.FirstSystem | modules/pilotai/commands.py:43 | the kept system part is empty, or exactly the first system message of the history |
| PilotMemory.TrimParts | modules/pilotai/commands.py:41-45 | a trimmed history's system messages are the first system message only, and its other messages are the last `2*max_turns` of the original's |
| PilotMemory.TrimSystemFront | modules/pilotai/commands.py:43-45 | the first system message, if any, comes first, and no other system message remains |
| PilotMemory.TrimTail | modules/pilotai/commands.py:44-45 | the non-system part is a suffix of the original's, of length `min(n, 2*max_turns)`; with `max_turns` 0 everything is kept (Python `[-0:]`); the result holds at most `2*max_turns + 1` messages |
| PilotMemory.TrimKeepsLast | modules/pilotai/commands.py:41-45 | a newly appended user or assistant message is still last after the trim |
| PilotMemory.TrimIdempotent | modules/pilotai/commands.py:41-45 | trimming twice is the same as trimming once |
| PilotMemory.TrimBound | modules/pilotai/commands.py:27-45 | with the cog's limit of 12 turns a stored history never exceeds 25 messages |
| PilotMemory.ExpiredRoots | modules/pilotai/commands.py:81-83 | the roots selected for deletion are exactly the stored conversations idle longer than the TTL |
| PilotMemory.Sweep | modules/pilotai/commands.py:79-89 | a conversation survives cleanup iff it is not expired, unchanged; a message link survives iff its root is not expired |
| PilotMemory.CollectExpired | modules/pilotai/commands.py:80-83 | the collecting loop over the dict's keys yields exactly the expired roots |
| PilotMemory.DeleteRoots | modules/pilotai/commands.py:85-89 | the deleting loop removes exactly the given roots and every link pointing at them, leaving all other entries unchanged |
| PilotMemory.CleanupSweep | modules/pilotai/commands.py:79-89 | the two loops together compute the cleanup sweep |
| PilotMemory.SweepKeepsInv | modules/pilotai/commands.py:85-89 | cleanup keeps the memory invariant: every message link points at a stored conversation |
| PilotMemory.SweepLeavesOnlyLive | modules/pilotai/commands.py:47-89 | no conversation left after cleanup is expired, before or after it |
| PilotMemory.ChunksSound | modules/pilotai/commands.py:53-56 | the chunks of a long reply are non-empty, at most 2000 characters, and concatenate back to the reply |
| PilotMemory.ChunksCount | modules/pilotai/commands.py:55-56 | there are `ceil(len/2000)` chunks and every chunk but the last is full |
| PilotMemory.OutgoingSound | modules/pilotai/commands.py:131-135 | at least one message is sent, none is over 2000 characters, and together they are the reply |
| PilotMemory.LlmReply | modules/pilotai/commands.py:58-73 | the model is called on the trimmed history; there is no usable reply iff the call fails or the first choice's content is null; otherwise the reply is the first choice, or the fallback text when there is none |
| PilotMemory.AskThePilot | modules/pilotai/commands.py:113-145 | when the model call or the send fails, the memory is unchanged |
| PilotMemory.AskThePilotStarts | modules/pilotai/commands.py:137-145 | a new conversation is stored under the first sent message's id, linked to itself, stamped now with its channel, and every other entry is unchanged |
| PilotMemory.AskThePilotHistory | modules/pilotai/commands.py:113-141 | the stored history starts with the system prompt and ends with the answer |
| PilotMemory.OpeningTrim | modules/pilotai/commands.py:113-141 | trimming the opening exchange keeps the prompt first and the answer last |
| PilotMemory.AskThePilotKeepsInv | modules/pilotai/commands.py:140-145 | the slash command keeps the memory invariant |
| PilotMemory.OnMessage | modules/pilotai/commands.py:165-216 | a message that is not continued leaves the memory unchanged; a continued one replies to a message of the bot |
| PilotMemory.OnMessageContinuedIff | modules/pilotai/commands.py:165-216 | a message continues a conversation iff its author is not a bot, it replies to a message written by the bot, the model answers and the reply is sent; bot messages are ignored; without a bot user the message is passed on |
| PilotMemory.OnMessageLinks | modules/pilotai/commands.py:177-211 | the replied-to message and the sent reply both link to the conversation's root (the replied-to message when unlinked); only that root's conversation changes, stamped now |
| PilotMemory.OnMessageHistory | modules/pilotai/commands.py:178-205 | a live conversation continues from its stored history; a missing or expired one restarts from the prompt and the replied-to text |
| PilotMemory.OnMessageAnswers | modules/pilotai/commands.py:197-205 | the stored history ends with the answer, and the sent messages spell the answer |
| PilotMemory.OnMessageNullContent | modules/pilotai/commands.py:190-197 | a reply to the bot whose answer content is null sends nothing, not even the apology, and leaves the memory unchanged |
| PilotMemory.OnMessageKeepsInv | modules/pilotai/commands.py:204-211 | message handling keeps the memory invariant |
| PilotLegacy.Touch | modules/pilotai/main.py:60-62 | touching stamps the conversation with the current time and leaves its history, its channel and everything else unchanged |
| PilotLegacy.TouchRevives | modules/pilotai/main.py:54-62 | a touched conversation is not expired at that time, and the invariant holds |
| PilotLegacy.AskPilot | modules/pilotai/main.py:114-172 | the stand-alone command changes nothing on failure; otherwise it stores a conversation under the sent message, self-linked, starting with its own prompt and stamped now |
| PilotLegacy.OnLegacyMessage | modules/pilotai/main.py:176-253 | the stand-alone handler continues iff the author is not a bot, the message replies to the bot, the model answers and the reply is sent; the reply is linked to the root |
| Approvals.NewView | modules/rolecop/core/approvals.py:27-29 | a view built without a timeout stays active for 3600 seconds and keeps the given role names |
| Approvals.InteractionCheck | modules/rolecop/core/approvals.py:34-46 | a non-member is refused silently; a member passes iff they are an approver; a notice is shown only on a refusal |
| Approvals.CheckIgnoresNoticeOutcome | modules/rolecop/core/approvals.py:39-46 | whether a press passes does not depend on the notice being delivered |
| Approvals.Press | modules/rolecop/core/approvals.py:48-54 | a decision is made iff an approving member pressed, and it is Approve iff the Approve button was pressed |
| Permissions.Wanted | modules/rolecop/core/permissions.py:11 | the wanted set is exactly the normalised string entries of the list |
| Permissions.AnyRoleInIff | modules/rolecop/core/permissions.py:14 | a member matches iff one of their roles normalises into the wanted set |
| Permissions.HasAnyRoleNameIff | modules/rolecop/core/permissions.py:10-14 | a member has a named role iff one of their roles equals one of the string names after normalisation |
| Permissions.NonStringsIgnored | modules/rolecop/core/permissions.py:11 | non-string entries added to the list change no approver decision |
| Permissions.NoStringNamesApprovesOnlyAdmins | modules/rolecop/core/permissions.py:11-13 | with no string names, exactly the administrators are approvers |
| Permissions.IsApprover | modules/rolecop/core/permissions.py:17-22 | administrators are approvers; any other member is one iff they hold a named role |
| Permissions.IsApproverIff | modules/rolecop/core/permissions.py:17-22 | approver iff administrator or holding a listed role |
| Permissions.NormIgnoresCase | modules/rolecop/core/permissions.py:6-7 | names equal up to case normalise alike |
| Permissions.NormIgnoresPadding | modules/rolecop/core/permissions.py:6-7 | surrounding whitespace does not change a normalised name |
| Permissions.ApproverMonotone | modules/rolecop/core/permissions.py:10-22 | giving a member more roles or the list more names never takes away approver status |
| ConfigLoader.LoadJson | modules/rolecop/core/config_loader.py:20-26 | a parsed file gives its document; a missing or unparsable one gives the fallback |
| ConfigLoader.DeepMerge | modules/rolecop/core/config_loader.py:29-36 | the merge holds exactly the keys of both sides |
| ConfigLoader.DeepMergeValues | modules/rolecop/core/config_loader.py:29-36 | base-only keys keep the base value, an overlay value wins unless both sides are objects, and two objects merge recursively |
| ConfigLoader.DeepMergeIdentity | modules/rolecop/core/config_loader.py:29-36 | the empty overlay and the empty base are identities of the merge |
| ConfigLoader.DeepMergeSelf | modules/rolecop/core/config_loader.py:29-36 | merging a document with itself returns it |
| ConfigLoader.DeepMergeOverlayTwice | modules/rolecop/core/config_loader.py:29-36 | applying the same overlay twice equals applying it once |
| ConfigLoader.AsDict | modules/rolecop/core/config_loader.py:30 | `dict(x)` copies an object, gives `{}` for an empty list or string, and fails on everything else |
| ConfigLoader.MergeDocuments | modules/rolecop/core/config_loader.py:29-36 | two objects merge; a personal document that is not an object is an error |
| ConfigLoader.DefaultsSection | modules/rolecop/core/config_loader.py:58-60 | settings come from `defaults` when it is an object, else from the top level |
| ConfigLoader.RoleNameStrings | modules/rolecop/core/config_loader.py:62-72 | the role names are the list's items as strings, one for one, and empty for anything but a list |
| ConfigLoader.RuntimeConfigReads | modules/rolecop/core/config_loader.py:49-75 | each runtime setting is read from the right section of the merged files, with its default: safe mode on, no role names, no DM-first |
| ConfigLoader.RuntimeConfigWithoutFiles | modules/rolecop/core/config_loader.py:49-75 | with neither file present every setting takes its default |
| ConfigLoader.RuntimeConfigRejectsBadOverlay | modules/rolecop/core/config_loader.py:55 | a personal file that is not an object makes loading fail |
| ConfigLoader.LoadGuildSettingsShape | modules/rolecop/core/config_loader.py:78-89 | only a stored object whose `guilds` entry is an object yields settings; anything else yields `{}` |
| ConfigLoader.SaveGuildSettings | modules/rolecop/core/config_loader.py:92-95 | the saved document is an object with the single key `guilds` |
| ConfigLoader.GuildSettingsRoundTrip | modules/rolecop/core/config_loader.py:83-95 | saving then loading gives the same settings back |
| RoleCopEnv.RequireEnv | modules/rolecop/commands/elements/config.py:40-44 | a variable is returned iff it is set and non-empty; otherwise the error names it |
| RoleCopEnv.RequireInt | modules/rolecop/commands/elements/config.py:55-56 | an id succeeds iff it is provided and parses as an integer; the two failures are told apart |
| RoleCopEnv.GetConfig | modules/rolecop/commands/elements/config.py:47-71 | loading succeeds iff the required settings are present and the ids parse; the token is checked before the guild id; the optional paths are passed through |
| RoleCopEnv.GetConfigRoundTrip | modules/rolecop/commands/elements/config.py:54-64 | an environment written from a configuration reads back as that configuration |
| RoleCopEnv.OptionalPathsIrrelevant | modules/rolecop/commands/elements/config.py:62-63 | whether loading succeeds never depends on the optional message paths |
| RoleCopGuild.GetGuildCfg | modules/rolecop/cog.py:60-81 | resolving a guild's settings fails iff its stored entry is not an object |
| RoleCopGuild.GuildCfgResolution | modules/rolecop/cog.py:60-81 | each setting comes from the guild's stored entry when present, else from the runtime defaults; a non-list role list reads as empty; the personal guild is never in safe mode |
| RoleCopGuild.FindApprovalsChannel | modules/rolecop/cog.py:83-96 | the channel found is a text channel of the guild |
| RoleCopGuild.FindApprovalsChannelPicks | modules/rolecop/cog.py:83-96 | a configured id naming a text channel wins; otherwise the first text channel with the configured name; none only if neither exists |
| RoleCopGuild.FirstTextNamedIsFirst | modules/rolecop/cog.py:93-95 | no earlier text channel has the found channel's name |
| RoleCopGuild.EnsurePersonalGuildConfig | modules/rolecop/cog.py:116-145 | settings are written iff a personal guild id is set, the guild is known and has no entry; otherwise nothing changes |
| RoleCopGuild.EnsurePersonalNeverOverwrites | modules/rolecop/cog.py:126-145 | existing entries are never changed; the new entry turns safe mode off |
| RoleCopGuild.RoleRejectNoneIff | modules/rolecop/cog.py:160-175 | a role may be managed iff it is not @everyone, not integration-managed, carries no privileged permission, and lies strictly below the bot's top role and the configured boundary |
| RoleCopGuild.RoleRejectOrder | modules/rolecop/cog.py:160-175 | the refusal reason is the first failing check in source order |
| RoleCopGuild.RoleBelowStrict | modules/rolecop/cog.py:168-173 | "below" is a strict order, so a role at the bot's own position is refused |
| RoleCopRequests.PostApproval | modules/rolecop/cog.py:309-352 | a request is queued iff the approvals channel is found and the post succeeds; a queued request is pending under the posted message; otherwise nothing changes |
| RoleCopRequests.RoleCommand | modules/rolecop/cog.py:451-497 | a promote or demote that is not queued leaves the cog unchanged |
| RoleCopRequests.Decide | modules/rolecop/cog.py:458-497 | the outcome is the first failing check in source order; only the approval path changes state |
| RoleCopRequests.RoleCommandFlow | modules/rolecop/cog.py:451-497 | outside a configured guild the command is refused; then a rejected role is refused, an already-done change is reported, an approver outside safe mode acts directly, and otherwise a promote or demote request naming the role is posted |
| RoleCopRequests.RoleCommandChecks | modules/rolecop/cog.py:458-472 | the configuration, role and already-done checks each stop the command exactly when they fail |
| RoleCopRequests.RoleCommandActs | modules/rolecop/cog.py:474-497 | after the checks pass, an approver outside safe mode acts directly; anyone else posts a request for the role change |
| RoleCopRequests.KickCommand | modules/rolecop/cog.py:549-586 | a kick command that is not queued leaves the cog unchanged |
| RoleCopRequests.KickCommandFlow | modules/rolecop/cog.py:558-586 | in a configured guild an approver outside safe mode kicks directly; anyone else posts a kick request |
| RoleCopRequests.DenyPerformsNothing | modules/rolecop/cog.py:364-380 | a denied request performs no action; its outcome records whether the `view=None` edit went through and whether a notice was attempted, with what the send did |
| RoleCopRequests.ApprovedRoleChangeRechecks | modules/rolecop/cog.py:384-409 | an approved role change is performed only if the target is still a member, the role exists and passes the guardrails, and the change is still needed |
| RoleCopRequests.UnknownActionFails | modules/rolecop/cog.py:417-418 | a request with an unknown action fails with that action named, the buttons removed iff the failure edit went through |
| RoleCopRequests.NotifiedOnlyOnDecision | modules/rolecop/cog.py:175-205 | a request is denied iff not approved; on a denial or a success a notice is attempted iff the approver is a member and the requester is still in the guild; an approval counts as executed iff every check, the action and the edit succeed and the notice did not raise; a notice that raises something other than `Forbidden` after the action turns the outcome into a reported failure with the action done |
| RoleCopRequests.DecisionRemovesView | modules/rolecop/cog.py:364-442 | every decision in a guild attempts an edit with `view=None`; the buttons stay live iff the denial edit raised, or the failure edit raised after a failed check or action, or both the approval edit and the failure edit raised |
| RoleCopRequests.Setup | modules/rolecop/cog.py:243-262 | setup succeeds iff run in a guild by an administrator or role manager; it then changes only that guild's entry |
| RoleCopRequests.SetupConfigures | modules/rolecop/cog.py:250-262 | after setup the guild is configured with the chosen channel, one or two approver roles, the boundary role, and safe mode as chosen, except that the personal guild is never in safe mode |
| KickVote.FirstRoleNamed | modules/rolecop/commands/kick.py:69-70 | the role found has the name; none means no role has it |
| KickVote.Holders | modules/rolecop/commands/kick.py:97 | the admins are exactly the members holding the role |
| KickVote.KickRequest | modules/rolecop/commands/kick.py:45-108 | a request is refused for cooldown iff the last one was under 300 seconds ago, and otherwise stamps the cooldown; an opened vote waits on the approval message with the admin-role holders; the channel warning is posted iff the DMs failed and a warning channel exists |
| KickVote.KickRequestRefusals | modules/rolecop/commands/kick.py:63-100 | a missing guild, admin role, approval channel or admin refuses the request, in that order; otherwise the vote opens |
| KickVote.CooldownBoundary | modules/rolecop/commands/kick.py:53-63 | 299 seconds after a request the next is refused, at 300 it is allowed |
| KickVote.KickMember | modules/rolecop/commands/kick.py:17-31 | the member is kicked iff the kick succeeds; a follow-up is always sent, and it is the success notice iff the member was kicked |
| KickVote.KickMemberAsWritten | modules/rolecop/commands/kick.py:17-31 | as written, the member is kicked iff the kick succeeds, and failures are reported as intended |
| KickVote.KickMemberAsWrittenSilentOnSuccess | modules/rolecop/commands/kick.py:19-24 | as written, a successful kick sends no follow-up, where the corrected one sends the success notice |
| KickVote.Step | modules/rolecop/commands/kick.py:110-158 | no event changes the vote's target, admins or channels |
| KickVote.FirstVote | modules/rolecop/commands/kick.py:110-120 | the first stage moves only on a timeout or an admin's vote: approve asks that admin to confirm, deny closes as denied, timeout closes as timed out |
| KickVote.Confirmation | modules/rolecop/commands/kick.py:128-149 | the second stage moves only on the approving admin's confirmation, which attempts the kick, or on a timeout, reported in the private channel when there is one; whether the member is kicked, and the follow-up of a failed kick, are those of the code as written |
| KickVote.ClosedIsFinal | modules/rolecop/commands/kick.py:117-158 | once closed, no sequence of events changes the vote |
| KickVote.DenyOrTimeoutNeverKicks | modules/rolecop/commands/kick.py:150-158 | a deny or a timeout at the first stage means no kick, whatever follows |
| KickVote.KickNeedsConfirmation | modules/rolecop/commands/kick.py:128-139 | a kick from the second stage needs the approving admin's confirm reaction and a successful kick |
| KickVote.KickNeedsTwoApprovals | modules/rolecop/commands/kick.py:110-139 | a kick needs an admin's approval on the vote message followed by the same admin's confirmation |
| StatCommands.Matching | modules/statwrangler/commands.py:63 | the matches are exactly the saved names containing the typed text, ignoring case |
| StatCommands.MatchingInOrder | modules/statwrangler/commands.py:63 | the matches keep the saved order |
| StatCommands.Autocomplete | modules/statwrangler/commands.py:45-64 | no game gives no choices; there are at most 25, each a saved name of the game that matches the typed text |
| StatCommands.Suggestions | modules/statwrangler/commands.py:54-64 | no game gives no suggestions; there are at most 25, each a matching saved name |
| StatCommands.AutocompleteFirstMatches | modules/statwrangler/commands.py:57-64 | the choices are the first 25 matches, in saved order |
| StatCommands.AutocompleteIgnoresPadding | modules/statwrangler/commands.py:51 | surrounding whitespace in the typed text does not change the choices |
| StatCommands.SaveUsername | modules/statwrangler/commands.py:89-102 | the stripped name is appended iff it is non-empty and new; other games are untouched |
| StatCommands.SaveUsernameIdempotent | modules/statwrangler/commands.py:96-99 | saving the same name again changes nothing |
| StatCommands.SaveUsernameNoRepeats | modules/statwrangler/commands.py:96-98 | name lists without repeats stay without repeats |
| StatCommands.SaveUsernameAgrees | modules/statwrangler/commands.py:89-99 | for a normalised game and a stripped non-empty name the cog and the stand-alone bot save alike |
| StatCommands.PlatformCode | modules/statwrangler/commands.py:107-108 | exactly the three platform names have a site code |
| StatCommands.PlatformCodeInjective | modules/statwrangler/commands.py:107 | different platforms get different codes |
| StatCommands.ReadPlatform | modules/statwrangler/commands.py:105-113 | no platform iff none was given; invalid iff the stripped, lower-cased name is not a platform; otherwise its code |
| StatCommands.PaddedPlatform | modules/statwrangler/commands.py:106 | a padded platform name is accepted by the cog but rejected by the stand-alone bot |
| StatCommands.GameOf | modules/statwrangler/commands.py:115-123 | a game is known iff its key is siege, fortnite or valorant |
| StatCommands.GameNameRoundTrip | modules/statwrangler/commands.py:115-119 | each game's key reads back as that game, and each known key is its game's key |
| StatCommands.OrNotAvailable | modules/statwrangler/commands.py:142-145 | a shown stat is never empty; a present stat is shown as is |
| StatCommands.ValidateUrl | modules/statwrangler/commands.py:19-20 | a link is kept iff it is given, non-empty and a URL |
| StatCommands.ValidateUrlAgrees | modules/statwrangler/commands.py:19-20 | the cog and the stand-alone bot keep the same links when the empty string is not a URL |
| StatCommands.SiegeCardOf | modules/statwrangler/commands.py:142-168 | every stat on the Siege card is non-empty, and images are shown only from valid scraped URLs |
| StatCommands.SiegeCardNothingFound | modules/statwrangler/commands.py:142-147 | six `None` values give a card of "N/A" values with no images |
| StatCommands.R6Scrape | modules/statwrangler/events/r6/r6_scraper.py:18-144 | a finished scrape returns its six values; a timeout or an exception returns seven `None`s |
| StatCommands.CogSiegeCard | modules/statwrangler/commands.py:138-147 | the cog unpacks a result iff it has six values, into the card of those values; a seven-value result raises |
| StatCommands.LegacyUnpackCard | modules/statwrangler/main.py:147-157 | the stand-alone bot unpacks a result iff it has seven values; a six-value result raises |
| StatCommands.ScrapeArity | modules/statwrangler/main.py:147 | the cog shows a card iff the scrape finished, and the stand-alone bot iff it failed, then a card of five "N/A" values and no images |
| StatCommands.PullStatsFailedScrape | modules/statwrangler/commands.py:136-140 | a Siege request with a platform whose scrape times out or raises ends in the unpacking error, never a card |
| StatCommands.Answer | modules/statwrangler/commands.py:104-207 | an invalid platform is answered first, then an unknown game, then a Siege request without platform; Siege with a platform gets the card; Fortnite and Valorant get their link replies, the Valorant one as corrected under "## Findings" and equal to the reply as written on every well-formed Riot id |
| StatCommands.PullStats | modules/statwrangler/commands.py:82-209 | the command saves the name and answers by the same order of checks on the stripped name; the Valorant reply is the corrected one, equal to the reply as written on every well-formed Riot id |
| StatCommands.PullStatsAnswers | modules/statwrangler/commands.py:121-207 | a known game with a usable platform always reaches its scraper or its link reply, never a rejection |
| StatCommands.LinkGamesIgnorePlatform | modules/statwrangler/commands.py:179-207 | for Fortnite and Valorant any valid platform gives the same result |
| StatCommands.PullStatsOfNormal | modules/statwrangler/commands.py:89-90 | on normalised input the command answers from the platform and game as read |
| StatCommands.LegacyAutocomplete | modules/statwrangler/main.py:52-73 | the stand-alone bot offers nothing when no game is chosen |
| StatCommands.LegacyAutocompleteMembers | modules/statwrangler/main.py:63-72 | the stand-alone choices are the matching saved names plus the typed text itself when non-empty |
| StatCommands.LegacySaveUsername | modules/statwrangler/main.py:96-107 | the stand-alone bot appends the name as typed iff it is new, under the lower-cased game |
| StatCommands.LegacySavesEmptyName | modules/statwrangler/main.py:101-104 | the stand-alone bot saves the empty name, where the cog does not |
| StatCommands.LegacyReadPlatform | modules/statwrangler/main.py:109-122 | the stand-alone bot lower-cases without stripping before reading the platform |
| StatCommands.LegacyValidateUrl | modules/statwrangler/main.py:35-36 | the stand-alone bot keeps a link iff it is given and a URL |
| StatCommands.LegacySiegeCardOf | modules/statwrangler/main.py:151-157 | every stat on the stand-alone Siege card is non-empty, and images come only from valid URLs |
| StatCommands.LegacyPullStats | modules/statwrangler/main.py:91-202 | the stand-alone command fails with a KeyError on an unknown game with a valid platform, and otherwise answers by the same order of checks; the Valorant reply is the corrected one, equal to the reply as written on every well-formed Riot id |
| StatCommands.LegacyAgreesOnChoices | modules/statwrangler/main.py:96-200 | for a known game, a normalised name and a listed platform both bots save alike, give the same links, and agree on requiring a platform |
| StatCommands.LegacyPullStatsOfKnown | modules/statwrangler/main.py:131-136 | for a known game the stand-alone command answers from the platform and game as read |
| StatLinks.ParseRiotId | modules/statwrangler/events/valorant/link_gen.py:14-18 | a Riot id parses iff a non-empty name is followed by `#` and four digits, giving the name and the tag |
| StatLinks.ParseRiotIdOf | modules/statwrangler/events/valorant/link_gen.py:14-18 | a name without `#` joined to a four-digit tag parses back to the two |
| StatLinks.ParseRiotIdRejects | modules/statwrangler/events/valorant/link_gen.py:14-16 | an empty id, one starting with `#` or one without `#` is rejected |
| StatLinks.GenerateValLink | modules/statwrangler/events/valorant/link_gen.py:11-25 | the tuple of Nones is returned iff the id does not parse |
| StatLinks.ValLinkOf | modules/statwrangler/events/valorant/link_gen.py:18-22 | the tracker link embeds the name and the tag |
| StatLinks.ValorantReplyAsWritten | modules/statwrangler/commands.py:195-207 | as written, the Valorant reply is always an embed |
| StatLinks.ValorantReplyAsWrittenShowsTuple | modules/statwrangler/events/valorant/link_gen.py:23-25 | as written, an id without a tag is answered with the text of the tuple |
| StatLinks.ValorantReply | modules/statwrangler/commands.py:195-207 | the failure reply is given iff the id does not parse; otherwise the reply embeds the generated link |
| StatLinks.ValorantReplyAgrees | modules/statwrangler/commands.py:195-207 | on valid ids the corrected reply equals the reply as written and starts with the tracker prefix |
| StatLinks.GenerateLink | modules/statwrangler/events/fortnite/link_gen.py:11-18 | the Fortnite link is the profile prefix followed by the name |
| StatLinks.GenerateLinkInjective | modules/statwrangler/events/fortnite/link_gen.py:13 | different names give different, non-empty links |
| StatGuilds.Entry | modules/statwrangler/events/bot_init.py:37 | a new entry is an object whose id reads as the server's id |
| StatGuilds.AnyTracks | modules/statwrangler/events/bot_init.py:36 | the scan answers true only for a listed id, false iff no entry lists it and none is malformed, and fails only on a malformed entry |
| StatGuilds.AnyTracksWellFormed | modules/statwrangler/events/bot_init.py:36 | on well-formed entries the scan answers whether the id is listed |
| StatGuilds.AnyTracksAppended | modules/statwrangler/events/bot_init.py:36-37 | after appending its entry, a server is found |
| StatGuilds.JoinLoad | modules/statwrangler/events/bot_init.py:27-33 | loading fails iff the file cannot be decoded |
| StatGuilds.JoinGuild | modules/statwrangler/events/bot_init.py:22-42 | an undecodable file is an error; a missing or empty one becomes a one-entry list; otherwise the entry is appended iff the server is not listed, other keys kept; afterwards the server is tracked |
| StatGuilds.JoinAppends | modules/statwrangler/events/bot_init.py:36-37 | appending an unlisted server's entry tracks it and changes the list |
| StatGuilds.JoinGuildIdempotent | modules/statwrangler/events/bot_init.py:36-40 | joining the same server again gives the same file |
| StatGuilds.ReadyData | modules/statwrangler/events/bot_init.py:58-69 | a document with a server list is used as is; any other readable file starts from the empty list |
| StatGuilds.EntryIds | modules/statwrangler/events/bot_init.py:71 | an entry's ids are exactly the ids it tracks |
| StatGuilds.KnownIds | modules/statwrangler/events/bot_init.py:71 | the known ids are exactly the listed ids |
| StatGuilds.KnownIdsAppend | modules/statwrangler/events/bot_init.py:71 | the ids of two lists joined are the union of their ids |
| StatGuilds.UntrackedGuilds | modules/statwrangler/events/bot_init.py:74-77 | the servers to add are exactly the connected servers whose ids are not known |
| StatGuilds.Entries | modules/statwrangler/events/bot_init.py:76 | one entry per server, in order |
| StatGuilds.EntriesIds | modules/statwrangler/events/bot_init.py:71-76 | the ids of freshly written entries can always be read |
| StatGuilds.Initialised | modules/statwrangler/events/bot_init.py:58-60 | a missing or empty file is replaced by the empty document; any other file is kept |
| StatGuilds.Appended | modules/statwrangler/events/bot_init.py:56-77 | the servers appended are exactly the unlisted connected servers; an undecodable file counts as an empty list, and nothing is appended only when the handler raises on a malformed document |
| StatGuilds.ReadyTracks | modules/statwrangler/events/bot_init.py:56-84 | after ready a connected server is tracked |
| StatGuilds.ReadyTracksAll | modules/statwrangler/events/bot_init.py:56-84 | after ready every connected server is tracked |
| StatGuilds.ReadyWritesOnlyNew | modules/statwrangler/events/bot_init.py:82-84 | entries are added iff some connected server is unlisted; otherwise the file is only initialised |
| StatGuilds.ReadyKeepsEntries | modules/statwrangler/events/bot_init.py:74-84 | other keys and the old entries, in order at the front, are kept |
| StatGuilds.ReadyReadsBack | modules/statwrangler/events/bot_init.py:62-84 | the written file reads back as the old entries followed by the new ones |
| StatGuilds.ReadyAgainAppendsNothing | modules/statwrangler/events/bot_init.py:71-84 | a second ready with the same servers appends nothing |
| StatGuilds.ReadyOfInitialised | modules/statwrangler/events/bot_init.py:58-84 | when no server is new, ready leaves the initialised file as it is |
| StatGuilds.ReadyIdempotent | modules/statwrangler/events/bot_init.py:56-113 | running ready twice gives the same file as once |
| GuildTracker.Load | modules/core/guilds/guilds_tracker.py:32-45 | a document with a server list is used as is; anything else reads as no servers |
| GuildTracker.PutLookup | modules/core/guilds/guilds_tracker.py:64-69 | storing a record keeps keys unique, makes it the one found under its key, and keeps the others |
| GuildTracker.Collect | modules/core/guilds/guilds_tracker.py:53 | the records by id have unique keys, all with an id |
| GuildTracker.CollectLookup | modules/core/guilds/guilds_tracker.py:53 | the record found under an id is the last stored record with that id |
| GuildTracker.TouchAllLookup | modules/core/guilds/guilds_tracker.py:56-69 | after the loop each id's record is the reference result of seeing the connected servers in order |
| GuildTracker.MarkLeftLookup | modules/core/guilds/guilds_tracker.py:72-75 | only records of servers not connected are marked, and no record appears or disappears |
| GuildTracker.Upsert | modules/core/guilds/guilds_tracker.py:51-78 | the saved document keeps its other keys and lists the upserted records |
| GuildTracker.UpsertLookup | modules/core/guilds/guilds_tracker.py:51-78 | each id's saved record is the one the per-id reference definition gives |
| GuildTracker.UpsertNeverDeletes | modules/core/guilds/guilds_tracker.py:51-78 | a server has a record afterwards iff it had one before or is connected now |
| GuildTracker.UpsertRefreshes | modules/core/guilds/guilds_tracker.py:56-69 | a connected server gets the current time and its name, keeps its other fields, and a new one is joined now and not left |
| GuildTracker.SeenAllStamps | modules/core/guilds/guilds_tracker.py:60-62 | a seen server's last-seen time is now and its name is the last one seen |
| GuildTracker.SeenAllKeeps | modules/core/guilds/guilds_tracker.py:60-62 | seeing a known server keeps every field but the name and last-seen time |
| GuildTracker.SeenAllNew | modules/core/guilds/guilds_tracker.py:63-69 | a new server is recorded with its id and joined now, not left |
| GuildTracker.UpsertMarksLeft | modules/core/guilds/guilds_tracker.py:72-75 | a server no longer connected gets the current leave time unless it already has one |
| GuildTracker.LeaveKeepsEarlier | modules/core/guilds/guilds_tracker.py:75 | an earlier leave time is never replaced |
| GuildTracker.ReadBack | modules/core/guilds/guilds_tracker.py:32-78 | the saved file reads back as the upserted records |
| GuildTracker.UpsertIdempotent | modules/core/guilds/guilds_tracker.py:51-78 | upserting the same servers again at the same time changes no record |
| StreamEnv.MissingOf | modules/streamsentinel/env_check.py:24-28 | the missing list holds exactly the unset required variables |
| StreamEnv.MissingInOrder | modules/streamsentinel/env_check.py:24-31 | missing variables are listed in declaration order |
| StreamEnv.NoneMissing | modules/streamsentinel/env_check.py:24-30 | nothing is missing iff every required variable is set |
| StreamEnv.GetEnvOr | modules/streamsentinel/env_check.py:21-22 | an unset optional variable takes its default |
| StreamEnv.GetEnvVars | modules/streamsentinel/env_check.py:14-47 | a bad poll interval fails first; then missing variables are reported iff some is unset; then a bad channel id; otherwise every setting is loaded from its variable or default |
| StreamEnv.DefaultPollText | modules/streamsentinel/env_check.py:22 | the default interval is 60 seconds, written "60" |
| StreamEnv.Defaults | modules/streamsentinel/env_check.py:21-22 | unset optional variables give the default timezone and interval |
| StreamEnv.GetEnvVarsRoundTrip | modules/streamsentinel/env_check.py:40-47 | an environment written from settings reads back as those settings |
| TwitchAuth.Lifetime | modules/streamsentinel/twitch_auth.py:42 | a missing lifetime counts as zero seconds |
| TwitchAuth.GetToken | modules/streamsentinel/twitch_auth.py:11-47 | a request is made iff credentials exist and the cached token is not reusable; a returned token is non-empty and cached |
| TwitchAuth.NoCredentials | modules/streamsentinel/twitch_auth.py:20-22 | without client id and secret there is no token, no request and no cache change |
| TwitchAuth.ReuseValid | modules/streamsentinel/twitch_auth.py:25-26 | a cached token valid for more than the margin is reused without a request |
| TwitchAuth.Refresh | modules/streamsentinel/twitch_auth.py:34-47 | a token in the response is cached until now plus its lifetime; a failed or empty response gives no token and keeps the cache |
| TwitchAuth.FreshTokenReused | modules/streamsentinel/twitch_auth.py:25-43 | a fetched token is reused until the margin before it expires |
| TwitchAuth.ShortLivedNotReused | modules/streamsentinel/twitch_auth.py:25-26 | a token whose lifetime is within the margin is fetched again on the next call |
| TwitchAuth.HeadersSpec | modules/streamsentinel/twitch_auth.py:49-59 | headers exist iff a token does; they are exactly Client-ID and `Bearer <token>` |
| StreamerList.LineKeyShape | modules/streamsentinel/streamer_list_loader.py:24-27 | a non-empty login read from a line is lower case, stripped and free of `#` |
| StreamerList.LineKeyLower | modules/streamsentinel/streamer_list_loader.py:27 | logins are lower case |
| StreamerList.LineKeyNoHash | modules/streamsentinel/streamer_list_loader.py:24 | logins contain no `#` |
| StreamerList.LineKeyStripped | modules/streamsentinel/streamer_list_loader.py:24 | logins have no surrounding whitespace |
| StreamerList.NonEmptyKeysFrom | modules/streamsentinel/streamer_list_loader.py:22-26 | every login kept is non-empty and comes from a line |
| StreamerList.NonEmptyKeysComplete | modules/streamsentinel/streamer_list_loader.py:22-26 | every non-blank line's login is kept |
| StreamerList.LoadStreamers | modules/streamsentinel/streamer_list_loader.py:6-34 | the loop gives no streamers for a missing file and otherwise the de-duplicated logins |
| StreamerList.StreamersSpec | modules/streamsentinel/streamer_list_loader.py:22-31 | the list has no repeats, only well-formed logins, and exactly the logins of the non-blank lines |
| StreamerList.RepeatsAndBlanksIgnored | modules/streamsentinel/streamer_list_loader.py:24-31 | lines that are blank, comments or repeats do not change the list |
| TwitchStatus.BatchLogins | modules/streamsentinel/twitch_stream_status.py:26-44 | no query for no logins; otherwise the first 100 logins at most |
| TwitchStatus.GameIdsQuery | modules/streamsentinel/twitch_stream_status.py:47-52 | no query for no ids; otherwise exactly the given ids |
| TwitchStatus.ExactMatch | modules/streamsentinel/twitch_stream_status.py:99-105 | the search hit used is the first whose lower-cased display name equals the lowered query |
| TwitchStatus.OrElse | modules/streamsentinel/twitch_stream_status.py:90-108 | a present, non-empty value wins over the fallback |
| TwitchStatus.ResolveOneSpec | modules/streamsentinel/twitch_stream_status.py:83-109 | a name resolves to a lower-case login: the user's login when found, the name itself when the user has none; no resolution iff neither users nor search results exist |
| TwitchStatus.Resolutions | modules/streamsentinel/twitch_stream_status.py:79-109 | the resolutions are exactly the input names paired with what they resolve to |
| TwitchStatus.ResolveToLoginsSpec | modules/streamsentinel/twitch_stream_status.py:68-119 | every resolved name appears; no name or login is repeated; each pair is the first for its login |
| TwitchStatus.LookupLogin | modules/streamsentinel/commands.py:39 | a listed name has a login iff the table resolves it |
| TwitchStatus.ResolvedLogins | modules/streamsentinel/commands.py:39 | the logins polled are exactly the resolutions of the listed names |
| TwitchStatus.HoursMinutes | modules/streamsentinel/twitch_stream_status.py:130-133 | a duration splits into whole hours and minutes under 60 that add up to its whole minutes |
| TwitchStatus.HmTextRoundTripWith | modules/streamsentinel/twitch_stream_status.py:134-136 | the hours-and-minutes text reads back as its total minutes |
| TwitchStatus.DurationRoundTrip | modules/streamsentinel/twitch_stream_status.py:130-136 | the formatted duration reads back as the whole minutes elapsed |
| TwitchStatus.GamesById | modules/streamsentinel/twitch_stream_status.py:55 | the games are indexed by exactly their ids, each to a game with that id |
| TwitchStatus.StreamGameIds | modules/streamsentinel/twitch_stream_status.py:147 | the game ids queried are exactly the non-empty ids of the live streams |
| TwitchStatus.CardDefaults | modules/streamsentinel/twitch_stream_status.py:150-182 | missing stream fields take their defaults on the card, and the box art is the game's, resized, when known |
| TwitchStatus.Cards | modules/streamsentinel/twitch_stream_status.py:150-166 | there is a card for exactly the lower-cased logins of the live streams |
| TwitchStatus.CardsLastWins | modules/streamsentinel/twitch_stream_status.py:151-166 | a login's card comes from its last stream record |
| TwitchStatus.LastWithLogin | modules/streamsentinel/twitch_stream_status.py:166 | the index found is the last record with the login |
| StreamWatch.StartOf | modules/streamsentinel/commands.py:77-81 | a start time is recorded iff the card has a non-empty one |
| StreamWatch.StartPhase | modules/streamsentinel/commands.py:48-82 | no entry is dropped; an entry changes only for a live login that had no state, no message id or an ended announcement, and then becomes exactly the card's start, the posted message id and not ended; open entries and the entries of logins not live are untouched; without a send failure every live login ends with an open announcement |
| StreamWatch.KeptFields | modules/streamsentinel/commands.py:109-111 | the kept fields are exactly those not named Ended or Duration |
| StreamWatch.EndedFields | modules/streamsentinel/commands.py:109-119 | an ended embed's fields are the kept ones followed by Ended and Duration |
| StreamWatch.EndedFieldsCounts | modules/streamsentinel/commands.py:108-119 | exactly one Ended field and one Duration field remain, and other fields keep their counts |
| StreamWatch.EndedFieldsReplace | modules/streamsentinel/commands.py:108-119 | ending twice gives the same fields as ending once with the later values |
| StreamWatch.EndedEmbed | modules/streamsentinel/commands.py:102-120 | the ended embed keeps the old title, replaces the end fields, and has the "Stream ended" footer |
| StreamWatch.EndedDuration | modules/streamsentinel/commands.py:98-100 | without a recorded start the duration is zero |
| StreamWatch.EndOne | modules/streamsentinel/commands.py:85-129 | only an open offline announcement changes; it becomes ended iff the message is gone or the edit succeeds |
| StreamWatch.EndLoop | modules/streamsentinel/commands.py:85-129 | the loop over the state's items keeps every login of the state |
| StreamWatch.EndLoopAnyOrder | modules/streamsentinel/commands.py:85-129 | in whatever order the dict yields its keys, the loop ends each login exactly as its own end event would, so the result does not depend on the order |
| StreamWatch.PollNoOp | modules/streamsentinel/commands.py:22-41 | without a channel, streamers or resolved logins the poll changes nothing |
| StreamWatch.PollNeverForgets | modules/streamsentinel/commands.py:22-129 | no entry is ever removed, and new ones are live |
| StreamWatch.PollAnnouncesLive | modules/streamsentinel/commands.py:47-87 | after a poll in which no announcement failed to post, every live streamer has an open announcement |
| StreamWatch.EndKeepsOpenLive | modules/streamsentinel/commands.py:86-87 | the end phase keeps live streamers' announcements open |
| StreamWatch.PollKeepsClosedOffline | modules/streamsentinel/commands.py:53-89 | a login that is not live and has no open announcement is left exactly as it was by a poll |
| StreamWatch.PollKeepsOpenLive | modules/streamsentinel/commands.py:53-55 | a live streamer already announced is left exactly as it was |
| StreamWatch.PollEndsOffline | modules/streamsentinel/commands.py:89-129 | an offline streamer's open announcement ends iff its message is gone or the edit succeeds |

## Left out

- Text: `str.lower`, `str.strip`, `isspace` and `\d` are modelled on ASCII only.
- Json: `str()` of a list or object is a placeholder text, and floating-point JSON numbers are not modelled.
- Times are integer seconds, and each handler reads the clock once. PilotAI's `on_message` reads `utcnow` twice; both reads are taken to be equal.
- Discord, HTTP, OpenAI and file I/O are not modelled. Each becomes an outcome parameter: a sent message id, a failure, a response body, or the file's decoded content.
- Concurrency and timers are not modelled: `tasks.loop`, `wait_for` timeouts (a timeout is an event), the cleanup period, `cog_load` and task start-up.
- The texts of messages, embeds and logs are not modelled beyond the facts the contracts state. `strftime` formatting is a parameter.
- `validators.url` is an uninterpreted predicate. The scraper dispatch by `inspect.signature` is a per-game flag.
- The browser scrapers (`r6_scraper.py`, `val_scraper.py`, `fort_scraper.py`) are not modelled beyond their results, which are inputs. Only the shape of the Siege scraper's result is modelled: six values when the page was read, seven `None`s on a timeout or an exception. The cog's `pull_stats` unpacks six, so a failed Siege scrape raises inside the command; the stand-alone bot unpacks seven, so a successful one raises there. `modules/statwrangler/events/__init__.py` imports a differently named Siege module, which is not part of this model.
- `who_has_role` and `user_roles` (modules/rolecop/cog.py:276-306) are not modelled. They are read-only listing commands.
- The DM text sent to the requester is not modelled. Only whether a notice is attempted, and whether the send went through, was refused with `Forbidden` or raised something else, is modelled.
- RoleCopRequests.ExecuteRequest: on a denial whose notice raises something other than `Forbidden`, the exception escapes the button callback; the model records this as a `Denied` outcome whose notice raised, since nothing after it runs.
- Failures of `_save` and of file writes are not modelled. Writes are taken to succeed.
- ConfigLoader.AsDict: `dict()` of a non-empty list is taken to raise. In Python it can succeed on a list of pairs.
- RoleCop's settings path constant and `load_dotenv` are not modelled. The environment is a map.
- StreamWatch.EndLoop: the stand-alone StreamSentinel bot looks up the channel again before editing (modules/streamsentinel/main.py:88-90). That lookup is taken to succeed, so the stand-alone loop is the same machine as the cog's.
- `user_login` is taken to be present in every stream record.
- TwitchAuth.Lifetime: `int(expires_in or 0)` on a value that is not an integer is not modelled. A lifetime is an integer or absent.
- StatCommands.Answer: the Valorant branch gives the corrected reply (StatLinks.ValorantReply), so a malformed Riot id gets the failure notice where the command as written embeds "(None, None, None)" (see "## Findings"). On every well-formed id the two replies are equal, and the contract says so.
- StatCommands.PullStats: uses the corrected Valorant reply through StatCommands.Answer, with the same difference on malformed Riot ids.
- StatCommands.LegacyPullStats: uses the corrected Valorant reply through StatCommands.Answer; the stand-alone bot as written (modules/statwrangler/main.py:189-200) embeds the tuple's text just like the cog.
- KickVote.Step: a confirmed kick records the corrected report (KickVote.KickMember), whose success follow-up the code as written never sends because of the NameError at modules/rolecop/commands/kick.py:20 (see "## Findings"). Whether the member is kicked, and every failure follow-up, agree with the code as written.
- KickVote.Confirmation: states the corrected report for a confirmed kick, like KickVote.Step; it also states that the kick itself and the failure follow-ups are those of KickVote.KickMemberAsWritten.
- PilotLegacy: `bot.user` is taken to be set once the bot is connected.

## Findings

| source | as written | input that shows it | evidently intended | confidence | as-written member | corrected member |
|---|---|---|---|---|---|---|
| modules/statwrangler/commands.py:195-199 | `if not url` is meant to catch a malformed Riot id, but `generate_val_link` returns the tuple `(None, None, None)` on failure (modules/statwrangler/events/valorant/link_gen.py:23-25), and a non-empty tuple is truthy, so the reply embeds the tuple's text | username "player" (no `#tag`) | reply "Failed to generate the Valorant link." | not executed | StatLinks.ValorantReplyAsWritten | StatLinks.ValorantReply |
| modules/rolecop/commands/kick.py:20 | after a successful kick the function calls `log_request_kick`, whose import is commented out (kick.py:8), so a NameError is raised and the success follow-up is never sent | both admin approvals given and `member.kick` succeeds | the success follow-up is sent | not executed | KickVote.KickMemberAsWritten | KickVote.KickMember |

=== FILE: base.dfy ===
/** Failure-carrying wrappers shared by every module of the model. */
module Base {

  /** A value that may be absent: Python's `None` or a missing dict key. */
  datatype Option<+T> = None | Some(value: T) {

    /** The wrapped value, or `default` when there is none (Python `x if x is not None else d`). */
    function GetOr(default: T): T {
      match this
      case Some(v) => v
      case None => default
    }
  }

  /** Either a value or the error the source raises or returns instead. */
  datatype Result<+R, +E> = Ok(value: R) | Err(error: E)

  /** The process environment: variable names to values (`os.getenv`). */
  type Env = map<string, string>

  /** `os.getenv(name)`: the value when set, None otherwise. */
  function GetEnv(env: Env, name: string): (r: Option<string>)
    ensures r.Some? <==> name in env
    ensures r.Some? ==> r.value == env[name]
  {
    if name in env then Some(env[name]) else None
  }

  /** A variable counts as provided only when it is set to a non-empty value (`if not value`). */
  predicate Provided(env: Env, name: string) {
    name in env && env[name] != ""
  }
}

=== FILE: guild_tracker.dfy ===
/**
 * The core guild tracker (modules/core/guilds/guilds_tracker.py): the file
 * `{"servers": [...]}` that keeps one record per Discord server the bot has
 * ever seen, refreshed with the connected servers on every upsert. Records
 * are never deleted; servers no longer connected get a `left_at_utc` stamp.
 *
 * The clock is the parameter `now`, the ISO text `_utc_now` would return.
 * Python dictionaries are sequences of records kept in insertion order, a
 * record's key being `str(record.get("id"))`.
 */
module GuildTracker {
  import opened Base
  import opened Text
  import opened Json

  /** A connected Discord server. */
  datatype Guild = Guild(id: int, name: string)

  /** The guild file: absent, unreadable or undecodable (any exception), or a decoded document. */
  datatype TrackerFile = Missing | Unreadable | Doc(doc: Json)

  /** One server record: a JSON object. */
  type Rec = map<string, Json>

  const ServersKey: string := "servers"
  const NameField: string := "name"
  const JoinedField: string := "joined_at_utc"
  const SeenField: string := "last_seen_utc"
  const LeftField: string := "left_at_utc"

  /** `{"servers": []}`. */
  const EmptyData: map<string, Json> := map[ServersKey := JList([])]

  /**
   * `_load`: the document when it is an object whose `servers` is a list,
   * otherwise `{"servers": []}`.
   */
  function Load(file: TrackerFile): (data: map<string, Json>)
    ensures ServersKey in data && data[ServersKey].JList?
    ensures file.Doc? && file.doc.JObj? && ServersKey in file.doc.fields && file.doc.fields[ServersKey].JList?
      ==> data == file.doc.fields
    ensures !(file.Doc? && file.doc.JObj? && ServersKey in file.doc.fields && file.doc.fields[ServersKey].JList?)
      ==> data == EmptyData
  {
    match file
    case Doc(JObj(m)) => if ServersKey in m && m[ServersKey].JList? then m else EmptyData
    case _ => EmptyData
  }

  // ---------------------------------------------------------------- records by key

  /** `str(s.get("id"))`. */
  function Key(r: Rec): string {
    PyStr(Get(r, "id", JNull))
  }

  /** No two records share a key, as in a dictionary keyed by it. */
  predicate UniqueKeys(d: seq<Rec>) {
    forall i, j :: 0 <= i < |d| && 0 <= j < |d| && i != j ==> Key(d[i]) != Key(d[j])
  }

  /** Every record has an `id` field. */
  predicate HasIds(d: seq<Rec>) {
    forall i :: 0 <= i < |d| ==> "id" in d[i]
  }

  /** The position of the record with key `k`. */
  function Find(d: seq<Rec>, k: string): (r: Option<nat>)
    ensures r.Some? ==> r.value < |d| && Key(d[r.value]) == k
    ensures r.None? <==> forall i :: 0 <= i < |d| ==> Key(d[i]) != k
  {
    if |d| == 0 then None
    else if Key(d[0]) == k then Some(0)
    else match Find(d[1..], k)
      case None =>
        assert forall i :: 1 <= i < |d| ==> d[i] == d[1..][i - 1];
        None
      case Some(i) => Some(i + 1)
  }

  /** `by_id.get(k)`. */
  function Lookup(d: seq<Rec>, k: string): (r: Option<Rec>)
    ensures r.Some? ==> r.value in d && Key(r.value) == k
    ensures r.None? <==> forall i :: 0 <= i < |d| ==> Key(d[i]) != k
  {
    match Find(d, k)
    case None => None
    case Some(i) => Some(d[i])
  }

  /** With unique keys, a record is found under its own key. */
  lemma LookupOwn(d: seq<Rec>, i: nat)
    requires UniqueKeys(d) && i < |d|
    ensures Lookup(d, Key(d[i])) == Some(d[i])
  {
  }

  /** `by_id[Key(r)] = r`: replaces the record with that key where it stands, or appends it. */
  function Put(d: seq<Rec>, r: Rec): seq<Rec> {
    match Find(d, Key(r))
    case Some(i) => d[i := r]
    case None => d + [r]
  }

  /** Storing a record keeps keys unique, answers it under its key, and changes no other key's record. */
  lemma PutLookup(d: seq<Rec>, r: Rec, k: string)
    requires UniqueKeys(d)
    ensures UniqueKeys(Put(d, r))
    ensures Lookup(Put(d, r), k) == if k == Key(r) then Some(r) else Lookup(d, k)
  {
    match Find(d, Key(r)) {
      case Some(i) => ReplaceLookup(d, i, r, k);
      case None => AppendLookup(d, r, k);
    }
  }

  /** Replacing the record with the same key. */
  lemma ReplaceLookup(d: seq<Rec>, i: nat, r: Rec, k: string)
    requires UniqueKeys(d) && i < |d| && Key(d[i]) == Key(r)
    ensures UniqueKeys(d[i := r])
    ensures Lookup(d[i := r], k) == if k == Key(r) then Some(r) else Lookup(d, k)
  {
    var p := d[i := r];
    assert forall j :: 0 <= j < |p| ==> Key(p[j]) == Key(d[j]);
    if k == Key(r) {
      LookupOwn(p, i);
    } else if Lookup(d, k).Some? {
      var j := Find(d, k).value;
      assert p[j] == d[j];
      LookupOwn(p, j);
    }
  }

  /** Appending a record with a new key. */
  lemma AppendLookup(d: seq<Rec>, r: Rec, k: string)
    requires UniqueKeys(d) && forall j :: 0 <= j < |d| ==> Key(d[j]) != Key(r)
    ensures UniqueKeys(d + [r])
    ensures Lookup(d + [r], k) == if k == Key(r) then Some(r) else Lookup(d, k)
  {
    var p := d + [r];
    assert forall j :: 0 <= j < |d| ==> p[j] == d[j];
    if k == Key(r) {
      LookupOwn(p, |d|);
    } else if Lookup(d, k).Some? {
      var j := Find(d, k).value;
      LookupOwn(p, j);
    }
  }

  // ---------------------------------------------------------------- loading the records

  /** `isinstance(s, dict) and "id" in s`. */
  predicate IsRecord(s: Json) {
    s.JObj? && "id" in s.fields
  }

  /** The last record in `xs` whose key is `k`: the one a dictionary comprehension keeps. */
  function LastRecord(xs: seq<Json>, k: string): (r: Option<Rec>)
    ensures r.Some? ==> Key(r.value) == k
  {
    if |xs| == 0 then None
    else
      var last := xs[|xs| - 1];
      if IsRecord(last) && Key(last.fields) == k then Some(last.fields)
      else LastRecord(xs[..|xs| - 1], k)
  }

  /** `by_id`: the records of `servers` by key; non-objects and entries without `id` are dropped. */
  function Collect(xs: seq<Json>): (d: seq<Rec>)
    ensures UniqueKeys(d) && HasIds(d)
    ensures |d| <= |xs|
  {
    if |xs| == 0 then []
    else
      var d := Collect(xs[..|xs| - 1]);
      var last := xs[|xs| - 1];
      if IsRecord(last) then
        PutLookup(d, last.fields, "");
        PutSize(d, last.fields);
        Put(d, last.fields)
      else d
  }

  /** Storing a record adds at most one. */
  lemma PutSize(d: seq<Rec>, r: Rec)
    ensures |Put(d, r)| <= |d| + 1
    ensures HasIds(d) && "id" in r ==> HasIds(Put(d, r))
  {
  }

  /** Each key keeps the last record bearing it, and only keys of records are present. */
  lemma {:induction false} CollectLookup(xs: seq<Json>, k: string)
    ensures Lookup(Collect(xs), k) == LastRecord(xs, k)
    decreases |xs|
  {
    if |xs| > 0 {
      var init := xs[..|xs| - 1];
      CollectLookup(init, k);
      var last := xs[|xs| - 1];
      if IsRecord(last) {
        PutLookup(Collect(init), last.fields, k);
      }
    }
  }

  // ---------------------------------------------------------------- the upsert

  /** The record written for a guild seen for the first time. */
  function NewRecord(g: Guild, now: string): (r: Rec)
    ensures Key(r) == IntToString(g.id)
  {
    map["id" := JInt(g.id), NameField := JStr(g.name), JoinedField := JStr(now), SeenField := JStr(now)]
  }

  /** The record of a connected guild after the loop body: refreshed when known, new otherwise. */
  function Seen(known: Option<Rec>, g: Guild, now: string): (r: Rec)
    requires known.Some? ==> Key(known.value) == IntToString(g.id)
    ensures Key(r) == IntToString(g.id)
    ensures "id" in r <==> known.None? || "id" in known.value
  {
    match known
    case None => NewRecord(g, now)
    case Some(rec) =>
      var r := rec[NameField := JStr(g.name)][SeenField := JStr(now)];
      assert Get(r, "id", JNull) == Get(rec, "id", JNull);
      r
  }

  /** One pass of the `for g in guilds` loop. */
  function Touch(d: seq<Rec>, g: Guild, now: string): (r: seq<Rec>)
    requires UniqueKeys(d)
    ensures HasIds(d) ==> HasIds(r)
  {
    var known := Lookup(d, IntToString(g.id));
    PutSize(d, Seen(known, g, now));
    Put(d, Seen(known, g, now))
  }

  /** The whole loop. */
  function TouchAll(d: seq<Rec>, guilds: seq<Guild>, now: string): (r: seq<Rec>)
    requires UniqueKeys(d)
    ensures UniqueKeys(r)
    ensures HasIds(d) ==> HasIds(r)
    decreases |guilds|
  {
    if |guilds| == 0 then d
    else
      PutLookup(d, Seen(Lookup(d, IntToString(guilds[0].id)), guilds[0], now), "");
      TouchAll(Touch(d, guilds[0], now), guilds[1..], now)
  }

  /**
   * The reference for one key: the record the loop leaves under `k`, from
   * the record `known` there before, applying the body for each guild with that id in turn.
   */
  function SeenAll(known: Option<Rec>, guilds: seq<Guild>, k: string, now: string): (r: Option<Rec>)
    requires known.Some? ==> Key(known.value) == k
    ensures r.Some? ==> Key(r.value) == k
    decreases |guilds|
  {
    if |guilds| == 0 then known
    else
      var next := if IntToString(guilds[0].id) == k then Some(Seen(known, guilds[0], now)) else known;
      SeenAll(next, guilds[1..], k, now)
  }

  /** The loop leaves each key's record as the per-key reference says. */
  lemma {:induction false} TouchAllLookup(d: seq<Rec>, guilds: seq<Guild>, now: string, k: string)
    requires UniqueKeys(d)
    ensures Lookup(TouchAll(d, guilds, now), k) == SeenAll(Lookup(d, k), guilds, k, now)
    decreases |guilds|
  {
    if |guilds| > 0 {
      var g := guilds[0];
      var d1 := Touch(d, g, now);
      PutLookup(d, Seen(Lookup(d, IntToString(g.id)), g, now), k);
      TouchAllLookup(d1, guilds[1..], now, k);
    }
  }

  /** The ids of the connected guilds, as `current_ids`. */
  function CurrentIds(guilds: seq<Guild>): (ids: set<string>)
    ensures forall k :: k in ids <==> exists i :: 0 <= i < |guilds| && IntToString(guilds[i].id) == k
  {
    set i | 0 <= i < |guilds| :: IntToString(guilds[i].id)
  }

  /** `rec["left_at_utc"] = rec.get("left_at_utc") or now`. */
  function Leave(rec: Rec, now: string): (r: Rec)
    ensures Key(r) == Key(rec)
    ensures "id" in r <==> "id" in rec
  {
    var left := Get(rec, LeftField, JNull);
    var r := rec[LeftField := if Truthy(left) then left else JStr(now)];
    assert Get(r, "id", JNull) == Get(rec, "id", JNull);
    r
  }

  /** The marking loop: every record whose key is not a connected guild's gets a leaving time. */
  function MarkLeft(d: seq<Rec>, current: set<string>, now: string): (r: seq<Rec>)
    ensures |r| == |d|
    ensures forall i :: 0 <= i < |d| ==> r[i] == if Key(d[i]) in current then d[i] else Leave(d[i], now)
  {
    seq(|d|, i requires 0 <= i < |d| => if Key(d[i]) in current then d[i] else Leave(d[i], now))
  }

  /** Marking keeps keys and answers each key with its marked record. */
  lemma MarkLeftLookup(d: seq<Rec>, current: set<string>, now: string, k: string)
    requires UniqueKeys(d)
    ensures UniqueKeys(MarkLeft(d, current, now))
    ensures Lookup(MarkLeft(d, current, now), k) ==
      match Lookup(d, k)
      case None => None
      case Some(rec) => Some(if k in current then rec else Leave(rec, now))
  {
    var m := MarkLeft(d, current, now);
    assert forall i :: 0 <= i < |d| ==> Key(m[i]) == Key(d[i]);
    if Lookup(d, k).Some? {
      var i := Find(d, k).value;
      LookupOwn(m, i);
    }
  }

  /** The records `_upsert_guilds` saves, in dictionary order. */
  function UpsertRecords(file: TrackerFile, guilds: seq<Guild>, now: string): (d: seq<Rec>)
    ensures UniqueKeys(d) && HasIds(d)
  {
    var d := TouchAll(Collect(Load(file)[ServersKey].items), guilds, now);
    MarkLeftLookup(d, CurrentIds(guilds), now, "");
    MarkLeft(d, CurrentIds(guilds), now)
  }

  /** `_upsert_guilds`: the document saved, its other keys untouched. */
  function Upsert(file: TrackerFile, guilds: seq<Guild>, now: string): (saved: Json)
    ensures saved.JObj? && ServersKey in saved.fields && saved.fields[ServersKey].JList?
    ensures forall k :: k in Load(file) && k != ServersKey ==> k in saved.fields && saved.fields[k] == Load(file)[k]
    ensures |saved.fields[ServersKey].items| == |UpsertRecords(file, guilds, now)|
    ensures forall i :: 0 <= i < |saved.fields[ServersKey].items| ==>
      saved.fields[ServersKey].items[i] == JObj(UpsertRecords(file, guilds, now)[i])
  {
    var d := UpsertRecords(file, guilds, now);
    JObj(Load(file)[ServersKey := JList(seq(|d|, i requires 0 <= i < |d| => JObj(d[i])))])
  }

  /**
   * The reference for the whole upsert at one key: the record loaded there
   * refreshed by the connected guilds with that id, or, when none has it, marked as left.
   */
  function Final(before: Option<Rec>, guilds: seq<Guild>, k: string, now: string): (r: Option<Rec>)
    requires before.Some? ==> Key(before.value) == k
    ensures r.Some? ==> Key(r.value) == k
  {
    if k in CurrentIds(guilds) then SeenAll(before, guilds, k, now)
    else match before
      case None => None
      case Some(rec) => Some(Leave(rec, now))
  }

  /**
   * What the upsert leaves under each key: the last loaded record with that
   * key, refreshed by every connected guild with that id, or, when no
   * connected guild has it, marked as left.
   */
  lemma UpsertLookup(file: TrackerFile, guilds: seq<Guild>, now: string, k: string)
    ensures Lookup(UpsertRecords(file, guilds, now), k) == Final(LastRecord(Load(file)[ServersKey].items, k), guilds, k, now)
  {
    var xs := Load(file)[ServersKey].items;
    var c := Collect(xs);
    CollectLookup(xs, k);
    var d := TouchAll(c, guilds, now);
    TouchAllLookup(c, guilds, now, k);
    MarkLeftLookup(d, CurrentIds(guilds), now, k);
    if k !in CurrentIds(guilds) {
      SeenAllUntouched(LastRecord(xs, k), guilds, k, now);
    }
  }

  /** Guilds with another id leave a key's record alone. */
  lemma {:induction false} SeenAllUntouched(known: Option<Rec>, guilds: seq<Guild>, k: string, now: string)
    requires known.Some? ==> Key(known.value) == k
    requires k !in CurrentIds(guilds)
    ensures SeenAll(known, guilds, k, now) == known
    decreases |guilds|
  {
    if |guilds| > 0 {
      assert IntToString(guilds[0].id) in CurrentIds(guilds);
      assert CurrentIds(guilds[1..]) <= CurrentIds(guilds) by {
        forall x | x in CurrentIds(guilds[1..]) ensures x in CurrentIds(guilds) {
          var i :| 0 <= i < |guilds[1..]| && IntToString(guilds[1..][i].id) == x;
          assert guilds[1..][i] == guilds[i + 1];
        }
      }
      SeenAllUntouched(known, guilds[1..], k, now);
    }
  }

  /** The name the last connected guild with id text `k` has. */
  function LastName(guilds: seq<Guild>, k: string, default: string): string
    decreases |guilds|
  {
    if |guilds| == 0 then default
    else LastName(guilds[1..], k, if IntToString(guilds[0].id) == k then guilds[0].name else default)
  }

  /**
   * A connected guild's record is refreshed: it exists, its `last_seen_utc`
   * is `now` and its name is the name of the last connected guild with that id.
   */
  lemma {:induction false} SeenAllStamps(known: Option<Rec>, guilds: seq<Guild>, k: string, now: string, default: string)
    requires known.Some? ==> Key(known.value) == k
    requires k in CurrentIds(guilds)
    ensures var r := SeenAll(known, guilds, k, now);
      && r.Some?
      && SeenField in r.value && r.value[SeenField] == JStr(now)
      && NameField in r.value && r.value[NameField] == JStr(LastName(guilds, k, default))
    decreases |guilds|
  {
    var g := guilds[0];
    var rest := guilds[1..];
    var next := if IntToString(g.id) == k then Some(Seen(known, g, now)) else known;
    var d2 := if IntToString(g.id) == k then g.name else default;
    if k in CurrentIds(rest) {
      SeenAllStamps(next, rest, k, now, d2);
    } else {
      FirstIsK(guilds, k);
      SeenAllUntouched(next, rest, k, now);
      LastNameUntouched(rest, k, d2);
    }
  }

  /** When `k` is among the ids but not among those after the first guild, the first guild has it. */
  lemma FirstIsK(guilds: seq<Guild>, k: string)
    requires k in CurrentIds(guilds) && k !in CurrentIds(guilds[1..])
    ensures IntToString(guilds[0].id) == k
  {
  }

  /** Refreshing a known record changes only its name and `last_seen_utc`: every other field is kept. */
  lemma {:induction false} SeenAllKeeps(known: Option<Rec>, guilds: seq<Guild>, k: string, now: string, f: string)
    requires known.Some? && Key(known.value) == k
    requires f != NameField && f != SeenField
    ensures var r := SeenAll(known, guilds, k, now);
      && r.Some?
      && (f in r.value <==> f in known.value)
      && (f in known.value ==> r.value[f] == known.value[f])
    decreases |guilds|
  {
    if |guilds| > 0 {
      var g := guilds[0];
      var next := if IntToString(g.id) == k then Some(Seen(known, g, now)) else known;
      SeenAllKeeps(next, guilds[1..], k, now, f);
    }
  }

  /** A guild seen for the first time gets `joined_at_utc` = `now`, its integer id, and no `left_at_utc`. */
  lemma {:induction false} SeenAllNew(guilds: seq<Guild>, k: string, now: string)
    requires k in CurrentIds(guilds)
    ensures var r := SeenAll(None, guilds, k, now);
      && r.Some?
      && JoinedField in r.value && r.value[JoinedField] == JStr(now)
      && LeftField !in r.value
      && "id" in r.value && r.value["id"].JInt? && IntToString(r.value["id"].i) == k
    decreases |guilds|
  {
    var g := guilds[0];
    var rest := guilds[1..];
    if IntToString(g.id) == k {
      var first := NewRecord(g, now);
      SeenAllKeeps(Some(first), rest, k, now, JoinedField);
      SeenAllKeeps(Some(first), rest, k, now, LeftField);
      SeenAllKeeps(Some(first), rest, k, now, "id");
    } else {
      assert k in CurrentIds(rest) by {
        var i :| 0 <= i < |guilds| && IntToString(guilds[i].id) == k;
        assert rest[i - 1] == guilds[i];
      }
      SeenAllNew(rest, k, now);
    }
  }

  /** Guilds with another id leave the last name alone. */
  lemma {:induction false} LastNameUntouched(guilds: seq<Guild>, k: string, default: string)
    requires k !in CurrentIds(guilds)
    ensures LastName(guilds, k, default) == default
    decreases |guilds|
  {
    if |guilds| > 0 {
      assert IntToString(guilds[0].id) in CurrentIds(guilds);
      assert CurrentIds(guilds[1..]) <= CurrentIds(guilds) by {
        forall x | x in CurrentIds(guilds[1..]) ensures x in CurrentIds(guilds) {
          var i :| 0 <= i < |guilds[1..]| && IntToString(guilds[1..][i].id) == x;
          assert guilds[1..][i] == guilds[i + 1];
        }
      }
      LastNameUntouched(guilds[1..], k, default);
    }
  }

  /** No record is ever deleted: every key loaded is still there after the upsert, and every connected guild has one. */
  lemma UpsertNeverDeletes(file: TrackerFile, guilds: seq<Guild>, now: string, k: string)
    ensures Lookup(UpsertRecords(file, guilds, now), k).Some? <==>
      LastRecord(Load(file)[ServersKey].items, k).Some? || k in CurrentIds(guilds)
  {
    UpsertLookup(file, guilds, now, k);
    if k in CurrentIds(guilds) {
      var before := LastRecord(Load(file)[ServersKey].items, k);
      SeenAllStamps(before, guilds, k, now, "");
    }
  }

  /**
   * A connected guild's record after the upsert: `last_seen_utc` is `now`,
   * the name is the guild's; a record loaded before keeps every other field
   * (its `joined_at_utc`, and a `left_at_utc` from an earlier absence); a new
   * one has `joined_at_utc` = `now` and no `left_at_utc`.
   */
  lemma UpsertRefreshes(file: TrackerFile, guilds: seq<Guild>, now: string, k: string, f: string)
    requires k in CurrentIds(guilds)
    ensures var before := LastRecord(Load(file)[ServersKey].items, k);
      var r := Lookup(UpsertRecords(file, guilds, now), k);
      && r.Some?
      && SeenField in r.value && r.value[SeenField] == JStr(now)
      && NameField in r.value && r.value[NameField] == JStr(LastName(guilds, k, ""))
      && (before.Some? && f != NameField && f != SeenField ==>
            (f in r.value <==> f in before.value) && (f in before.value ==> r.value[f] == before.value[f]))
      && (before.None? ==> JoinedField in r.value && r.value[JoinedField] == JStr(now) && LeftField !in r.value)
  {
    UpsertLookup(file, guilds, now, k);
    var before := LastRecord(Load(file)[ServersKey].items, k);
    SeenAllStamps(before, guilds, k, now, "");
    if before.Some? && f != NameField && f != SeenField {
      SeenAllKeeps(before, guilds, k, now, f);
    }
    if before.None? {
      SeenAllNew(guilds, k, now);
    }
  }

  /**
   * A server no longer connected keeps its record with a leaving time: the
   * earlier one when it was set (truthy), otherwise `now`; nothing else changes.
   */
  lemma UpsertMarksLeft(file: TrackerFile, guilds: seq<Guild>, now: string, k: string)
    requires k !in CurrentIds(guilds)
    requires LastRecord(Load(file)[ServersKey].items, k).Some?
    ensures var rec := LastRecord(Load(file)[ServersKey].items, k).value;
      var r := Lookup(UpsertRecords(file, guilds, now), k);
      && r.Some?
      && (Truthy(Get(rec, LeftField, JNull)) ==> r.value == rec)
      && (!Truthy(Get(rec, LeftField, JNull)) ==> r.value == rec[LeftField := JStr(now)])
  {
    UpsertLookup(file, guilds, now, k);
    LeaveKeepsEarlier(LastRecord(Load(file)[ServersKey].items, k).value, now);
  }

  /** An earlier leaving time that is set is kept; otherwise the leaving time becomes `now`. */
  lemma LeaveKeepsEarlier(rec: Rec, now: string)
    ensures Truthy(Get(rec, LeftField, JNull)) ==> Leave(rec, now) == rec
    ensures !Truthy(Get(rec, LeftField, JNull)) ==> Leave(rec, now) == rec[LeftField := JStr(now)]
  {
    if Truthy(Get(rec, LeftField, JNull)) {
      assert rec[LeftField := rec[LeftField]] == rec;
    }
  }

  // ---------------------------------------------------------------- running the upsert twice

  /** The records of a saved list, read back as JSON objects. */
  function Objects(d: seq<Rec>): (xs: seq<Json>)
    ensures |xs| == |d| && forall i :: 0 <= i < |d| ==> xs[i] == JObj(d[i])
  {
    seq(|d|, i requires 0 <= i < |d| => JObj(d[i]))
  }

  /** Reading back a saved list finds under each key the record that was saved. */
  lemma {:induction false} LastRecordOfObjects(d: seq<Rec>, k: string)
    requires UniqueKeys(d) && HasIds(d)
    ensures LastRecord(Objects(d), k) == Lookup(d, k)
    decreases |d|
  {
    if |d| > 0 {
      var n := |d| - 1;
      var init := d[..n];
      ObjectsInit(d);
      if Key(d[n]) == k {
        LookupOwn(d, n);
      } else {
        LastRecordOfObjects(init, k);
        LookupInit(d, k);
      }
    }
  }

  /** The saved list without its last record is the list of the other records. */
  lemma ObjectsInit(d: seq<Rec>)
    requires |d| > 0 && HasIds(d)
    ensures Objects(d)[..|d| - 1] == Objects(d[..|d| - 1])
    ensures IsRecord(Objects(d)[|d| - 1]) && Objects(d)[|d| - 1].fields == d[|d| - 1]
  {
  }

  /** With unique keys, a key other than the last record's is found as it is found without that record. */
  lemma LookupInit(d: seq<Rec>, k: string)
    requires |d| > 0 && UniqueKeys(d) && Key(d[|d| - 1]) != k
    ensures Lookup(d[..|d| - 1], k) == Lookup(d, k)
  {
    var init := d[..|d| - 1];
    if Lookup(init, k).Some? {
      var j := Find(init, k).value;
      assert init[j] == d[j];
      LookupOwn(d, j);
    } else {
      assert forall i :: 0 <= i < |init| ==> init[i] == d[i];
    }
  }

  /** Refreshing a record twice is refreshing it once, with the second name. */
  lemma RefreshTwice(rec: Rec, a: string, b: string, now: string)
    ensures rec[NameField := JStr(a)][SeenField := JStr(now)][NameField := JStr(b)][SeenField := JStr(now)]
      == rec[NameField := JStr(b)][SeenField := JStr(now)]
  {
    var l := rec[NameField := JStr(a)][SeenField := JStr(now)][NameField := JStr(b)][SeenField := JStr(now)];
    var r := rec[NameField := JStr(b)][SeenField := JStr(now)];
    assert l.Keys == r.Keys;
    assert forall f :: f in l ==> l[f] == r[f];
  }

  /** Refreshing a record with the name and time it already has changes nothing. */
  lemma RefreshSame(rec: Rec, now: string)
    requires NameField in rec && SeenField in rec && rec[SeenField] == JStr(now)
    ensures rec[NameField := rec[NameField]][SeenField := JStr(now)] == rec
  {
    var l := rec[NameField := rec[NameField]][SeenField := JStr(now)];
    assert l.Keys == rec.Keys;
    assert forall f :: f in l ==> l[f] == rec[f];
  }

  /** Refreshing a record several times leaves it as one refresh by the last guild with its id would. */
  lemma {:induction false} SeenAllOfKnown(rec: Rec, guilds: seq<Guild>, k: string, now: string, default: string)
    requires Key(rec) == k && k in CurrentIds(guilds)
    ensures SeenAll(Some(rec), guilds, k, now) ==
      Some(rec[NameField := JStr(LastName(guilds, k, default))][SeenField := JStr(now)])
    decreases |guilds|
  {
    var g := guilds[0];
    var rest := guilds[1..];
    var d2 := if IntToString(g.id) == k then g.name else default;
    if IntToString(g.id) == k {
      var r1 := Seen(Some(rec), g, now);
      assert r1 == rec[NameField := JStr(g.name)][SeenField := JStr(now)];
      if k in CurrentIds(rest) {
        SeenAllOfKnown(r1, rest, k, now, d2);
        RefreshTwice(rec, g.name, LastName(rest, k, d2), now);
      } else {
        SeenAllUntouched(Some(r1), rest, k, now);
        LastNameUntouched(rest, k, d2);
      }
    } else {
      assert k in CurrentIds(rest) by {
        var i :| 0 <= i < |guilds| && IntToString(guilds[i].id) == k;
        assert rest[i - 1] == guilds[i];
      }
      SeenAllOfKnown(rec, rest, k, now, d2);
    }
  }

  /** Marking a record as left twice is marking it once. */
  lemma LeaveTwice(rec: Rec, now: string)
    ensures Leave(Leave(rec, now), now) == Leave(rec, now)
  {
  }

  /** Applying the per-key outcome twice is applying it once. */
  lemma FinalTwice(before: Option<Rec>, guilds: seq<Guild>, k: string, now: string)
    requires before.Some? ==> Key(before.value) == k
    ensures Final(Final(before, guilds, k, now), guilds, k, now) == Final(before, guilds, k, now)
  {
    if k in CurrentIds(guilds) {
      var r1 := SeenAll(before, guilds, k, now);
      SeenAllStamps(before, guilds, k, now, "");
      SeenAllOfKnown(r1.value, guilds, k, now, "");
      RefreshSame(r1.value, now);
    } else if before.Some? {
      LeaveTwice(before.value, now);
    }
  }

  /** The saved file reads back as the records saved. */
  lemma ReadBack(file: TrackerFile, guilds: seq<Guild>, now: string, k: string)
    ensures LastRecord(Load(Doc(Upsert(file, guilds, now)))[ServersKey].items, k) == Lookup(UpsertRecords(file, guilds, now), k)
  {
    var d := UpsertRecords(file, guilds, now);
    assert Load(Doc(Upsert(file, guilds, now)))[ServersKey].items == Objects(d);
    LastRecordOfObjects(d, k);
  }

  /**
   * Upserting the saved file again, with the same guilds at the same time,
   * leaves every key with the same record: the upsert is idempotent.
   */
  lemma UpsertIdempotent(file: TrackerFile, guilds: seq<Guild>, now: string, k: string)
    ensures Lookup(UpsertRecords(Doc(Upsert(file, guilds, now)), guilds, now), k) == Lookup(UpsertRecords(file, guilds, now), k)
  {
    ReadBack(file, guilds, now, k);
    UpsertLookup(Doc(Upsert(file, guilds, now)), guilds, now, k);
    UpsertLookup(file, guilds, now, k);
    FinalTwice(LastRecord(Load(file)[ServersKey].items, k), guilds, k, now);
  }
}

=== FILE: json.dfy ===
/**
 * JSON values as Python's `json` module hands them to the bot, with the
 * Python operations the source applies to them: truthiness (`bool(x)`,
 * `x or y`), `isinstance(x, int)`, `str(x)` and `dict.get`.
 */
module Json {
  import opened Text

  /** A decoded JSON document. Objects are maps; floating-point numbers are not modelled. */
  datatype Json =
    | JNull
    | JBool(b: bool)
    | JInt(i: int)
    | JStr(s: string)
    | JList(items: seq<Json>)
    | JObj(fields: map<string, Json>)

  /** Python `bool(x)`: null, false, 0, "" and empty containers are false. */
  predicate Truthy(j: Json) {
    match j
    case JNull => false
    case JBool(b) => b
    case JInt(i) => i != 0
    case JStr(s) => s != ""
    case JList(xs) => |xs| > 0
    case JObj(m) => |m| > 0
  }

  /** Python `isinstance(x, int)`, which also holds for booleans. */
  predicate IsPyInt(j: Json) {
    j.JInt? || j.JBool?
  }

  /** The integer a Python int or bool stands for. */
  function PyIntValue(j: Json): int
    requires IsPyInt(j)
  {
    match j
    case JInt(i) => i
    case JBool(b) => if b then 1 else 0
  }

  /** Python `x == n` for a JSON value and an integer. */
  predicate PyEqInt(j: Json, n: int) {
    IsPyInt(j) && PyIntValue(j) == n
  }

  /**
   * Python `str(x)`. Scalars print as Python prints them; a list or object
   * prints as a fixed placeholder (its Python repr is not modelled).
   */
  function PyStr(j: Json): string {
    match j
    case JNull => "None"
    case JBool(b) => if b then "True" else "False"
    case JInt(i) => IntToString(i)
    case JStr(s) => s
    case JList(_) => "[...]"
    case JObj(_) => "{...}"
  }

  /** Python `d.get(k, default)`. */
  function Get(m: map<string, Json>, k: string, default: Json): (r: Json)
    ensures k in m ==> r == m[k]
    ensures k !in m ==> r == default
  {
    if k in m then m[k] else default
  }

}

=== FILE: pilot_env.dfy ===
/**
 * PilotAI start-up configuration (modules/pilotai/env_check.py): the Discord
 * token and the OpenAI key are required, the OpenAI organisation is optional.
 */
module PilotEnv {
  import opened Base

  datatype EnvConfig = EnvConfig(discordToken: string, openaiApiKey: string, openaiOrg: Option<string>)

  /** The message of the `RuntimeError` raised for a missing variable. */
  function MissingMessage(name: string): string {
    "Missing required env var: " + name
  }

  /** `require`: the variable's value, or the error naming it when unset or empty. */
  function Require(env: Env, name: string): (r: Result<string, string>)
    ensures r.Ok? <==> Provided(env, name)
    ensures r.Ok? ==> r.value == env[name] && r.value != ""
    ensures r.Err? ==> r.error == MissingMessage(name)
  {
    if Provided(env, name) then Ok(env[name]) else Err(MissingMessage(name))
  }

  /**
   * `get_env_vars`: the token is checked before the key, so when both are
   * missing the error names the token.
   */
  function GetEnvVars(env: Env): (r: Result<EnvConfig, string>)
    ensures r.Ok? <==> Provided(env, "DISCORD_TOKEN") && Provided(env, "OPENAI_API_KEY")
    ensures r.Ok? ==>
      && r.value.discordToken == env["DISCORD_TOKEN"]
      && r.value.openaiApiKey == env["OPENAI_API_KEY"]
      && (r.value.openaiOrg.Some? <==> "OPENAI_ORG" in env)
      && (r.value.openaiOrg.Some? ==> r.value.openaiOrg.value == env["OPENAI_ORG"])
    ensures !Provided(env, "DISCORD_TOKEN") ==> r == Err(MissingMessage("DISCORD_TOKEN"))
    ensures Provided(env, "DISCORD_TOKEN") && !Provided(env, "OPENAI_API_KEY") ==> r == Err(MissingMessage("OPENAI_API_KEY"))
  {
    match Require(env, "DISCORD_TOKEN")
    case Err(e) => Err(e)
    case Ok(token) =>
      match Require(env, "OPENAI_API_KEY")
      case Err(e) => Err(e)
      case Ok(key) => Ok(EnvConfig(token, key, GetEnv(env, "OPENAI_ORG")))
  }
}

=== FILE: pilot_legacy.dfy ===
/**
 * The stand-alone PilotAI bot (modules/pilotai/main.py): the same
 * conversation memory as the cog, kept in closures instead of attributes.
 *
 * Two things differ from the cog: the system prompt carries its own wording,
 * and `on_message` reads `bot.user.id` without checking that the bot user is
 * known (it always is once the gateway is ready), so the bot user is a plain
 * id here. `touch` exists but is never called.
 */
module PilotLegacy {
  import opened Base
  import opened PilotMemory

  /** The stand-alone bot's system prompt, spelled as in its source. */
  const LegacyPrompt: string :=
    "You are guildPilot, a helpful integrated Discord caht assistant. "
    + "Be concise, clear, and friendly. Use markdown when helpful."

  /** `touch`: refresh a known conversation's activity time; unknown roots are ignored. */
  function Touch(mem: Memory, root: int, now: int): (out: Memory)
    ensures out.msgToRoot == mem.msgToRoot
    ensures out.convos.Keys == mem.convos.Keys
    ensures forall r :: r in mem.convos && r != root ==> out.convos[r] == mem.convos[r]
    ensures root !in mem.convos ==> out == mem
    ensures root in mem.convos ==>
      && out.convos[root].lastActive == now
      && out.convos[root].history == mem.convos[root].history
      && out.convos[root].channelId == mem.convos[root].channelId
  {
    if root in mem.convos then
      Memory(mem.convos[root := mem.convos[root].(lastActive := now)], mem.msgToRoot)
    else mem
  }

  /** A touched conversation is live for another full TTL, and a touch keeps the invariant. */
  lemma TouchRevives(mem: Memory, root: int, now: int)
    requires Inv(mem)
    requires root in mem.convos
    ensures !IsExpired(Touch(mem, root, now), root, now, ConvoTtl)
    ensures Inv(Touch(mem, root, now))
  {
    var out := Touch(mem, root, now);
    assert forall k :: k in out.msgToRoot ==> out.msgToRoot[k] in mem.convos;
  }

  /** `askPilot`: start a thread with the stand-alone bot's prompt and constants. */
  function AskPilot(mem: Memory, question: string, llm: seq<Msg> -> LlmOutcome,
                    sentId: Option<int>, channelId: int, now: int): (out: Memory)
    ensures LlmReply(llm, Opening(LegacyPrompt, question), MaxTurns).None? || sentId.None? ==> out == mem
    ensures LlmReply(llm, Opening(LegacyPrompt, question), MaxTurns).Some? && sentId.Some? ==>
      && sentId.value in out.msgToRoot && out.msgToRoot[sentId.value] == sentId.value
      && sentId.value in out.convos && |out.convos[sentId.value].history| > 0
      && out.convos[sentId.value].history[0] == Msg(System, LegacyPrompt)
      && out.convos[sentId.value].lastActive == now
  {
    if LlmReply(llm, Opening(LegacyPrompt, question), MaxTurns).Some? && sentId.Some? then
      AskThePilotStarts(mem, LegacyPrompt, question, llm,
                        LlmReply(llm, Opening(LegacyPrompt, question), MaxTurns).value,
                        sentId.value, channelId, now, MaxTurns);
      AskThePilotHistory(mem, LegacyPrompt, question, llm,
                         LlmReply(llm, Opening(LegacyPrompt, question), MaxTurns).value,
                         sentId.value, channelId, now, MaxTurns);
      AskThePilot(mem, LegacyPrompt, question, llm, sentId, channelId, now, MaxTurns)
    else
      AskThePilot(mem, LegacyPrompt, question, llm, sentId, channelId, now, MaxTurns)
  }

  /**
   * The stand-alone `on_message`: with the bot user always known, a human's
   * reply to a bot message continues its thread exactly when the LLM call and
   * the send succeed, and the reply is then mapped to the thread's root.
   */
  function OnLegacyMessage(mem: Memory, msg: Incoming, botUserId: int, llm: seq<Msg> -> LlmOutcome,
                           sentId: Option<int>, now: int): (res: (Memory, Handling))
    ensures res.1.Continued? <==>
      && !msg.authorIsBot && msg.reference.Some? && msg.reference.value.authorId == botUserId
      && LlmReply(llm, ContinuedHistory(mem, LegacyPrompt, msg.reference.value, msg.content, now, ConvoTtl), MaxTurns).Some?
      && sentId.Some?
    ensures !res.1.Continued? ==> res.0 == mem
    ensures res.1.Continued? ==> sentId.value in res.0.msgToRoot && res.0.msgToRoot[sentId.value] == res.1.root
  {
    OnMessageContinuedIff(mem, msg, Some(botUserId), LegacyPrompt, llm, sentId, now, ConvoTtl, MaxTurns);
    var res := OnMessage(mem, msg, Some(botUserId), LegacyPrompt, llm, sentId, now, ConvoTtl, MaxTurns);
    if res.1.Continued? then
      OnMessageLinks(mem, msg, Some(botUserId), LegacyPrompt, llm, sentId, now, ConvoTtl, MaxTurns);
      res
    else res
  }
}

=== FILE: pilot_memory.dfy ===
/**
 * PilotAI conversation memory (the cog in modules/pilotai/commands.py).
 *
 * A conversation is keyed by its root: the id of the bot message that
 * answered `/ask-the-pilot`. `msgToRoot` maps every bot message of a thread
 * back to that root so a reply to any of them continues the same history.
 * Conversations idle for longer than the TTL are swept away together with
 * the reverse-map entries that point at them.
 *
 * The LLM, Discord sends and the clock are parameters: `llm` is the outcome
 * of the chat-completion call for the history it is given, `sentId` the id
 * Discord assigns to the first reply message (None when sending raised), and
 * `now` the current time in whole seconds.
 */
module PilotMemory {
  import opened Base

  /** The cog's system prompt. */
  const SystemPrompt: string :=
    "You are guildPilot, a helpful integrated Discord chat assistant. "
    + "Be concise, clear, and friendly. Use markdown when helpful."

  /** Turns kept by `trim_history` (`self.max_turns`). */
  const MaxTurns: nat := 12
  /** Inactivity after which a conversation is flushed: two hours, in seconds. */
  const ConvoTtl: int := 7200
  /** Seconds between two sweeps of the cleanup task. */
  const CleanupPeriod: nat := 300
  /** Discord's per-message character limit. */
  const MessageLimit: nat := 2000

  datatype Role = System | User | Assistant

  datatype Msg = Msg(role: Role, content: string)

  datatype Conversation = Conversation(history: seq<Msg>, lastActive: int, channelId: int)

  /** The cog's two dictionaries: `convos` and `msg_to_root`. */
  datatype Memory = Memory(convos: map<int, Conversation>, msgToRoot: map<int, int>)

  /**
   * The chat-completion call: the message content of each returned choice
   * (None where the API returns a null content), or an exception.
   */
  datatype LlmOutcome = Completion(choices: seq<Option<string>>) | LlmError

  /** What `llm_reply` answers when the completion has no choices. */
  const NoResponse: string := "No response from OpenAI."

  // ================================================================ history trimming

  /** The system messages of a history, in order. */
  function Systems(h: seq<Msg>): (r: seq<Msg>)
    ensures |r| <= |h|
    ensures forall i :: 0 <= i < |r| ==> r[i].role == System
  {
    if |h| == 0 then []
    else (if h[0].role == System then [h[0]] else []) + Systems(h[1..])
  }

  /** The user and assistant messages of a history, in order. */
  function NonSystems(h: seq<Msg>): (r: seq<Msg>)
    ensures |r| <= |h|
    ensures forall i :: 0 <= i < |r| ==> r[i].role != System
  {
    if |h| == 0 then []
    else (if h[0].role != System then [h[0]] else []) + NonSystems(h[1..])
  }

  /** Filtering distributes over concatenation. */
  lemma FiltersConcat(a: seq<Msg>, b: seq<Msg>)
    ensures Systems(a + b) == Systems(a) + Systems(b)
    ensures NonSystems(a + b) == NonSystems(a) + NonSystems(b)
  {
    SystemsConcat(a, b);
    NonSystemsConcat(a, b);
  }

  lemma {:induction false} SystemsConcat(a: seq<Msg>, b: seq<Msg>)
    ensures Systems(a + b) == Systems(a) + Systems(b)
    decreases |a|
  {
    if |a| == 0 {
      assert a + b == b;
    } else {
      assert (a + b)[0] == a[0];
      assert (a + b)[1..] == a[1..] + b;
      SystemsConcat(a[1..], b);
    }
  }

  lemma {:induction false} NonSystemsConcat(a: seq<Msg>, b: seq<Msg>)
    ensures NonSystems(a + b) == NonSystems(a) + NonSystems(b)
    decreases |a|
  {
    if |a| == 0 {
      assert a + b == b;
    } else {
      assert (a + b)[0] == a[0];
      assert (a + b)[1..] == a[1..] + b;
      NonSystemsConcat(a[1..], b);
    }
  }

  predicate AllSystem(h: seq<Msg>) {
    forall i :: 0 <= i < |h| ==> h[i].role == System
  }

  predicate NoSystem(h: seq<Msg>) {
    forall i :: 0 <= i < |h| ==> h[i].role != System
  }

  /** A history of system messages only is its own system part. */
  lemma {:induction false} FiltersOfSystems(h: seq<Msg>)
    requires AllSystem(h)
    ensures Systems(h) == h && NonSystems(h) == []
    decreases |h|
  {
    if |h| > 0 {
      assert AllSystem(h[1..]) by {
        assert forall i :: 1 <= i < |h| ==> h[1..][i - 1] == h[i];
      }
      FiltersOfSystems(h[1..]);
    }
  }

  /** A history without system messages is its own non-system part. */
  lemma {:induction false} FiltersOfNonSystems(h: seq<Msg>)
    requires NoSystem(h)
    ensures Systems(h) == [] && NonSystems(h) == h
    decreases |h|
  {
    if |h| > 0 {
      assert NoSystem(h[1..]) by {
        assert forall i :: 1 <= i < |h| ==> h[1..][i - 1] == h[i];
      }
      FiltersOfNonSystems(h[1..]);
    }
  }

  /** `a` is a (possibly empty) tail of `b`. */
  predicate IsSuffix(a: seq<Msg>, b: seq<Msg>) {
    |a| <= |b| && a == b[|b| - |a|..]
  }

  /** Python `s[-k:]` for `k >= 0`; note that `s[-0:]` is the whole of `s`. */
  function TakeLast(s: seq<Msg>, k: nat): seq<Msg> {
    if k == 0 || k >= |s| then s else s[|s| - k..]
  }

  /** The first system message of a history, if there is one (`[...][:1]`). */
  function FirstSystem(h: seq<Msg>): (r: seq<Msg>)
    ensures |r| <= 1
    ensures |r| == 1 <==> |Systems(h)| > 0
    ensures |r| == 1 ==> r[0] == Systems(h)[0]
  {
    var sys := Systems(h);
    if |sys| > 0 then sys[..1] else []
  }

  /**
   * `trim_history`: the first system message, if any, followed by the last
   * `2 * maxTurns` user/assistant messages.
   */
  function Trim(h: seq<Msg>, maxTurns: nat): seq<Msg> {
    FirstSystem(h) + TakeLast(NonSystems(h), 2 * maxTurns)
  }

  /** The system and non-system parts of a trimmed history. */
  lemma TrimParts(h: seq<Msg>, maxTurns: nat)
    ensures Systems(Trim(h, maxTurns)) == FirstSystem(h)
    ensures NonSystems(Trim(h, maxTurns)) == TakeLast(NonSystems(h), 2 * maxTurns)
  {
    var first := FirstSystem(h);
    var rest := TakeLast(NonSystems(h), 2 * maxTurns);
    FiltersConcat(first, rest);
    FiltersOfSystems(first);
    FiltersOfNonSystems(rest);
  }

  /**
   * Where `trim_history` puts system messages: the first system message of
   * the input at the front, and nowhere else.
   */
  lemma TrimSystemFront(h: seq<Msg>, maxTurns: nat)
    ensures var r := Trim(h, maxTurns);
      && (|Systems(h)| > 0 ==> |r| > 0 && r[0] == Systems(h)[0])
      && (forall i :: 0 < i < |r| ==> r[i].role != System)
      && (|Systems(h)| == 0 ==> forall i :: 0 <= i < |r| ==> r[i].role != System)
  {
    var first := FirstSystem(h);
    var rest := TakeLast(NonSystems(h), 2 * maxTurns);
    assert NoSystem(rest);
    var r := first + rest;
    assert forall i :: |first| <= i < |r| ==> r[i] == rest[i - |first|];
  }

  /**
   * The user/assistant messages `trim_history` keeps: a tail of those of the
   * input, in their original order, of length `min(n, 2 * maxTurns)` (all
   * of them when `maxTurns` is 0, as Python's `[-0:]` keeps everything).
   */
  lemma TrimTail(h: seq<Msg>, maxTurns: nat)
    ensures var r := Trim(h, maxTurns);
      && IsSuffix(NonSystems(r), NonSystems(h))
      && (maxTurns > 0 ==> |NonSystems(r)| == if |NonSystems(h)| < 2 * maxTurns then |NonSystems(h)| else 2 * maxTurns)
      && (maxTurns == 0 ==> NonSystems(r) == NonSystems(h))
      && (maxTurns > 0 ==> |r| <= 1 + 2 * maxTurns)
  {
    TrimParts(h, maxTurns);
  }

  /** A history ending in a user or assistant message still ends in it once trimmed. */
  lemma TrimKeepsLast(p: seq<Msg>, m: Msg, maxTurns: nat)
    requires m.role != System
    ensures var r := Trim(p + [m], maxTurns); |r| > 0 && r[|r| - 1] == m
  {
    FiltersConcat(p, [m]);
    FiltersOfNonSystems([m]);
    var ns := NonSystems(p + [m]);
    assert ns[|ns| - 1] == m;
    var rest := TakeLast(ns, 2 * maxTurns);
    assert |rest| > 0 && rest[|rest| - 1] == m;
  }

  /** Trimming a trimmed history changes nothing. */
  lemma TrimIdempotent(h: seq<Msg>, maxTurns: nat)
    ensures Trim(Trim(h, maxTurns), maxTurns) == Trim(h, maxTurns)
  {
    var r := Trim(h, maxTurns);
    TrimParts(h, maxTurns);
    var first := FirstSystem(h);
    var rest := TakeLast(NonSystems(h), 2 * maxTurns);
    assert FirstSystem(r) == first by {
      if |first| > 0 {
        assert first[..1] == first;
      }
    }
    assert TakeLast(rest, 2 * maxTurns) == rest;
  }

  /** With the cog's constant, a trimmed history holds at most 25 messages. */
  lemma TrimBound(h: seq<Msg>)
    ensures |Trim(h, MaxTurns)| <= 25
  {
    TrimParts(h, MaxTurns);
  }

  // ================================================================ expiry and the sweep

  /** `is_expired`: an unknown root counts as expired; a known one once idle for strictly more than `ttl`. */
  predicate IsExpired(mem: Memory, root: int, now: int, ttl: int) {
    root !in mem.convos || now - mem.convos[root].lastActive > ttl
  }

  /** The roots one sweep at time `now` deletes. */
  function ExpiredRoots(mem: Memory, now: int, ttl: int): (e: set<int>)
    ensures forall r :: r in e <==> r in mem.convos && IsExpired(mem, r, now, ttl)
  {
    set r | r in mem.convos && now - mem.convos[r].lastActive > ttl
  }

  /**
   * One pass of `cleanup_conversations_task`: drop the expired conversations
   * and every reverse-map entry whose root was dropped.
   */
  function Sweep(mem: Memory, now: int, ttl: int): (out: Memory)
    ensures forall r :: r in out.convos <==> r in mem.convos && !IsExpired(mem, r, now, ttl)
    ensures forall r :: r in out.convos ==> out.convos[r] == mem.convos[r]
    ensures forall k :: k in out.msgToRoot <==> k in mem.msgToRoot && mem.msgToRoot[k] !in ExpiredRoots(mem, now, ttl)
    ensures forall k :: k in out.msgToRoot ==> out.msgToRoot[k] == mem.msgToRoot[k]
  {
    var dead := ExpiredRoots(mem, now, ttl);
    Memory(
      map r | r in mem.convos && r !in dead :: mem.convos[r],
      map k | k in mem.msgToRoot && mem.msgToRoot[k] !in dead :: mem.msgToRoot[k])
  }

  /**
   * The first loop of the sweep: walk the conversations in the dictionary's
   * order (`order`, each root once) and collect the roots idle for more than
   * `ttl`, in that order.
   */
  method CollectExpired(mem: Memory, order: seq<int>, now: int, ttl: int) returns (toDelete: seq<int>)
    requires forall r :: r in order <==> r in mem.convos
    ensures forall r :: r in toDelete <==> r in ExpiredRoots(mem, now, ttl)
    ensures |toDelete| <= |order|
  {
    toDelete := [];
    var i := 0;
    while i < |order|
      invariant 0 <= i <= |order|
      invariant |toDelete| <= i
      invariant forall r :: r in toDelete <==> r in order[..i] && now - mem.convos[r].lastActive > ttl
    {
      var r := order[i];
      assert order[..i + 1] == order[..i] + [r];
      if now - mem.convos[r].lastActive > ttl {
        toDelete := toDelete + [r];
      }
      i := i + 1;
    }
    assert order[..i] == order;
  }

  /**
   * The second loop of the sweep: delete each collected root, each time
   * together with the reverse-map entries that point at it.
   */
  method DeleteRoots(mem: Memory, toDelete: seq<int>) returns (out: Memory)
    ensures forall r :: r in out.convos <==> r in mem.convos && r !in toDelete
    ensures forall r :: r in out.convos ==> out.convos[r] == mem.convos[r]
    ensures forall k :: k in out.msgToRoot <==> k in mem.msgToRoot && mem.msgToRoot[k] !in toDelete
    ensures forall k :: k in out.msgToRoot ==> out.msgToRoot[k] == mem.msgToRoot[k]
  {
    var convos := mem.convos;
    var links := mem.msgToRoot;
    var i := 0;
    while i < |toDelete|
      invariant 0 <= i <= |toDelete|
      invariant forall x :: x in convos <==> x in mem.convos && x !in toDelete[..i]
      invariant forall x :: x in convos ==> convos[x] == mem.convos[x]
      invariant forall k :: k in links <==> k in mem.msgToRoot && mem.msgToRoot[k] !in toDelete[..i]
      invariant forall k :: k in links ==> links[k] == mem.msgToRoot[k]
    {
      var r := toDelete[i];
      assert toDelete[..i + 1] == toDelete[..i] + [r];
      convos := convos - {r};
      links := map k | k in links && links[k] != r :: links[k];
      i := i + 1;
    }
    assert toDelete[..i] == toDelete;
    out := Memory(convos, links);
  }

  /**
   * The sweep as the source performs it: first collect the expired roots,
   * then delete them one at a time. It computes exactly `Sweep`.
   */
  method CleanupSweep(mem: Memory, order: seq<int>, now: int, ttl: int) returns (out: Memory)
    requires forall r :: r in order <==> r in mem.convos
    ensures out == Sweep(mem, now, ttl)
  {
    var toDelete := CollectExpired(mem, order, now, ttl);
    out := DeleteRoots(mem, toDelete);
    var spec := Sweep(mem, now, ttl);
    assert forall r :: r in out.convos <==> r in spec.convos;
    assert forall r :: r in out.convos ==> out.convos[r] == spec.convos[r];
    assert forall k :: k in out.msgToRoot <==> k in spec.msgToRoot;
    assert forall k :: k in out.msgToRoot ==> out.msgToRoot[k] == spec.msgToRoot[k];
    assert out.convos == spec.convos;
    assert out.msgToRoot == spec.msgToRoot;
  }

  /** Every reverse-map entry points at a root that still has a conversation. */
  ghost predicate Inv(mem: Memory) {
    forall k :: k in mem.msgToRoot ==> mem.msgToRoot[k] in mem.convos
  }

  lemma SweepKeepsInv(mem: Memory, now: int, ttl: int)
    requires Inv(mem)
    ensures Inv(Sweep(mem, now, ttl))
  {
  }

  /** After a sweep no surviving conversation is expired at the sweep's time. */
  lemma SweepLeavesOnlyLive(mem: Memory, now: int, ttl: int, root: int)
    requires root in Sweep(mem, now, ttl).convos
    ensures !IsExpired(Sweep(mem, now, ttl), root, now, ttl)
    ensures !IsExpired(mem, root, now, ttl)
  {
  }

  // ================================================================ sending long replies

  /** `send_long_message`: consecutive slices of at most 2000 characters, as `range(0, len, 2000)` cuts them. */
  function Chunks(s: string): seq<string>
    decreases |s|
  {
    if |s| == 0 then []
    else if |s| <= MessageLimit then [s]
    else [s[..MessageLimit]] + Chunks(s[MessageLimit..])
  }

  /** The messages a reply goes out as: the first 2000 characters, then the rest in chunks. */
  function Outgoing(reply: string): seq<string> {
    if |reply| > MessageLimit then [reply[..MessageLimit]] + Chunks(reply[MessageLimit..])
    else [reply]
  }

  function Concat(ss: seq<string>): string {
    if |ss| == 0 then "" else ss[0] + Concat(ss[1..])
  }

  lemma {:induction false} ChunksSound(s: string)
    ensures Concat(Chunks(s)) == s
    ensures forall i :: 0 <= i < |Chunks(s)| ==> 0 < |Chunks(s)[i]| <= MessageLimit
    decreases |s|
  {
    if |s| == 0 {
    } else if |s| <= MessageLimit {
      assert Chunks(s) == [s];
      assert Concat([s]) == s + Concat([]);
    } else {
      var tail := Chunks(s[MessageLimit..]);
      ChunksSound(s[MessageLimit..]);
      assert Chunks(s) == [s[..MessageLimit]] + tail;
      assert ([s[..MessageLimit]] + tail)[1..] == tail;
      assert s[..MessageLimit] + s[MessageLimit..] == s;
    }
  }

  /**
   * `range(0, len, 2000)` yields `ceil(len / 2000)` slices, and every slice
   * but the last is exactly 2000 characters long.
   */
  lemma {:induction false} ChunksCount(s: string)
    ensures |Chunks(s)| == (|s| + MessageLimit - 1) / MessageLimit
    ensures forall i :: 0 <= i < |Chunks(s)| - 1 ==> |Chunks(s)[i]| == MessageLimit
    decreases |s|
  {
    if |s| > MessageLimit {
      var tail := Chunks(s[MessageLimit..]);
      ChunksCount(s[MessageLimit..]);
      assert Chunks(s) == [s[..MessageLimit]] + tail;
      assert forall i :: 1 <= i < |Chunks(s)| ==> Chunks(s)[i] == tail[i - 1];
    }
  }

  /** A reply goes out as at least one message, each within Discord's limit, that together spell the reply. */
  lemma OutgoingSound(reply: string)
    ensures |Outgoing(reply)| >= 1
    ensures Concat(Outgoing(reply)) == reply
    ensures forall i :: 0 <= i < |Outgoing(reply)| ==> |Outgoing(reply)[i]| <= MessageLimit
  {
    if |reply| > MessageLimit {
      var tail := Chunks(reply[MessageLimit..]);
      ChunksSound(reply[MessageLimit..]);
      assert ([reply[..MessageLimit]] + tail)[1..] == tail;
      assert reply[..MessageLimit] + reply[MessageLimit..] == reply;
    } else {
      assert Concat([reply]) == reply + Concat([]);
    }
  }

  // ================================================================ starting and continuing threads

  /**
   * `llm_reply`: the LLM always sees the trimmed history; the answer is the
   * first choice's text, or a fixed apology when there are no choices. None
   * stands for no usable text: the call raised, or the first choice's content
   * was null, on which both handlers' `len(reply)` raises before anything is
   * sent or stored.
   */
  function LlmReply(llm: seq<Msg> -> LlmOutcome, history: seq<Msg>, maxTurns: nat): (r: Option<string>)
    ensures r.None? <==>
      || llm(Trim(history, maxTurns)).LlmError?
      || (|llm(Trim(history, maxTurns)).choices| > 0 && llm(Trim(history, maxTurns)).choices[0].None?)
    ensures r.Some? && |llm(Trim(history, maxTurns)).choices| > 0 ==> Some(r.value) == llm(Trim(history, maxTurns)).choices[0]
    ensures r.Some? && |llm(Trim(history, maxTurns)).choices| == 0 ==> r.value == NoResponse
  {
    match llm(Trim(history, maxTurns))
    case LlmError => None
    case Completion(choices) => if |choices| > 0 then choices[0] else Some(NoResponse)
  }

  /** The opening history of a new thread: the system prompt and the question. */
  function Opening(prompt: string, question: string): seq<Msg> {
    [Msg(System, prompt), Msg(User, question)]
  }

  /**
   * `/ask-the-pilot`: ask the LLM with [system, user]; when the reply is
   * posted, its first message becomes the root of a new conversation that
   * maps to itself. An LLM error or a failed send leaves memory as it was.
   */
  function AskThePilot(mem: Memory, prompt: string, question: string, llm: seq<Msg> -> LlmOutcome,
                       sentId: Option<int>, channelId: int, now: int, maxTurns: nat): (out: Memory)
    ensures (LlmReply(llm, Opening(prompt, question), maxTurns).None? || sentId.None?) ==> out == mem
  {
    match LlmReply(llm, Opening(prompt, question), maxTurns)
    case None => mem
    case Some(text) =>
      if sentId.None? then mem
      else
        var root := sentId.value;
        var full := Opening(prompt, question) + [Msg(Assistant, text)];
        Memory(mem.convos[root := Conversation(Trim(full, maxTurns), now, channelId)],
               mem.msgToRoot[root := root])
  }

  /**
   * A posted answer starts a thread rooted at the sent message: the root maps
   * to itself, the conversation is stamped `now` in the channel, and every
   * other thread and link is as it was.
   */
  lemma AskThePilotStarts(mem: Memory, prompt: string, question: string, llm: seq<Msg> -> LlmOutcome,
                          text: string, root: int, channelId: int, now: int, maxTurns: nat)
    requires LlmReply(llm, Opening(prompt, question), maxTurns) == Some(text)
    ensures var out := AskThePilot(mem, prompt, question, llm, Some(root), channelId, now, maxTurns);
      && out.convos.Keys == mem.convos.Keys + {root}
      && out.msgToRoot.Keys == mem.msgToRoot.Keys + {root}
      && out.msgToRoot[root] == root
      && out.convos[root].lastActive == now
      && out.convos[root].channelId == channelId
      && (forall r :: r in mem.convos && r != root ==> out.convos[r] == mem.convos[r])
      && (forall k :: k in mem.msgToRoot && k != root ==> out.msgToRoot[k] == mem.msgToRoot[k])
  {
    AskThePilotStores(mem, prompt, question, llm, text, root, channelId, now, maxTurns);
  }

  /** The new thread's history keeps the system prompt first and ends with the answer. */
  lemma AskThePilotHistory(mem: Memory, prompt: string, question: string, llm: seq<Msg> -> LlmOutcome,
                           text: string, root: int, channelId: int, now: int, maxTurns: nat)
    requires LlmReply(llm, Opening(prompt, question), maxTurns) == Some(text)
    ensures var out := AskThePilot(mem, prompt, question, llm, Some(root), channelId, now, maxTurns);
      var h := out.convos[root].history;
      |h| > 0 && h[0] == Msg(System, prompt) && h[|h| - 1] == Msg(Assistant, text)
  {
    AskThePilotStores(mem, prompt, question, llm, text, root, channelId, now, maxTurns);
    OpeningTrim(prompt, question, text, maxTurns);
  }

  /** What a posted answer writes into memory. */
  lemma AskThePilotStores(mem: Memory, prompt: string, question: string, llm: seq<Msg> -> LlmOutcome,
                          text: string, root: int, channelId: int, now: int, maxTurns: nat)
    requires LlmReply(llm, Opening(prompt, question), maxTurns) == Some(text)
    ensures AskThePilot(mem, prompt, question, llm, Some(root), channelId, now, maxTurns)
      == Memory(mem.convos[root := Conversation(Trim(Opening(prompt, question) + [Msg(Assistant, text)], maxTurns), now, channelId)],
                mem.msgToRoot[root := root])
  {
  }

  /** The trimmed opening exchange starts with the system prompt and ends with the answer. */
  lemma OpeningTrim(prompt: string, question: string, text: string, maxTurns: nat)
    ensures var t := Trim(Opening(prompt, question) + [Msg(Assistant, text)], maxTurns);
      |t| > 0 && t[0] == Msg(System, prompt) && t[|t| - 1] == Msg(Assistant, text)
  {
    var full := Opening(prompt, question) + [Msg(Assistant, text)];
    assert Systems(full) == [Msg(System, prompt)] by {
      assert full == [Msg(System, prompt)] + [Msg(User, question), Msg(Assistant, text)];
      FiltersConcat([Msg(System, prompt)], [Msg(User, question), Msg(Assistant, text)]);
      FiltersOfSystems([Msg(System, prompt)]);
      FiltersOfNonSystems([Msg(User, question), Msg(Assistant, text)]);
    }
    assert FirstSystem(full) == [Msg(System, prompt)];
    TrimKeepsLast(Opening(prompt, question), Msg(Assistant, text), maxTurns);
  }

  /** The bot message a user replied to, once resolved or fetched. */
  datatype Referenced = Referenced(id: int, authorId: int, content: string)

  /**
   * A message seen by `on_message`: who wrote it, and the message it replies
   * to when there is one and it could be resolved or fetched.
   */
  datatype Incoming = Incoming(authorIsBot: bool, reference: Option<Referenced>, content: string, channelId: int)

  /** What `on_message` did with a message. */
  datatype Handling =
    | IgnoredBot                    // messages from bots are dropped
    | PassedOn                      // not a reply to the bot: handed to command processing
    | LlmFailed                     // apology sent, memory untouched
    | NullContent                   // the answer's content was null: `len(reply)` raises, nothing is sent
    | SendFailed                    // the reply could not be posted; the exception escapes
    | Continued(root: int, sent: seq<string>)

  /** The root of the thread a referenced message belongs to. */
  function RootOf(mem: Memory, refId: int): int {
    if refId in mem.msgToRoot then mem.msgToRoot[refId] else refId
  }

  /** The history sent to the LLM when continuing from `ref`. */
  function ContinuedHistory(mem: Memory, prompt: string, ref: Referenced, text: string, now: int, ttl: int): seq<Msg> {
    var root := RootOf(mem, ref.id);
    if IsExpired(mem, root, now, ttl) then
      [Msg(System, prompt), Msg(Assistant, ref.content), Msg(User, text)]
    else
      mem.convos[root].history + [Msg(User, text)]
  }

  /** `on_message`: continue the conversation a reply to the bot belongs to. */
  function OnMessage(mem: Memory, msg: Incoming, botUserId: Option<int>, prompt: string,
                     llm: seq<Msg> -> LlmOutcome, sentId: Option<int>, now: int, ttl: int,
                     maxTurns: nat): (res: (Memory, Handling))
    ensures !res.1.Continued? ==> res.0 == mem
    ensures res.1.Continued? ==>
      && msg.reference.Some? && botUserId == Some(msg.reference.value.authorId)
      && sentId.Some?
  {
    if msg.authorIsBot then (mem, IgnoredBot)
    else if msg.reference.None? || botUserId.None? || msg.reference.value.authorId != botUserId.value then (mem, PassedOn)
    else
      var ref := msg.reference.value;
      var root := RootOf(mem, ref.id);
      var history := ContinuedHistory(mem, prompt, ref, msg.content, now, ttl);
      match LlmReply(llm, history, maxTurns)
      case None => (mem, if llm(Trim(history, maxTurns)).LlmError? then LlmFailed else NullContent)
      case Some(text) =>
        if sentId.None? then (mem, SendFailed)
        else
          var convo := Conversation(Trim(history + [Msg(Assistant, text)], maxTurns), now, msg.channelId);
          (Memory(mem.convos[root := convo], mem.msgToRoot[sentId.value := root][ref.id := root]),
           Continued(root, Outgoing(text)))
  }

  /**
   * A continued reply relinks the thread: the referenced message resolves to
   * its root (itself when unmapped), afterwards both the referenced message
   * and the new reply map to that root, the root's conversation is stamped
   * `now` in the reply's channel, and every other thread and link is as it was.
   */
  lemma OnMessageLinks(mem: Memory, msg: Incoming, botUserId: Option<int>, prompt: string,
                       llm: seq<Msg> -> LlmOutcome, sentId: Option<int>, now: int, ttl: int, maxTurns: nat)
    requires OnMessage(mem, msg, botUserId, prompt, llm, sentId, now, ttl, maxTurns).1.Continued?
    ensures var (out, h) := OnMessage(mem, msg, botUserId, prompt, llm, sentId, now, ttl, maxTurns);
      var ref := msg.reference.value;
      var root := if ref.id in mem.msgToRoot then mem.msgToRoot[ref.id] else ref.id;
      && h.root == root
      && out.msgToRoot[ref.id] == root
      && out.msgToRoot[sentId.value] == root
      && out.msgToRoot.Keys == mem.msgToRoot.Keys + {ref.id, sentId.value}
      && (forall k :: k in mem.msgToRoot && k != ref.id && k != sentId.value ==> out.msgToRoot[k] == mem.msgToRoot[k])
      && out.convos.Keys == mem.convos.Keys + {root}
      && (forall r :: r in mem.convos && r != root ==> out.convos[r] == mem.convos[r])
      && out.convos[root].lastActive == now
      && out.convos[root].channelId == msg.channelId
  {
  }

  /**
   * The history a continued reply leaves behind: an expired or unknown root
   * restarts from [system, referenced bot text, user]; a live root appends the
   * user turn to what it had; either way the answer is appended and the
   * result is trimmed.
   */
  lemma OnMessageHistory(mem: Memory, msg: Incoming, botUserId: Option<int>, prompt: string,
                         llm: seq<Msg> -> LlmOutcome, sentId: Option<int>, now: int, ttl: int, maxTurns: nat,
                         text: string)
    requires OnMessage(mem, msg, botUserId, prompt, llm, sentId, now, ttl, maxTurns).1.Continued?
    requires LlmReply(llm, ContinuedHistory(mem, prompt, msg.reference.value, msg.content, now, ttl), maxTurns) == Some(text)
    ensures var out := OnMessage(mem, msg, botUserId, prompt, llm, sentId, now, ttl, maxTurns).0;
      var ref := msg.reference.value;
      var root := if ref.id in mem.msgToRoot then mem.msgToRoot[ref.id] else ref.id;
      var hist := out.convos[root].history;
      && (root !in mem.convos || now - mem.convos[root].lastActive > ttl ==>
            hist == Trim([Msg(System, prompt), Msg(Assistant, ref.content), Msg(User, msg.content), Msg(Assistant, text)], maxTurns))
      && (root in mem.convos && now - mem.convos[root].lastActive <= ttl ==>
            hist == Trim(mem.convos[root].history + [Msg(User, msg.content), Msg(Assistant, text)], maxTurns))
  {
    var ref := msg.reference.value;
    var root := RootOf(mem, ref.id);
    var history := ContinuedHistory(mem, prompt, ref, msg.content, now, ttl);
    OnMessageStores(mem, msg, botUserId, prompt, llm, sentId, now, ttl, maxTurns, text);
    if IsExpired(mem, root, now, ttl) {
      assert history + [Msg(Assistant, text)]
          == [Msg(System, prompt), Msg(Assistant, ref.content), Msg(User, msg.content), Msg(Assistant, text)];
    } else {
      assert history + [Msg(Assistant, text)]
          == mem.convos[root].history + [Msg(User, msg.content), Msg(Assistant, text)];
    }
  }

  /** The stored history ends with the answer, and the chunks sent spell out the answer exactly. */
  lemma OnMessageAnswers(mem: Memory, msg: Incoming, botUserId: Option<int>, prompt: string,
                         llm: seq<Msg> -> LlmOutcome, sentId: Option<int>, now: int, ttl: int, maxTurns: nat,
                         text: string)
    requires OnMessage(mem, msg, botUserId, prompt, llm, sentId, now, ttl, maxTurns).1.Continued?
    requires LlmReply(llm, ContinuedHistory(mem, prompt, msg.reference.value, msg.content, now, ttl), maxTurns) == Some(text)
    ensures var (out, h) := OnMessage(mem, msg, botUserId, prompt, llm, sentId, now, ttl, maxTurns);
      var hist := out.convos[RootOf(mem, msg.reference.value.id)].history;
      && |hist| > 0 && hist[|hist| - 1] == Msg(Assistant, text)
      && Concat(h.sent) == text
  {
    OnMessageStores(mem, msg, botUserId, prompt, llm, sentId, now, ttl, maxTurns, text);
    OutgoingSound(text);
    TrimKeepsLast(ContinuedHistory(mem, prompt, msg.reference.value, msg.content, now, ttl), Msg(Assistant, text), maxTurns);
  }

  /** A continued reply stores the trimmed history with the answer under the root, and sends the answer. */
  lemma OnMessageStores(mem: Memory, msg: Incoming, botUserId: Option<int>, prompt: string,
                        llm: seq<Msg> -> LlmOutcome, sentId: Option<int>, now: int, ttl: int, maxTurns: nat,
                        text: string)
    requires OnMessage(mem, msg, botUserId, prompt, llm, sentId, now, ttl, maxTurns).1.Continued?
    requires LlmReply(llm, ContinuedHistory(mem, prompt, msg.reference.value, msg.content, now, ttl), maxTurns) == Some(text)
    ensures var (out, h) := OnMessage(mem, msg, botUserId, prompt, llm, sentId, now, ttl, maxTurns);
      var history := ContinuedHistory(mem, prompt, msg.reference.value, msg.content, now, ttl);
      var root := RootOf(mem, msg.reference.value.id);
      && root in out.convos
      && out.convos[root].history == Trim(history + [Msg(Assistant, text)], maxTurns)
      && h.sent == Outgoing(text)
  {
  }

  /**
   * Exactly the replies by a human to a message of this bot whose LLM call
   * and send both succeed continue a thread; bots are always ignored, and
   * while the bot's own user is unknown nothing continues.
   */
  lemma OnMessageContinuedIff(mem: Memory, msg: Incoming, botUserId: Option<int>, prompt: string,
                              llm: seq<Msg> -> LlmOutcome, sentId: Option<int>, now: int, ttl: int, maxTurns: nat)
    ensures var h := OnMessage(mem, msg, botUserId, prompt, llm, sentId, now, ttl, maxTurns).1;
      && (h.Continued? <==>
            && !msg.authorIsBot && msg.reference.Some? && botUserId == Some(msg.reference.value.authorId)
            && LlmReply(llm, ContinuedHistory(mem, prompt, msg.reference.value, msg.content, now, ttl), maxTurns).Some?
            && sentId.Some?)
      && (h == IgnoredBot <==> msg.authorIsBot)
      && (botUserId.None? && !msg.authorIsBot ==> h == PassedOn)
  {
  }

  /**
   * A reply to the bot whose answer comes back with a null content is dropped:
   * no apology is sent (only the LLM call itself is guarded) and memory is
   * as it was.
   */
  lemma OnMessageNullContent(mem: Memory, msg: Incoming, botUserId: Option<int>, prompt: string,
                             llm: seq<Msg> -> LlmOutcome, sentId: Option<int>, now: int, ttl: int, maxTurns: nat)
    requires !msg.authorIsBot && msg.reference.Some? && botUserId == Some(msg.reference.value.authorId)
    requires var o := llm(Trim(ContinuedHistory(mem, prompt, msg.reference.value, msg.content, now, ttl), maxTurns));
      o.Completion? && |o.choices| > 0 && o.choices[0].None?
    ensures OnMessage(mem, msg, botUserId, prompt, llm, sentId, now, ttl, maxTurns) == (mem, NullContent)
  {
  }

  // ================================================================ the invariant across operations

  lemma AskThePilotKeepsInv(mem: Memory, prompt: string, question: string, llm: seq<Msg> -> LlmOutcome,
                            sentId: Option<int>, channelId: int, now: int, maxTurns: nat)
    requires Inv(mem)
    ensures Inv(AskThePilot(mem, prompt, question, llm, sentId, channelId, now, maxTurns))
  {
  }

  lemma {:induction false} OnMessageKeepsInv(mem: Memory, msg: Incoming, botUserId: Option<int>, prompt: string,
                                             llm: seq<Msg> -> LlmOutcome, sentId: Option<int>, now: int, ttl: int, maxTurns: nat)
    requires Inv(mem)
    ensures Inv(OnMessage(mem, msg, botUserId, prompt, llm, sentId, now, ttl, maxTurns).0)
  {
    var (out, h) := OnMessage(mem, msg, botUserId, prompt, llm, sentId, now, ttl, maxTurns);
    if h.Continued? {
      var ref := msg.reference.value;
      var root := RootOf(mem, ref.id);
      assert root in out.convos;
      forall k | k in out.msgToRoot
        ensures out.msgToRoot[k] in out.convos
      {
        if k != ref.id && k != sentId.value {
          assert out.msgToRoot[k] == mem.msgToRoot[k];
        }
      }
    }
  }
}

=== FILE: rolecop_approvals.dfy ===
/**
 * RoleCop approval requests and the Approve/Deny button view
 * (modules/rolecop/core/approvals.py).
 */
module Approvals {
  import opened Base
  import opened Json
  import opened Permissions

  /** A pending request: who asked, about whom, what to do, why, and action data. */
  datatype ApprovalRequest = ApprovalRequest(
    requesterId: int,
    targetId: int,
    action: string,
    reason: Option<string>,
    payload: map<string, Json>)

  /** Seconds an `ApprovalView` stays active unless told otherwise. */
  const DefaultTimeout: nat := 3600

  /** The view: the role names allowed to decide, and its timeout. */
  datatype ApprovalView = ApprovalView(approverRoleNames: seq<Json>, timeout: nat)

  /** A view built without an explicit timeout. */
  function NewView(names: seq<Json>): (v: ApprovalView)
    ensures v.timeout == DefaultTimeout && v.approverRoleNames == names
  {
    ApprovalView(names, DefaultTimeout)
  }

  /** Who pressed a button: a guild member, or a user seen outside a guild. */
  datatype Presser = AsMember(member: Member) | NotMember(userId: int)

  /**
   * The result of `interaction_check`: whether the press goes through, and
   * whether the refusal notice reached the user.
   */
  datatype Check = Check(allowed: bool, noticeShown: bool)

  /**
   * `interaction_check`: non-members are refused silently; approvers pass;
   * any other member is refused and sent a notice, `noticeOk` being the
   * outcome of that send (a failed send is swallowed).
   */
  function InteractionCheck(view: ApprovalView, who: Presser, noticeOk: bool): (c: Check)
    ensures who.NotMember? ==> !c.allowed && !c.noticeShown
    ensures who.AsMember? ==> (c.allowed <==> IsApprover(who.member, view.approverRoleNames))
    ensures c.noticeShown ==> !c.allowed
  {
    match who
    case NotMember(_) => Check(false, false)
    case AsMember(m) =>
      if IsApprover(m, view.approverRoleNames) then Check(true, false)
      else Check(false, noticeOk)
  }

  /** Whether the press goes through never depends on the refusal notice being delivered. */
  lemma CheckIgnoresNoticeOutcome(view: ApprovalView, who: Presser)
    ensures InteractionCheck(view, who, true).allowed == InteractionCheck(view, who, false).allowed
    ensures InteractionCheck(view, who, true).allowed <==> who.AsMember? && IsApprover(who.member, view.approverRoleNames)
  {
  }

  datatype Button = ApproveButton | DenyButton

  /**
   * A press on the view: None when `interaction_check` refuses it, else the
   * decision handed to the callback (`True` for Approve, `False` for Deny).
   */
  function Press(view: ApprovalView, who: Presser, button: Button, noticeOk: bool): (decision: Option<bool>)
    ensures decision.Some? <==> who.AsMember? && IsApprover(who.member, view.approverRoleNames)
    ensures decision.Some? ==> (decision.value <==> button == ApproveButton)
  {
    if InteractionCheck(view, who, noticeOk).allowed then
      Some(button == ApproveButton)
    else None
  }
}

=== FILE: rolecop_config.dfy ===
/**
 * RoleCop configuration files (modules/rolecop/core/config_loader.py): the
 * public defaults overlaid with the personal file by a recursive merge, the
 * runtime settings read from the result, and the per-guild settings store.
 *
 * A file is seen as its decoded content: missing, unparsable, or a JSON value.
 */
module ConfigLoader {
  import opened Base
  import opened Json

  datatype FileContent = Missing | Unparsable | Parsed(value: Json)

  /** `_load_json`: the decoded document, or the fallback when the file is missing or unparsable. */
  function LoadJson(f: FileContent, fallback: Json): (j: Json)
    ensures f.Parsed? ==> j == f.value
    ensures !f.Parsed? ==> j == fallback
  {
    match f
    case Parsed(v) => v
    case _ => fallback
  }

  /**
   * `_deep_merge` on two objects: every key of either side; where both sides
   * hold an object the merge recurses, otherwise `b`'s value wins.
   */
  function DeepMerge(a: map<string, Json>, b: map<string, Json>): (out: map<string, Json>)
    ensures out.Keys == a.Keys + b.Keys
    decreases JObj(b)
  {
    map k | k in a.Keys + b.Keys ::
      if k !in b then a[k]
      else if b[k].JObj? && k in a && a[k].JObj? then JObj(DeepMerge(a[k].fields, b[k].fields))
      else b[k]
  }

  /** Keys only in `a` keep `a`'s value; a key of `b` whose value is not an object takes `b`'s value. */
  lemma DeepMergeValues(a: map<string, Json>, b: map<string, Json>)
    ensures forall k :: k in a && k !in b ==> DeepMerge(a, b)[k] == a[k]
    ensures forall k :: k in b && !b[k].JObj? ==> DeepMerge(a, b)[k] == b[k]
    ensures forall k :: k in b && (k !in a || !a[k].JObj?) ==> DeepMerge(a, b)[k] == b[k]
    ensures forall k :: k in b && b[k].JObj? && k in a && a[k].JObj? ==>
      DeepMerge(a, b)[k] == JObj(DeepMerge(a[k].fields, b[k].fields))
  {
  }

  /** Merging with an empty overlay, or onto an empty base, returns the other side. */
  lemma DeepMergeIdentity(a: map<string, Json>)
    ensures DeepMerge(a, map[]) == a
    ensures DeepMerge(map[], a) == a
  {
    var l := DeepMerge(a, map[]);
    var r := DeepMerge(map[], a);
    assert forall k :: k in l <==> k in a;
    assert forall k :: k in l ==> l[k] == a[k];
    assert forall k :: k in r <==> k in a;
    assert forall k :: k in r ==> r[k] == a[k];
  }

  /** Merging a configuration with itself gives it back. */
  lemma {:induction false} DeepMergeSelf(a: map<string, Json>)
    ensures DeepMerge(a, a) == a
    decreases JObj(a)
  {
    var m := DeepMerge(a, a);
    forall k | k in a
      ensures m[k] == a[k]
    {
      if a[k].JObj? {
        DeepMergeSelf(a[k].fields);
      }
    }
    assert forall k :: k in m <==> k in a;
    assert forall k :: k in m ==> m[k] == a[k];
  }

  /** Laying the same overlay on twice is the same as laying it on once. */
  lemma {:induction false} DeepMergeOverlayTwice(a: map<string, Json>, b: map<string, Json>)
    ensures DeepMerge(DeepMerge(a, b), b) == DeepMerge(a, b)
    decreases JObj(b)
  {
    var m := DeepMerge(a, b);
    var mm := DeepMerge(m, b);
    forall k | k in m
      ensures mm[k] == m[k]
    {
      if k in b && b[k].JObj? {
        if k in a && a[k].JObj? {
          DeepMergeOverlayTwice(a[k].fields, b[k].fields);
        } else {
          DeepMergeSelf(b[k].fields);
        }
      }
    }
    assert forall k :: k in mm <==> k in m;
    assert forall k :: k in mm ==> mm[k] == m[k];
  }

  /**
   * Python `dict(x)` on a decoded document: objects are copied; an empty
   * list or string gives an empty dict; anything else raises (a non-empty
   * list is taken to raise, see the README).
   */
  function AsDict(x: Json): (r: Result<map<string, Json>, string>)
    ensures x.JObj? ==> r == Ok(x.fields)
    ensures (x == JList([]) || x == JStr("")) ==> r == Ok(map[])
    ensures r.Ok? ==> x.JObj? || x == JList([]) || x == JStr("")
  {
    match x
    case JObj(m) => Ok(m)
    case JList(xs) => if |xs| == 0 then Ok(map[]) else Err("ValueError")
    case JStr(s) => if s == "" then Ok(map[]) else Err("ValueError")
    case _ => Err("TypeError")
  }

  /**
   * The top-level `_deep_merge(public, personal)`: `dict(a)` first, then
   * `b.items()`, which raises unless `b` is an object.
   */
  function MergeDocuments(a: Json, b: Json): (r: Result<map<string, Json>, string>)
    ensures a.JObj? && b.JObj? ==> r == Ok(DeepMerge(a.fields, b.fields))
    ensures !b.JObj? ==> r.Err?
    ensures r.Ok? ==> AsDict(a).Ok? && b.JObj?
  {
    match AsDict(a)
    case Err(e) => Err(e)
    case Ok(da) =>
      if b.JObj? then Ok(DeepMerge(da, b.fields)) else Err("AttributeError")
  }

  /** `RoleCopRuntimeConfig` (the settings path is a constant and left out). */
  datatype RuntimeConfig = RuntimeConfig(
    personalGuildId: Json,
    safeModeDefault: bool,
    approvalsChannelName: Json,
    approverRoleNames: seq<string>,
    dmApproversFirst: bool)

  /** The section the channel, role and DM settings come from: `defaults` when it is an object, else the top level. */
  function DefaultsSection(merged: map<string, Json>): (d: map<string, Json>)
    ensures "defaults" in merged && merged["defaults"].JObj? ==> d == merged["defaults"].fields
    ensures !("defaults" in merged && merged["defaults"].JObj?) ==> d == merged
  {
    if "defaults" in merged && merged["defaults"].JObj? then merged["defaults"].fields else merged
  }

  /** `[str(x) for x in role_names]`, with anything but a list read as `[]`. */
  function RoleNameStrings(v: Json): (r: seq<string>)
    ensures !v.JList? ==> r == []
    ensures v.JList? ==> |r| == |v.items| && forall i :: 0 <= i < |r| ==> r[i] == PyStr(v.items[i])
  {
    if v.JList? then seq(|v.items|, i requires 0 <= i < |v.items| => PyStr(v.items[i])) else []
  }

  /** `load_runtime_config` from the two files' contents; a missing or unparsable file reads as `{}`. */
  function LoadRuntimeConfig(public: FileContent, personal: FileContent): (r: Result<RuntimeConfig, string>)
  {
    match MergeDocuments(LoadJson(public, JObj(map[])), LoadJson(personal, JObj(map[])))
    case Err(e) => Err(e)
    case Ok(merged) =>
      var defaults := DefaultsSection(merged);
      Ok(RuntimeConfig(
        Get(merged, "personal_guild_id", JNull),
        Truthy(Get(merged, "safe_mode_default", JBool(true))),
        Get(defaults, "approvals_channel_name", JNull),
        RoleNameStrings(Get(defaults, "approver_role_names", JList([]))),
        Truthy(Get(defaults, "dm_approvers_first", JBool(false)))))
  }

  /**
   * What `load_runtime_config` promises when both files hold objects (or are
   * absent): personal id and safe-mode default come from the top level of the
   * merge, safe mode defaulting to on; channel, role names and the DM flag
   * come from the `defaults` section when there is one, role names falling
   * back to `[]` and the DM flag to off.
   */
  lemma RuntimeConfigReads(public: FileContent, personal: FileContent)
    requires LoadJson(public, JObj(map[])).JObj? && LoadJson(personal, JObj(map[])).JObj?
    ensures var merged := DeepMerge(LoadJson(public, JObj(map[])).fields, LoadJson(personal, JObj(map[])).fields);
      var d := if "defaults" in merged && merged["defaults"].JObj? then merged["defaults"].fields else merged;
      var r := LoadRuntimeConfig(public, personal);
      && r.Ok?
      && r.value.personalGuildId == (if "personal_guild_id" in merged then merged["personal_guild_id"] else JNull)
      && (r.value.safeModeDefault <==> "safe_mode_default" !in merged || Truthy(merged["safe_mode_default"]))
      && r.value.approvalsChannelName == (if "approvals_channel_name" in d then d["approvals_channel_name"] else JNull)
      && (("approver_role_names" !in d || !d["approver_role_names"].JList?) ==> r.value.approverRoleNames == [])
      && ("approver_role_names" in d && d["approver_role_names"].JList? ==>
            && |r.value.approverRoleNames| == |d["approver_role_names"].items|
            && forall i :: 0 <= i < |r.value.approverRoleNames| ==>
                 r.value.approverRoleNames[i] == PyStr(d["approver_role_names"].items[i]))
      && (r.value.dmApproversFirst <==> "dm_approvers_first" in d && Truthy(d["dm_approvers_first"]))
  {
  }

  /** With neither file present every setting takes its default. */
  lemma RuntimeConfigWithoutFiles()
    ensures LoadRuntimeConfig(Missing, Missing) == Ok(RuntimeConfig(JNull, true, JNull, [], false))
  {
    DeepMergeIdentity(map[]);
  }

  /** A personal file that is not an object makes loading fail. */
  lemma RuntimeConfigRejectsBadOverlay(public: FileContent, v: Json)
    requires !v.JObj?
    ensures LoadRuntimeConfig(public, Parsed(v)).Err?
  {
  }

  /**
   * `load_guild_settings`: the `guilds` object of the stored document, or `{}`
   * when the document or its `guilds` entry is not an object. A missing or
   * unparsable file reads as `{"guilds": {}}`.
   */
  function LoadGuildSettings(f: FileContent): (g: map<string, Json>)
  {
    var data := LoadJson(f, JObj(map["guilds" := JObj(map[])]));
    if !data.JObj? then map[]
    else if "guilds" in data.fields && data.fields["guilds"].JObj? then data.fields["guilds"].fields
    else map[]
  }

  /** Exactly a stored object whose `guilds` entry is an object yields settings; anything else yields `{}`. */
  lemma LoadGuildSettingsShape(f: FileContent)
    ensures !f.Parsed? ==> LoadGuildSettings(f) == map[]
    ensures f.Parsed? && !(f.value.JObj? && "guilds" in f.value.fields && f.value.fields["guilds"].JObj?) ==>
      LoadGuildSettings(f) == map[]
    ensures f.Parsed? && f.value.JObj? && "guilds" in f.value.fields && f.value.fields["guilds"].JObj? ==>
      LoadGuildSettings(f) == f.value.fields["guilds"].fields
  {
  }

  /** `save_guild_settings`: the file then holds `{"guilds": guilds}`. */
  function SaveGuildSettings(guilds: map<string, Json>): (f: FileContent)
    ensures f.Parsed? && f.value.JObj? && f.value.fields.Keys == {"guilds"}
  {
    Parsed(JObj(map["guilds" := JObj(guilds)]))
  }

  /** Saving and then loading guild settings gives the same map back. */
  lemma GuildSettingsRoundTrip(guilds: map<string, Json>)
    ensures LoadGuildSettings(SaveGuildSettings(guilds)) == guilds
  {
  }
}

=== FILE: rolecop_env.dfy ===
/**
 * RoleCop start-up settings (modules/rolecop/commands/elements/config.py):
 * the bot token, guild id and welcome channel id are required, the two
 * welcome-message file paths are optional; plus the vote emoji.
 */
module RoleCopEnv {
  import opened Base
  import opened Text

  /** The reaction that approves a kick vote. */
  const EmojiApprove: string := "\U{2705}"
  /** The reaction that denies a kick vote. */
  const EmojiDeny: string := "\U{274C}"

  datatype RolecopConfig = RolecopConfig(
    token: string,
    guildId: int,
    welcomeChannelId: int,
    memberMessagesPath: Option<string>,
    botMessagesPath: Option<string>)

  /** Why `get_config` raised: a required variable unset or empty, or not an integer. */
  datatype EnvError = NotSet(name: string) | NotAnInt(name: string, value: string)

  /** `_require_env`: the value, or a `ValueError` naming the variable when it is unset or empty. */
  function RequireEnv(env: Env, name: string): (r: Result<string, EnvError>)
    ensures r.Ok? <==> Provided(env, name)
    ensures r.Ok? ==> r.value == env[name]
    ensures r.Err? ==> r.error == NotSet(name)
  {
    if Provided(env, name) then Ok(env[name]) else Err(NotSet(name))
  }

  /** `int(_require_env(name))`. */
  function RequireInt(env: Env, name: string): (r: Result<int, EnvError>)
    ensures r.Ok? <==> Provided(env, name) && ParseInt(env[name]).Some?
    ensures r.Ok? ==> Some(r.value) == ParseInt(env[name])
    ensures !Provided(env, name) ==> r == Err(NotSet(name))
    ensures Provided(env, name) && ParseInt(env[name]).None? ==> r == Err(NotAnInt(name, env[name]))
  {
    match RequireEnv(env, name)
    case Err(e) => Err(e)
    case Ok(v) =>
      match ParseInt(v)
      case None => Err(NotAnInt(name, v))
      case Some(i) => Ok(i)
  }

  /** The three required settings are usable: set, non-empty, and the ids integers. */
  predicate RequiredPresent(env: Env) {
    && Provided(env, "DISCORD_BOT_TOKEN")
    && Provided(env, "GUILD_ID") && ParseInt(env["GUILD_ID"]).Some?
    && Provided(env, "WELCOME_CHANNEL") && ParseInt(env["WELCOME_CHANNEL"]).Some?
  }

  /** `get_config`: the required variables checked in order, the first problem raising. */
  function GetConfig(env: Env): (r: Result<RolecopConfig, EnvError>)
    ensures r.Ok? <==> RequiredPresent(env)
    ensures r.Ok? ==>
      && r.value.token == env["DISCORD_BOT_TOKEN"]
      && Some(r.value.guildId) == ParseInt(env["GUILD_ID"])
      && Some(r.value.welcomeChannelId) == ParseInt(env["WELCOME_CHANNEL"])
      && r.value.memberMessagesPath == GetEnv(env, "WELCOME_MEMBER_MESSAGES")
      && r.value.botMessagesPath == GetEnv(env, "WELCOME_BOT_MESSAGES")
    ensures !Provided(env, "DISCORD_BOT_TOKEN") ==> r == Err(NotSet("DISCORD_BOT_TOKEN"))
    ensures Provided(env, "DISCORD_BOT_TOKEN") && !Provided(env, "GUILD_ID") ==> r == Err(NotSet("GUILD_ID"))
    ensures Provided(env, "DISCORD_BOT_TOKEN") && Provided(env, "GUILD_ID") && ParseInt(env["GUILD_ID"]).None? ==>
      r == Err(NotAnInt("GUILD_ID", env["GUILD_ID"]))
  {
    match RequireEnv(env, "DISCORD_BOT_TOKEN")
    case Err(e) => Err(e)
    case Ok(token) =>
      match RequireInt(env, "GUILD_ID")
      case Err(e) => Err(e)
      case Ok(guildId) =>
        match RequireInt(env, "WELCOME_CHANNEL")
        case Err(e) => Err(e)
        case Ok(channelId) =>
          Ok(RolecopConfig(token, guildId, channelId,
            GetEnv(env, "WELCOME_MEMBER_MESSAGES"), GetEnv(env, "WELCOME_BOT_MESSAGES")))
  }

  /** An environment holding exactly what a configuration needs, ids written as Python prints them. */
  function EnvOf(cfg: RolecopConfig): (env: Env)
    ensures "DISCORD_BOT_TOKEN" in env && "GUILD_ID" in env && "WELCOME_CHANNEL" in env
  {
    var base := map["DISCORD_BOT_TOKEN" := cfg.token,
                    "GUILD_ID" := IntToString(cfg.guildId),
                    "WELCOME_CHANNEL" := IntToString(cfg.welcomeChannelId)];
    var withMember := if cfg.memberMessagesPath.Some? then base["WELCOME_MEMBER_MESSAGES" := cfg.memberMessagesPath.value] else base;
    if cfg.botMessagesPath.Some? then withMember["WELCOME_BOT_MESSAGES" := cfg.botMessagesPath.value] else withMember
  }

  /** Every configuration with a non-empty token is read back unchanged from its environment. */
  lemma GetConfigRoundTrip(cfg: RolecopConfig)
    requires cfg.token != ""
    ensures GetConfig(EnvOf(cfg)) == Ok(cfg)
  {
    var env := EnvOf(cfg);
    assert env["DISCORD_BOT_TOKEN"] == cfg.token;
    assert env["GUILD_ID"] == IntToString(cfg.guildId);
    assert env["WELCOME_CHANNEL"] == IntToString(cfg.welcomeChannelId);
    assert GetEnv(env, "WELCOME_MEMBER_MESSAGES") == cfg.memberMessagesPath;
    assert GetEnv(env, "WELCOME_BOT_MESSAGES") == cfg.botMessagesPath;
    ParseIntOfIntToString(cfg.guildId);
    ParseIntOfIntToString(cfg.welcomeChannelId);
  }

  /** The optional paths never make loading fail: only the three required variables decide. */
  lemma OptionalPathsIrrelevant(env: Env, name: string, value: string)
    requires name == "WELCOME_MEMBER_MESSAGES" || name == "WELCOME_BOT_MESSAGES"
    ensures GetConfig(env[name := value]).Ok? <==> GetConfig(env).Ok?
  {
  }
}

=== FILE: rolecop_guild.dfy ===
/**
 * Per-guild configuration and role guardrails of the RoleCop cog
 * (modules/rolecop/cog.py): which settings apply in a guild, where approval
 * requests are posted, whether the guild is configured, the personal guild's
 * automatic entry, and the reasons a role may not be managed.
 */
module RoleCopGuild {
  import opened Base
  import opened Text
  import opened Json
  import opened Permissions
  import opened ConfigLoader

  /** A guild channel; only text channels can receive approval requests. */
  datatype Channel = Channel(id: int, name: string, isText: bool)

  /**
   * What the cog sees of a guild: its roles in Discord's order, its channels
   * in position order (the order of `guild.text_channels`, which the lookups
   * by name search, so "the first channel with a name" is the one highest in
   * the channel list), its members by id, and the bot's own top role (None
   * when `guild.me` is unavailable).
   */
  datatype Guild = Guild(
    id: int,
    roles: seq<Role>,
    channels: seq<Channel>,
    members: map<int, Member>,
    botTopRole: Option<Role>)

  /** The first element whose id is `id`: Discord's lookup of a role or channel by id. */
  function FindById<T>(xs: seq<T>, idOf: T -> int, id: int): (r: Option<T>)
    ensures r.Some? ==> idOf(r.value) == id && r.value in xs
    ensures r.None? ==> forall i :: 0 <= i < |xs| ==> idOf(xs[i]) != id
  {
    if |xs| == 0 then None
    else if idOf(xs[0]) == id then Some(xs[0])
    else FindById(xs[1..], idOf, id)
  }

  /** `guild.get_role(id)`: the first role with that id. */
  function GetRole(g: Guild, id: int): (r: Option<Role>)
    ensures r.Some? ==> r.value.id == id && r.value in g.roles
    ensures r.None? ==> forall i :: 0 <= i < |g.roles| ==> g.roles[i].id != id
  {
    FindById(g.roles, (x: Role) => x.id, id)
  }

  /** `guild.get_channel(id)`: the channel with that id, of whatever kind. */
  function GetChannel(chs: seq<Channel>, id: int): (r: Option<Channel>)
    ensures r.Some? ==> r.value.id == id && r.value in chs
    ensures r.None? ==> forall i :: 0 <= i < |chs| ==> chs[i].id != id
  {
    FindById(chs, (c: Channel) => c.id, id)
  }

  /** The first text channel whose name equals `name` (`ch.name == name`, so only a string can match). */
  function FirstTextNamed(chs: seq<Channel>, name: Json): (r: Option<Channel>)
    ensures r.Some? ==> r.value in chs && r.value.isText && name == JStr(r.value.name)
    ensures r.None? ==> forall i :: 0 <= i < |chs| ==> !(chs[i].isText && name == JStr(chs[i].name))
  {
    if |chs| == 0 then None
    else if chs[0].isText && name == JStr(chs[0].name) then Some(chs[0])
    else FirstTextNamed(chs[1..], name)
  }

  /** The settings-store key of a guild: `str(guild.id)`. */
  function GuildKey(g: Guild): string {
    IntToString(g.id)
  }

  /** `_is_personal`: a personal guild id is configured (truthy) and equals this guild's id. */
  predicate IsPersonal(cfg: RuntimeConfig, g: Option<Guild>) {
    g.Some? && Truthy(cfg.personalGuildId) && PyEqInt(cfg.personalGuildId, g.value.id)
  }

  /** The effective settings of one guild, as `_get_guild_cfg` returns them. */
  datatype GuildCfg = GuildCfg(
    safeMode: bool,
    approvalsChannelName: Json,
    approvalsChannelId: Json,
    approverRoleNames: seq<Json>,
    dmApproversFirst: bool,
    maxManagedRoleId: Json)

  /** The runtime default approver names as the JSON list the overrides would hold. */
  function NamesAsJson(names: seq<string>): (r: seq<Json>)
    ensures |r| == |names| && forall i :: 0 <= i < |r| ==> r[i] == JStr(names[i])
  {
    seq(|names|, i requires 0 <= i < |names| => JStr(names[i]))
  }

  /**
   * `_get_guild_cfg`. The guild's stored overrides must be an object: any
   * other stored value makes `.get` raise, modelled as an error.
   */
  function GetGuildCfg(cfg: RuntimeConfig, settings: map<string, Json>, g: Guild): (r: Result<GuildCfg, string>)
    ensures r.Err? <==> GuildKey(g) in settings && !settings[GuildKey(g)].JObj?
  {
    var ov := Get(settings, GuildKey(g), JObj(map[]));
    if !ov.JObj? then Err("AttributeError")
    else
      var o := ov.fields;
      var names := Get(o, "approver_role_names", JList(NamesAsJson(cfg.approverRoleNames)));
      var safe := Get(o, "safe_mode", JBool(cfg.safeModeDefault));
      Ok(GuildCfg(
        if IsPersonal(cfg, Some(g)) then false else Truthy(safe),
        Get(o, "approvals_channel_name", cfg.approvalsChannelName),
        Get(o, "approvals_channel_id", JNull),
        if names.JList? then names.items else [],
        Truthy(Get(o, "dm_approvers_first", JBool(cfg.dmApproversFirst))),
        Get(o, "max_managed_role_id", JNull)))
  }

  /**
   * How `_get_guild_cfg` resolves each setting: the guild's override when it
   * has one, else the runtime default; no default for the channel id and the
   * boundary; a non-list approver value reads as `[]`; the personal guild is
   * never in safe mode.
   */
  lemma GuildCfgResolution(cfg: RuntimeConfig, settings: map<string, Json>, g: Guild)
    requires GetGuildCfg(cfg, settings, g).Ok?
    ensures var c := GetGuildCfg(cfg, settings, g).value;
      var o := if GuildKey(g) in settings then settings[GuildKey(g)].fields else map[];
      && c.approvalsChannelName == (if "approvals_channel_name" in o then o["approvals_channel_name"] else cfg.approvalsChannelName)
      && c.approvalsChannelId == (if "approvals_channel_id" in o then o["approvals_channel_id"] else JNull)
      && c.maxManagedRoleId == (if "max_managed_role_id" in o then o["max_managed_role_id"] else JNull)
      && ("approver_role_names" !in o ==> c.approverRoleNames == NamesAsJson(cfg.approverRoleNames))
      && ("approver_role_names" in o && !o["approver_role_names"].JList? ==> c.approverRoleNames == [])
      && ("approver_role_names" in o && o["approver_role_names"].JList? ==> c.approverRoleNames == o["approver_role_names"].items)
      && (IsPersonal(cfg, Some(g)) ==> !c.safeMode)
      && (!IsPersonal(cfg, Some(g)) ==>
            (c.safeMode <==> if "safe_mode" in o then Truthy(o["safe_mode"]) else cfg.safeModeDefault))
      && (c.dmApproversFirst <==> if "dm_approvers_first" in o then Truthy(o["dm_approvers_first"]) else cfg.dmApproversFirst)
  {
  }

  /**
   * `_find_approvals_channel`: an integer id that names a text channel wins;
   * otherwise, when the name is truthy, the first text channel so named.
   */
  function FindApprovalsChannel(g: Guild, c: GuildCfg): (r: Option<Channel>)
    ensures r.Some? ==> r.value in g.channels && r.value.isText
  {
    var byId := if IsPyInt(c.approvalsChannelId) then GetChannel(g.channels, PyIntValue(c.approvalsChannelId)) else None;
    if byId.Some? && byId.value.isText then byId
    else if !Truthy(c.approvalsChannelName) then None
    else FirstTextNamed(g.channels, c.approvalsChannelName)
  }

  /**
   * Which channel `_find_approvals_channel` picks: the text channel the id
   * resolves to, if any; failing that the first text channel carrying the
   * configured name (an empty or missing name matches nothing); and none at
   * all when neither exists.
   */
  lemma FindApprovalsChannelPicks(g: Guild, c: GuildCfg)
    ensures var r := FindApprovalsChannel(g, c);
      var byId := if IsPyInt(c.approvalsChannelId) then GetChannel(g.channels, PyIntValue(c.approvalsChannelId)) else None;
      && (byId.Some? && byId.value.isText ==> r == byId)
      && (!(byId.Some? && byId.value.isText) && r.Some? ==>
            c.approvalsChannelName == JStr(r.value.name)
            && exists i :: 0 <= i < |g.channels| && g.channels[i] == r.value
                && forall j :: 0 <= j < i ==> !(g.channels[j].isText && g.channels[j].name == r.value.name))
      && (r.None? ==> !(byId.Some? && byId.value.isText))
      && (r.None? && Truthy(c.approvalsChannelName) ==>
            forall i :: 0 <= i < |g.channels| ==> !(g.channels[i].isText && c.approvalsChannelName == JStr(g.channels[i].name)))
  {
    var r := FindApprovalsChannel(g, c);
    var byId := if IsPyInt(c.approvalsChannelId) then GetChannel(g.channels, PyIntValue(c.approvalsChannelId)) else None;
    if !(byId.Some? && byId.value.isText) && r.Some? {
      assert r == FirstTextNamed(g.channels, c.approvalsChannelName);
      FirstTextNamedIsFirst(g.channels, c.approvalsChannelName);
    }
  }

  lemma {:induction false} FirstTextNamedIsFirst(chs: seq<Channel>, name: Json)
    requires FirstTextNamed(chs, name).Some?
    ensures var ch := FirstTextNamed(chs, name).value;
      exists i :: 0 <= i < |chs| && chs[i] == ch && forall j :: 0 <= j < i ==> !(chs[j].isText && chs[j].name == ch.name)
  {
    var ch := FirstTextNamed(chs, name).value;
    if chs[0].isText && name == JStr(chs[0].name) {
      assert chs[0] == ch;
    } else {
      FirstTextNamedIsFirst(chs[1..], name);
      var i :| 0 <= i < |chs[1..]| && chs[1..][i] == ch && forall j :: 0 <= j < i ==> !(chs[1..][j].isText && chs[1..][j].name == ch.name);
      assert chs[i + 1] == ch;
      forall j | 0 <= j < i + 1
        ensures !(chs[j].isText && chs[j].name == ch.name)
      {
        if j > 0 {
          assert chs[j] == chs[1..][j - 1];
        }
      }
    }
  }

  /** `_is_configured`: somewhere to post (an int id or a truthy name) and someone to approve. */
  predicate IsConfigured(c: GuildCfg) {
    (IsPyInt(c.approvalsChannelId) || Truthy(c.approvalsChannelName)) && |c.approverRoleNames| > 0
  }

  /**
   * `_ensure_personal_guild_config` given the guild it resolved (the one
   * joined, or `bot.get_guild(personal_id)`): a personal guild without an
   * entry gets one with safe mode off, pointing at the text channel named
   * after the default approvals channel when it exists. Returns the new
   * settings and whether they were saved.
   */
  function EnsurePersonalGuildConfig(cfg: RuntimeConfig, settings: map<string, Json>, g: Option<Guild>)
    : (res: (map<string, Json>, bool))
    ensures !res.1 ==> res.0 == settings
    ensures res.1 <==> Truthy(cfg.personalGuildId) && g.Some? && GuildKey(g.value) !in settings
  {
    if !Truthy(cfg.personalGuildId) || g.None? then (settings, false)
    else
      var key := GuildKey(g.value);
      if key in settings then (settings, false)
      else
        var name := cfg.approvalsChannelName;
        var ch := if Truthy(name) then FirstTextNamed(g.value.channels, name) else None;
        var entry := map[
          "safe_mode" := JBool(false),
          "approvals_channel_name" := (if ch.Some? then JStr(ch.value.name) else name),
          "approvals_channel_id" := (if ch.Some? then JInt(ch.value.id) else JNull),
          "approver_role_names" := JList(NamesAsJson(cfg.approverRoleNames)),
          "max_managed_role_id" := JNull];
        (settings[key := JObj(entry)], true)
  }

  /**
   * The personal guild's automatic entry never replaces an existing one,
   * leaves every other guild's entry alone, and switches safe mode off.
   */
  lemma EnsurePersonalNeverOverwrites(cfg: RuntimeConfig, settings: map<string, Json>, g: Option<Guild>)
    ensures var (out, saved) := EnsurePersonalGuildConfig(cfg, settings, g);
      && settings.Keys <= out.Keys
      && (forall k :: k in settings ==> out[k] == settings[k])
      && (saved ==> out.Keys == settings.Keys + {GuildKey(g.value)}
                    && out[GuildKey(g.value)].JObj?
                    && "safe_mode" in out[GuildKey(g.value)].fields
                    && out[GuildKey(g.value)].fields["safe_mode"] == JBool(false))
  {
  }

  /** `_is_privileged_role`: any of the seven admin/moderation permissions. */
  predicate IsPrivilegedRole(r: Role) {
    var p := r.perms;
    p.administrator || p.manageGuild || p.manageRoles || p.manageChannels
    || p.manageWebhooks || p.banMembers || p.kickMembers
  }

  /**
   * Discord's role order: `a < b` when `a` sits lower, and at equal
   * positions the role with the larger id counts as lower.
   */
  predicate RoleBelow(a: Role, b: Role) {
    a.position < b.position || (a.position == b.position && a.id > b.id)
  }

  /** `role >= other`. */
  predicate RoleAtLeast(a: Role, b: Role) {
    !RoleBelow(a, b)
  }

  /** Why RoleCop refuses a role. */
  datatype Reject =
    | TargetsEveryone
    | ManagedRole
    | PrivilegedRole
    | AboveBot
    | AboveBoundary(boundaryName: string)

  /** The boundary role named by the settings, when the id is an integer naming an existing role. */
  function Boundary(g: Guild, c: GuildCfg): Option<Role> {
    if IsPyInt(c.maxManagedRoleId) then GetRole(g, PyIntValue(c.maxManagedRoleId)) else None
  }

  /** `_role_reject_reason`: the first guardrail the role fails, in the source's order. */
  function RoleRejectReason(g: Guild, r: Role, c: GuildCfg): Option<Reject> {
    if r.isDefault then Some(TargetsEveryone)
    else if r.managed then Some(ManagedRole)
    else if IsPrivilegedRole(r) then Some(PrivilegedRole)
    else if g.botTopRole.Some? && RoleAtLeast(r, g.botTopRole.value) then Some(AboveBot)
    else if Boundary(g, c).Some? && RoleAtLeast(r, Boundary(g, c).value) then Some(AboveBoundary(Boundary(g, c).value.name))
    else None
  }

  /**
   * A role passes the guardrails exactly when it is not @everyone, not
   * managed, not privileged, strictly below the bot's top role (when known)
   * and strictly below the boundary role (when one is set and exists).
   */
  lemma RoleRejectNoneIff(g: Guild, r: Role, c: GuildCfg)
    ensures RoleRejectReason(g, r, c).None? <==>
      && !r.isDefault && !r.managed
      && !(r.perms.administrator || r.perms.manageGuild || r.perms.manageRoles || r.perms.manageChannels
           || r.perms.manageWebhooks || r.perms.banMembers || r.perms.kickMembers)
      && (g.botTopRole.Some? ==> RoleBelow(r, g.botTopRole.value))
      && (Boundary(g, c).Some? ==> RoleBelow(r, Boundary(g, c).value))
  {
  }

  /** The guardrails report the earliest failure: each reason implies every earlier check passed. */
  lemma RoleRejectOrder(g: Guild, r: Role, c: GuildCfg)
    ensures RoleRejectReason(g, r, c) == Some(TargetsEveryone) <==> r.isDefault
    ensures RoleRejectReason(g, r, c) == Some(ManagedRole) <==> !r.isDefault && r.managed
    ensures RoleRejectReason(g, r, c) == Some(PrivilegedRole) <==> !r.isDefault && !r.managed && IsPrivilegedRole(r)
    ensures RoleRejectReason(g, r, c) == Some(AboveBot) <==>
      !r.isDefault && !r.managed && !IsPrivilegedRole(r) && g.botTopRole.Some? && !RoleBelow(r, g.botTopRole.value)
    ensures RoleRejectReason(g, r, c).Some? && RoleRejectReason(g, r, c).value.AboveBoundary? ==>
      Boundary(g, c).Some? && !RoleBelow(r, Boundary(g, c).value)
  {
  }

  /** Discord's order is a strict order: no role is below itself, and `below` is transitive. */
  lemma RoleBelowStrict(a: Role, b: Role, d: Role)
    ensures !RoleBelow(a, a)
    ensures RoleBelow(a, b) && RoleBelow(b, d) ==> RoleBelow(a, d)
    ensures RoleBelow(a, b) ==> !RoleBelow(b, a)
  {
  }
}

=== FILE: rolecop_kick.dfy ===
/**
 * The legacy `/kick_request` command (modules/rolecop/commands/kick.py): a
 * per-user cooldown, the checks made before a vote opens, and the two-step
 * admin vote that may end in a kick.
 *
 * `bot.wait_for` hands the command one matching reaction or a timeout at a
 * time; each becomes an `Event` fed to `Step`. The ids of the messages the
 * bot posts and the result of the kick call are outcomes passed in.
 */
module KickVote {
  import opened Base
  import opened Json
  import opened Permissions
  import opened RoleCopGuild
  import opened RoleCopEnv
  import RoleCopRequests

  /** Seconds a user must wait between two kick requests. */
  const CooldownTime: int := 300
  /** Seconds the admins have for the first vote, and the approving admin for the confirmation. */
  const VoteTimeout: nat := 300
  const ConfirmTimeout: nat := 60

  const AdminRoleName: string := "Admin"
  const ApprovalChannelName: string := "\U{1F3E2}-admin-approval"
  const WarningChannelName: string := "member-warnings"
  const PrivateChannelName: string := "private-admin-approval"

  // ---------------------------------------------------------------- opening a request

  /** `kick_cooldowns`: the time (in seconds) of each user's last recorded request. */
  type Cooldowns = map<int, int>

  /** The user's last recorded request is less than `CooldownTime` seconds old. */
  predicate CoolingDown(cd: Cooldowns, user: int, now: int) {
    user in cd && now - cd[user] < CooldownTime
  }

  /** `discord.utils.get(roles, name=...)`: the first role with exactly that name. */
  function FirstRoleNamed(roles: seq<Role>, name: string): (r: Option<Role>)
    ensures r.Some? ==> r.value in roles && r.value.name == name
    ensures r.None? ==> forall i :: 0 <= i < |roles| ==> roles[i].name != name
  {
    if |roles| == 0 then None
    else if roles[0].name == name then Some(roles[0])
    else FirstRoleNamed(roles[1..], name)
  }

  /** The ids of the guild members holding `role`. */
  function Holders(g: Guild, role: Role): (ids: set<int>)
    ensures forall id :: id in ids <==> id in g.members && RoleCopRequests.HasRole(g.members[id], role)
  {
    set id | id in g.members && RoleCopRequests.HasRole(g.members[id], role)
  }

  /** Why a request was turned away before any vote. */
  datatype Refusal = MustWait | NotInServer | NoAdminRole | NoApprovalChannel | NoAdmins

  /** What `member.kick` did: success, `Forbidden`, or another HTTP error. */
  datatype KickOutcome = KickOk | KickForbidden | KickHttpError

  /** The ephemeral follow-up `kick_member` sends to the requester. */
  datatype FollowUp = KickedNotice | NoPermissionNotice | KickErrorNotice

  /** What one call of `kick_member` did: whether the member left, and the follow-up sent, if any. */
  datatype KickReport = KickReport(kicked: bool, followUp: Option<FollowUp>)

  /** How a vote ended. */
  datatype Ending =
    | Attempted(admin: int, report: KickReport)        // both approvals given, the kick was tried
    | Denied(admin: int)                                // an admin reacted with the deny emoji
    | VoteTimedOut                                      // no vote within `VoteTimeout`
    | ConfirmTimedOut(admin: int, noticeChannel: int)   // no confirmation within `ConfirmTimeout`

  /** Where a vote stands. */
  datatype Phase =
    | AwaitingVote(approvalMsg: int)
    | AwaitingConfirm(admin: int, confirmMsg: int)
    | Closed(ending: Ending)

  /**
   * An open vote about `targetId`: the admins allowed to vote, the approval
   * channel, the private admin channel if the guild has one, and the phase.
   */
  datatype Vote = Vote(
    targetId: int,
    admins: set<int>,
    approvalChannel: int,
    privateChannel: Option<int>,
    phase: Phase)

  /**
   * The result of `kick_request` up to the moment it starts waiting: the new
   * cooldowns, the opened vote or the refusal, and whether the target was
   * warned in the warnings channel because the DM to them failed.
   */
  datatype Opening = Opening(cooldowns: Cooldowns, result: Result<Vote, Refusal>, warnedInChannel: bool)

  /**
   * `kick_request` before the first `wait_for`. `dmOk` is whether the DM to
   * the target went through and `approvalMsg` the id of the posted request.
   */
  function KickRequest(cd: Cooldowns, requester: int, now: int, guild: Option<Guild>, target: int,
                       dmOk: bool, approvalMsg: int): (r: Opening)
    ensures r.result == Err(MustWait) <==> CoolingDown(cd, requester, now)
    ensures CoolingDown(cd, requester, now) ==> r.cooldowns == cd
    ensures !CoolingDown(cd, requester, now) ==> r.cooldowns == cd[requester := now]
    ensures r.result.Ok? ==>
      && guild.Some?
      && r.result.value.targetId == target
      && r.result.value.phase == AwaitingVote(approvalMsg)
      && r.result.value.admins != {}
      && FirstRoleNamed(guild.value.roles, AdminRoleName).Some?
      && r.result.value.admins == Holders(guild.value, FirstRoleNamed(guild.value.roles, AdminRoleName).value)
    ensures r.warnedInChannel <==>
      && !CoolingDown(cd, requester, now) && guild.Some?
      && FirstRoleNamed(guild.value.roles, AdminRoleName).Some?
      && FirstTextNamed(guild.value.channels, JStr(ApprovalChannelName)).Some?
      && !dmOk && FirstTextNamed(guild.value.channels, JStr(WarningChannelName)).Some?
  {
    if CoolingDown(cd, requester, now) then Opening(cd, Err(MustWait), false)
    else
      var cd' := cd[requester := now];
      if guild.None? then Opening(cd', Err(NotInServer), false)
      else
        var g := guild.value;
        match FirstRoleNamed(g.roles, AdminRoleName)
        case None => Opening(cd', Err(NoAdminRole), false)
        case Some(adminRole) =>
          match FirstTextNamed(g.channels, JStr(ApprovalChannelName))
          case None => Opening(cd', Err(NoApprovalChannel), false)
          case Some(channel) =>
            var warned := !dmOk && FirstTextNamed(g.channels, JStr(WarningChannelName)).Some?;
            var admins := Holders(g, adminRole);
            if admins == {} then Opening(cd', Err(NoAdmins), warned)
            else
              var priv := FirstTextNamed(g.channels, JStr(PrivateChannelName));
              var privId := if priv.Some? then Some(priv.value.id) else None;
              Opening(cd', Ok(Vote(target, admins, channel.id, privId, AwaitingVote(approvalMsg))), warned)
  }

  /**
   * The checks after the cooldown run in order: no guild, then no Admin
   * role, then no approval channel, then nobody holding Admin; a request
   * passing all of them opens a vote.
   */
  lemma KickRequestRefusals(cd: Cooldowns, requester: int, now: int, guild: Option<Guild>, target: int,
                            dmOk: bool, approvalMsg: int)
    requires !CoolingDown(cd, requester, now)
    ensures var r := KickRequest(cd, requester, now, guild, target, dmOk, approvalMsg).result;
      && (guild.None? ==> r == Err(NotInServer))
      && (guild.Some? && FirstRoleNamed(guild.value.roles, AdminRoleName).None? ==> r == Err(NoAdminRole))
      && ((guild.Some? && FirstRoleNamed(guild.value.roles, AdminRoleName).Some?
           && FirstTextNamed(guild.value.channels, JStr(ApprovalChannelName)).None?) ==> r == Err(NoApprovalChannel))
      && ((guild.Some? && FirstRoleNamed(guild.value.roles, AdminRoleName).Some?
           && FirstTextNamed(guild.value.channels, JStr(ApprovalChannelName)).Some?)
          ==> (r == Err(NoAdmins) <==> Holders(guild.value, FirstRoleNamed(guild.value.roles, AdminRoleName).value) == {}))
      && (r.Ok? <==>
            && guild.Some?
            && FirstRoleNamed(guild.value.roles, AdminRoleName).Some?
            && FirstTextNamed(guild.value.channels, JStr(ApprovalChannelName)).Some?
            && Holders(guild.value, FirstRoleNamed(guild.value.roles, AdminRoleName).value) != {})
  {
  }

  /**
   * A request 299 seconds after the last one is refused, one 300 seconds
   * after goes through the cooldown, and a refused request leaves the old
   * timestamp in place while any other starts a new cooldown, even if a
   * later check turns it away.
   */
  lemma CooldownBoundary(cd: Cooldowns, user: int, t: int, guild: Option<Guild>, target: int, dmOk: bool, msg: int)
    requires user in cd && cd[user] == t
    ensures KickRequest(cd, user, t + 299, guild, target, dmOk, msg) == Opening(cd, Err(MustWait), false)
    ensures KickRequest(cd, user, t + 300, guild, target, dmOk, msg).result != Err(MustWait)
    ensures KickRequest(cd, user, t + 300, guild, target, dmOk, msg).cooldowns == cd[user := t + 300]
  {
  }

  // ---------------------------------------------------------------- the vote

  /** One delivery from `wait_for`: a reaction, or the wait timing out. */
  datatype Event = Reaction(userId: int, messageId: int, emoji: string) | Timeout

  /** The bot's own calls during a step: the id its confirmation prompt gets, and the kick's outcome. */
  datatype Outcomes = Outcomes(confirmMsg: int, kick: KickOutcome)

  datatype Input = Input(event: Event, out: Outcomes)

  /**
   * `kick_member`: the kick and the follow-up telling the requester how it
   * went. This is the intended behaviour; `KickMemberAsWritten` is the code
   * as it stands.
   */
  function KickMember(o: KickOutcome): (r: KickReport)
    ensures r.kicked <==> o == KickOk
    ensures r.followUp.Some?
    ensures r.followUp == Some(KickedNotice) <==> r.kicked
  {
    match o
    case KickOk => KickReport(true, Some(KickedNotice))
    case KickForbidden => KickReport(false, Some(NoPermissionNotice))
    case KickHttpError => KickReport(false, Some(KickErrorNotice))
  }

  /**
   * `kick_member` as written: after a successful kick it calls
   * `log_request_kick`, whose import is commented out, so the `NameError`
   * escapes every handler and the success follow-up is never sent.
   */
  function KickMemberAsWritten(o: KickOutcome): (r: KickReport)
    ensures r.kicked <==> o == KickOk
    ensures o != KickOk ==> r == KickMember(o)
  {
    match o
    case KickOk => KickReport(true, None)
    case _ => KickMember(o)
  }

  /** A successful kick leaves the requester without the notice the code means to send. */
  lemma KickMemberAsWrittenSilentOnSuccess()
    ensures KickMemberAsWritten(KickOk).kicked && KickMemberAsWritten(KickOk).followUp.None?
    ensures KickMember(KickOk).followUp == Some(KickedNotice)
  {
  }

  /** `check`: a reaction by an admin, on the approval message, with either vote emoji. */
  predicate CountsAsVote(v: Vote, e: Event)
    requires v.phase.AwaitingVote?
  {
    e.Reaction? && e.userId in v.admins && e.messageId == v.phase.approvalMsg
      && (e.emoji == EmojiApprove || e.emoji == EmojiDeny)
  }

  /** `check_second`: the approving admin, on the confirmation message, with the approve emoji. */
  predicate CountsAsConfirm(v: Vote, e: Event)
    requires v.phase.AwaitingConfirm?
  {
    e.Reaction? && e.userId == v.phase.admin && e.messageId == v.phase.confirmMsg && e.emoji == EmojiApprove
  }

  /** One delivery applied to the vote; reactions the checks reject are not delivered and change nothing. */
  function Step(v: Vote, i: Input): (w: Vote)
    ensures w.targetId == v.targetId && w.admins == v.admins
    ensures w.approvalChannel == v.approvalChannel && w.privateChannel == v.privateChannel
  {
    var e := i.event;
    match v.phase
    case AwaitingVote(msg) =>
      if e.Timeout? then v.(phase := Closed(VoteTimedOut))
      else if !CountsAsVote(v, e) then v
      else if e.emoji == EmojiApprove then v.(phase := AwaitingConfirm(e.userId, i.out.confirmMsg))
      else v.(phase := Closed(Denied(e.userId)))
    case AwaitingConfirm(admin, _) =>
      if e.Timeout? then v.(phase := Closed(ConfirmTimedOut(admin, v.privateChannel.GetOr(v.approvalChannel))))
      else if CountsAsConfirm(v, e) then v.(phase := Closed(Attempted(admin, KickMember(i.out.kick))))
      else v
    case Closed(_) => v
  }

  /** The deliveries applied one after another. */
  function Run(v: Vote, inputs: seq<Input>): Vote
    decreases |inputs|
  {
    if |inputs| == 0 then v else Run(Step(v, inputs[0]), inputs[1..])
  }

  /** The member was kicked. */
  predicate Kicks(v: Vote) {
    v.phase.Closed? && v.phase.ending.Attempted? && v.phase.ending.report.kicked
  }

  /**
   * The first vote: only an admin's approve or deny reaction on the approval
   * message, or the timeout, moves the vote; approve asks the same admin to
   * confirm, deny and timeout close it.
   */
  lemma FirstVote(v: Vote, i: Input)
    requires v.phase.AwaitingVote?
    ensures Step(v, i).phase == v.phase <==> !(i.event.Timeout? || CountsAsVote(v, i.event))
    ensures i.event.Timeout? ==> Step(v, i).phase == Closed(VoteTimedOut)
    ensures CountsAsVote(v, i.event) && i.event.emoji == EmojiApprove ==>
      Step(v, i).phase == AwaitingConfirm(i.event.userId, i.out.confirmMsg)
    ensures CountsAsVote(v, i.event) && i.event.emoji == EmojiDeny ==>
      Step(v, i).phase == Closed(Denied(i.event.userId))
  {
  }

  /**
   * The confirmation: only the approving admin's approve reaction on the
   * confirmation message triggers the kick; a timeout cancels it with a
   * notice in the private admin channel, or the approval channel without one.
   */
  lemma Confirmation(v: Vote, i: Input)
    requires v.phase.AwaitingConfirm?
    ensures Step(v, i).phase == v.phase <==> !(i.event.Timeout? || CountsAsConfirm(v, i.event))
    ensures CountsAsConfirm(v, i.event) ==>
      Step(v, i).phase == Closed(Attempted(v.phase.admin, KickMember(i.out.kick)))
    ensures CountsAsConfirm(v, i.event) ==>
      Step(v, i).phase.ending.report.kicked == KickMemberAsWritten(i.out.kick).kicked
    ensures CountsAsConfirm(v, i.event) && i.out.kick != KickOk ==>
      Step(v, i).phase.ending.report == KickMemberAsWritten(i.out.kick)
    ensures i.event.Timeout? && v.privateChannel.Some? ==>
      Step(v, i).phase == Closed(ConfirmTimedOut(v.phase.admin, v.privateChannel.value))
    ensures i.event.Timeout? && v.privateChannel.None? ==>
      Step(v, i).phase == Closed(ConfirmTimedOut(v.phase.admin, v.approvalChannel))
  {
  }

  /** A closed vote stays as it is, whatever arrives afterwards. */
  lemma {:induction false} ClosedIsFinal(v: Vote, inputs: seq<Input>)
    requires v.phase.Closed?
    ensures Run(v, inputs) == v
    decreases |inputs|
  {
    if |inputs| > 0 {
      ClosedIsFinal(Step(v, inputs[0]), inputs[1..]);
    }
  }

  /** A denial or a timeout of the first vote means no kick, ever. */
  lemma DenyOrTimeoutNeverKicks(v: Vote, i: Input, rest: seq<Input>)
    requires v.phase.AwaitingVote?
    requires i.event.Timeout? || (CountsAsVote(v, i.event) && i.event.emoji == EmojiDeny)
    ensures !Kicks(Run(v, [i] + rest))
  {
    assert ([i] + rest)[1..] == rest;
    ClosedIsFinal(Step(v, i), rest);
  }

  /** From a pending confirmation, a kick needs that admin's approve reaction on the confirmation message. */
  lemma {:induction false} KickNeedsConfirmation(v: Vote, inputs: seq<Input>)
    requires v.phase.AwaitingConfirm?
    requires Kicks(Run(v, inputs))
    ensures exists j :: (0 <= j < |inputs| && inputs[j].event == Reaction(v.phase.admin, v.phase.confirmMsg, EmojiApprove)
                         && inputs[j].out.kick == KickOk)
    decreases |inputs|
  {
    if |inputs| > 0 {
      var w := Step(v, inputs[0]);
      if w.phase.Closed? {
        ClosedIsFinal(w, inputs[1..]);
        assert CountsAsConfirm(v, inputs[0].event);
        assert inputs[0].event == Reaction(v.phase.admin, v.phase.confirmMsg, EmojiApprove);
      } else {
        assert w == v;
        KickNeedsConfirmation(w, inputs[1..]);
        var j :| 0 <= j < |inputs[1..]| && inputs[1..][j].event == Reaction(v.phase.admin, v.phase.confirmMsg, EmojiApprove)
          && inputs[1..][j].out.kick == KickOk;
        assert inputs[j + 1] == inputs[1..][j];
      }
    }
  }

  /**
   * No kick without two approvals by one admin: an approve reaction on the
   * approval message, then a later approve reaction on the confirmation
   * prompt that reaction produced.
   */
  lemma {:induction false} KickNeedsTwoApprovals(v: Vote, inputs: seq<Input>)
    requires v.phase.AwaitingVote?
    requires Kicks(Run(v, inputs))
    ensures exists i, j :: (
      && 0 <= i < j < |inputs|
      && inputs[i].event.Reaction?
      && inputs[i].event == Reaction(inputs[i].event.userId, v.phase.approvalMsg, EmojiApprove)
      && inputs[i].event.userId in v.admins
      && inputs[j].event == Reaction(inputs[i].event.userId, inputs[i].out.confirmMsg, EmojiApprove))
    decreases |inputs|
  {
    if |inputs| > 0 {
      var w := Step(v, inputs[0]);
      var rest := inputs[1..];
      assert Run(v, inputs) == Run(w, rest);
      if w.phase.Closed? {
        ClosedIsFinal(w, rest);
      } else if w.phase.AwaitingConfirm? {
        var e := inputs[0].event;
        assert CountsAsVote(v, e) && e.emoji == EmojiApprove;
        KickNeedsConfirmation(w, rest);
        var j :| 0 <= j < |rest| && rest[j].event == Reaction(w.phase.admin, w.phase.confirmMsg, EmojiApprove)
          && rest[j].out.kick == KickOk;
        assert inputs[j + 1] == rest[j];
        assert 0 < j + 1 < |inputs|;
      } else {
        assert w == v;
        KickNeedsTwoApprovals(w, rest);
        var i, j :| 0 <= i < j < |rest|
          && rest[i].event.Reaction?
          && rest[i].event == Reaction(rest[i].event.userId, v.phase.approvalMsg, EmojiApprove)
          && rest[i].event.userId in v.admins
          && rest[j].event == Reaction(rest[i].event.userId, rest[i].out.confirmMsg, EmojiApprove);
        assert inputs[i + 1] == rest[i] && inputs[j + 1] == rest[j];
      }
    }
  }
}

=== FILE: rolecop_permissions.dfy ===
/**
 * RoleCop's approver predicate (modules/rolecop/core/permissions.py) and the
 * Discord records it and the cog look at.
 */
module Permissions {
  import opened Text
  import opened Json

  /** The permission flags RoleCop reads from a role. */
  datatype Perms = Perms(
    administrator: bool,
    manageGuild: bool,
    manageRoles: bool,
    manageChannels: bool,
    manageWebhooks: bool,
    banMembers: bool,
    kickMembers: bool)

  /** A guild role; `isDefault` marks @everyone and `managed` an integration role. */
  datatype Role = Role(id: int, name: string, position: int, isDefault: bool, managed: bool, perms: Perms)

  /**
   * A guild member: the roles they hold and the two guild-wide permissions
   * RoleCop asks about (`administrator`, `manage_roles`).
   */
  datatype Member = Member(id: int, roles: seq<Role>, isAdmin: bool, canManageRoles: bool)

  /** `_norm`: surrounding whitespace dropped, letters lower-cased. */
  function Norm(s: string): string {
    Lower(Strip(s))
  }

  /** The normalised names asked for; entries that are not strings are skipped. */
  function Wanted(names: seq<Json>): (w: set<string>)
    ensures forall x :: x in w <==> exists j :: 0 <= j < |names| && names[j].JStr? && Norm(names[j].s) == x
  {
    set j | 0 <= j < |names| && names[j].JStr? :: Norm(names[j].s)
  }

  /** `any(_norm(r.name) in wanted for r in roles)`, one role at a time. */
  function AnyRoleIn(roles: seq<Role>, wanted: set<string>): bool {
    if |roles| == 0 then false
    else Norm(roles[0].name) in wanted || AnyRoleIn(roles[1..], wanted)
  }

  /** `has_any_role_name`: no wanted name means no match, else some role's normalised name is wanted. */
  function HasAnyRoleName(m: Member, names: seq<Json>): bool {
    var wanted := Wanted(names);
    if wanted == {} then false else AnyRoleIn(m.roles, wanted)
  }

  /** `is_approver`: administrators always approve; everyone else needs a matching role name. */
  function IsApprover(m: Member, names: seq<Json>): (r: bool)
    ensures m.isAdmin ==> r
    ensures !m.isAdmin ==> (r <==> HasAnyRoleName(m, names))
  {
    m.isAdmin || HasAnyRoleName(m, names)
  }

  /** Role `i` of the member carries, once normalised, the string entry `j` of the list. */
  predicate Matches(m: Member, names: seq<Json>, i: int, j: int) {
    0 <= i < |m.roles| && 0 <= j < |names| && names[j].JStr? && Norm(m.roles[i].name) == Norm(names[j].s)
  }

  lemma {:induction false} AnyRoleInIff(roles: seq<Role>, wanted: set<string>)
    ensures AnyRoleIn(roles, wanted) <==> exists i :: 0 <= i < |roles| && Norm(roles[i].name) in wanted
  {
    if |roles| > 0 {
      AnyRoleInIff(roles[1..], wanted);
      if Norm(roles[0].name) !in wanted && (exists i :: 0 <= i < |roles| && Norm(roles[i].name) in wanted) {
        var i :| 0 <= i < |roles| && Norm(roles[i].name) in wanted;
        assert roles[1..][i - 1] == roles[i];
      }
    }
  }

  /**
   * A member matches the list exactly when one of their roles and one string
   * entry of the list agree after normalisation.
   */
  lemma HasAnyRoleNameIff(m: Member, names: seq<Json>)
    ensures HasAnyRoleName(m, names) <==> exists i, j :: Matches(m, names, i, j)
  {
    var wanted := Wanted(names);
    AnyRoleInIff(m.roles, wanted);
    if HasAnyRoleName(m, names) {
      var i :| 0 <= i < |m.roles| && Norm(m.roles[i].name) in wanted;
      var j :| 0 <= j < |names| && names[j].JStr? && Norm(names[j].s) == Norm(m.roles[i].name);
      assert Matches(m, names, i, j);
    }
    if exists i, j :: Matches(m, names, i, j) {
      var i, j :| Matches(m, names, i, j);
      assert Norm(names[j].s) in wanted;
      assert Norm(m.roles[i].name) in wanted;
    }
  }

  /** A non-administrator is an approver exactly when a role name matches a string entry. */
  lemma IsApproverIff(m: Member, names: seq<Json>)
    ensures IsApprover(m, names) <==> m.isAdmin || exists i, j :: Matches(m, names, i, j)
  {
    HasAnyRoleNameIff(m, names);
  }

  /** A list with no string entries (in particular the empty list) approves administrators only. */
  lemma NoStringNamesApprovesOnlyAdmins(m: Member, names: seq<Json>)
    requires forall j :: 0 <= j < |names| ==> !names[j].JStr?
    ensures !HasAnyRoleName(m, names)
    ensures IsApprover(m, names) <==> m.isAdmin
  {
    assert Wanted(names) == {};
  }

  /** Non-string entries play no part: dropping them changes nothing. */
  lemma NonStringsIgnored(m: Member, names: seq<Json>, extra: seq<Json>)
    requires forall j :: 0 <= j < |extra| ==> !extra[j].JStr?
    ensures IsApprover(m, names + extra) == IsApprover(m, names)
    ensures IsApprover(m, extra + names) == IsApprover(m, names)
  {
    assert Wanted(names + extra) == Wanted(names) by {
      forall x | x in Wanted(names + extra) ensures x in Wanted(names) {
        var j :| 0 <= j < |names + extra| && (names + extra)[j].JStr? && Norm((names + extra)[j].s) == x;
        assert j < |names|;
        assert (names + extra)[j] == names[j];
      }
      forall x | x in Wanted(names) ensures x in Wanted(names + extra) {
        var j :| 0 <= j < |names| && names[j].JStr? && Norm(names[j].s) == x;
        assert (names + extra)[j] == names[j];
      }
    }
    assert Wanted(extra + names) == Wanted(names) by {
      forall x | x in Wanted(extra + names) ensures x in Wanted(names) {
        var j :| 0 <= j < |extra + names| && (extra + names)[j].JStr? && Norm((extra + names)[j].s) == x;
        assert j >= |extra|;
        assert (extra + names)[j] == names[j - |extra|];
      }
      forall x | x in Wanted(names) ensures x in Wanted(extra + names) {
        var j :| 0 <= j < |names| && names[j].JStr? && Norm(names[j].s) == x;
        assert (extra + names)[j + |extra|] == names[j];
      }
    }
  }

  /** Names that differ only in letter case normalise alike. */
  lemma NormIgnoresCase(a: string, b: string)
    requires Lower(a) == Lower(b)
    ensures Norm(a) == Norm(b)
  {
    StripLower(a);
    StripLower(b);
    LowerIsLower(Strip(a));
    LowerIsLower(Strip(b));
    assert Norm(a) == Lower(Strip(Lower(a)));
  }

  /** Names that differ only in surrounding whitespace normalise alike. */
  lemma NormIgnoresPadding(pad: string, s: string, pad2: string)
    requires AllSpace(pad) && AllSpace(pad2)
    ensures Norm(pad + s + pad2) == Norm(s)
  {
    StripPadded(pad, s, pad2);
  }

  /** A member with more roles, or a longer list of names, keeps approver status. */
  lemma ApproverMonotone(m: Member, names: seq<Json>, moreRoles: seq<Role>, moreNames: seq<Json>)
    requires IsApprover(m, names)
    ensures IsApprover(m.(roles := m.roles + moreRoles), names + moreNames)
  {
    var m2 := m.(roles := m.roles + moreRoles);
    var names2 := names + moreNames;
    if !m.isAdmin {
      HasAnyRoleNameIff(m, names);
      var i, j :| Matches(m, names, i, j);
      assert m2.roles[i] == m.roles[i];
      assert names2[j] == names[j];
      assert Matches(m2, names2, i, j);
      HasAnyRoleNameIff(m2, names2);
    }
  }
}

=== FILE: rolecop_requests.dfy ===
/**
 * The RoleCop commands and the approval state machine (modules/rolecop/cog.py):
 * `/rolecop_setup`, the promote/demote/kick decision flow, posting a request
 * for approval, and executing or refusing it when an approver presses a
 * button.
 *
 * Discord calls are outcomes passed in: `act` is what `add_roles`,
 * `remove_roles` or `kick` did, `posted` the id of the approval message
 * (None when sending it raised), `editOk` whether the decision edit of the
 * request message went through, `failEditOk` the same for the edit that
 * reports a failed execution, and `dm` what sending the requester's notice did.
 */
module RoleCopRequests {
  import opened Base
  import opened Text
  import opened Json
  import opened Permissions
  import opened Approvals
  import opened ConfigLoader
  import opened RoleCopGuild

  /** The cog's state: runtime config, the per-guild settings store, and pending requests by message id. */
  datatype Cog = Cog(cfg: RuntimeConfig, settings: map<string, Json>, pending: map<int, ApprovalRequest>)

  /** The outcome of a Discord member action. */
  datatype ActOutcome = ActOk | ActForbidden | ActHttpError

  /** What a promote, demote or kick command did. */
  datatype CommandResult =
    | OutsideGuild                          // no guild, or the author is not a member
    | ConfigCrash                           // the guild's stored settings are not an object
    | NotConfigured                         // a non-personal guild without setup
    | Refused(reason: Reject)               // a role guardrail failed
    | AlreadyDone                           // promote: already has the role; demote: lacks it
    | ActedDirectly(outcome: ActOutcome)    // an approver outside safe mode acted at once
    | ChannelNotFound                       // nowhere to post the request
    | PostFailed                            // posting the request raised
    | Queued(messageId: int, request: ApprovalRequest)

  /** `role in member.roles` (roles compare by id). */
  predicate HasRole(m: Member, r: Role) {
    exists i :: 0 <= i < |m.roles| && m.roles[i].id == r.id
  }

  /**
   * `_post_approval`: with an approvals channel, the request is posted and
   * remembered under the new message's id.
   */
  function PostApproval(cog: Cog, g: Guild, c: GuildCfg, req: ApprovalRequest, posted: Option<int>)
    : (res: (Cog, CommandResult))
    ensures res.1.Queued? || res.1 == ChannelNotFound || res.1 == PostFailed
    ensures res.1.Queued? <==> FindApprovalsChannel(g, c).Some? && posted.Some?
    ensures res.1.Queued? ==> res.0 == cog.(pending := cog.pending[posted.value := req]) && res.1 == Queued(posted.value, req)
    ensures !res.1.Queued? ==> res.0 == cog
  {
    if FindApprovalsChannel(g, c).None? then (cog, ChannelNotFound)
    else if posted.None? then (cog, PostFailed)
    else (cog.(pending := cog.pending[posted.value := req]), Queued(posted.value, req))
  }

  /** `promote` (when `adding`) and `demote`. */
  function RoleCommand(cog: Cog, guild: Option<Guild>, author: Presser, user: Member, role: Role,
                       reason: Option<string>, adding: bool, act: ActOutcome, posted: Option<int>)
    : (res: (Cog, CommandResult))
    ensures !res.1.Queued? ==> res.0 == cog
  {
    if guild.None? || author.NotMember? then (cog, OutsideGuild)
    else
      var g := guild.value;
      match GetGuildCfg(cog.cfg, cog.settings, g)
      case Err(_) => (cog, ConfigCrash)
      case Ok(c) =>
        var req := ApprovalRequest(author.member.id, user.id, if adding then "promote" else "demote",
                                   reason, map["role_id" := JInt(role.id)]);
        Decide(cog, IsPersonal(cog.cfg, guild) || IsConfigured(c), RoleRejectReason(g, role, c),
               adding != HasRole(user, role), IsApprover(author.member, c.approverRoleNames) && !c.safeMode,
               act, PostApproval(cog, g, c, req, posted))
  }

  /**
   * The order in which promote and demote decide: configuration, role
   * guardrail, no-op, direct action, and only then the approval request.
   */
  function Decide(cog: Cog, open: bool, reject: Option<Reject>, needed: bool, direct: bool,
                  act: ActOutcome, queue: (Cog, CommandResult)): (res: (Cog, CommandResult))
    requires queue.1.Queued? || queue.1 == ChannelNotFound || queue.1 == PostFailed
    ensures res.1 == NotConfigured <==> !open
    ensures res.1.Refused? <==> open && reject.Some?
    ensures res.1 == AlreadyDone <==> open && reject.None? && !needed
    ensures res.1.ActedDirectly? <==> open && reject.None? && needed && direct
    ensures res.1.ActedDirectly? ==> res.1.outcome == act
    ensures open && reject.None? && needed && !direct ==> res == queue
    ensures !(open && reject.None? && needed && !direct) ==> res.0 == cog
  {
    if !open then (cog, NotConfigured)
    else if reject.Some? then (cog, Refused(reject.value))
    else if !needed then (cog, AlreadyDone)
    else if direct then (cog, ActedDirectly(act))
    else queue
  }

  /**
   * The promote/demote flow runs its checks in order (configuration, role
   * guardrail, no-op, direct action, queue) and reports the first that
   * decides: an approver outside safe mode acts and never queues; anyone
   * else queues a request carrying the role id and never acts.
   */
  lemma RoleCommandFlow(cog: Cog, guild: Option<Guild>, author: Presser, user: Member, role: Role,
                        reason: Option<string>, adding: bool, act: ActOutcome, posted: Option<int>)
    requires guild.Some? && author.AsMember?
    requires GetGuildCfg(cog.cfg, cog.settings, guild.value).Ok?
    ensures var c := GetGuildCfg(cog.cfg, cog.settings, guild.value).value;
      var g := guild.value;
      var r := RoleCommand(cog, guild, author, user, role, reason, adding, act, posted).1;
      var open := IsPersonal(cog.cfg, guild) || IsConfigured(c);
      var ok := RoleRejectReason(g, role, c).None?;
      var needed := adding != HasRole(user, role);
      var direct := IsApprover(author.member, c.approverRoleNames) && !c.safeMode;
      && (r == NotConfigured <==> !open)
      && (r.Refused? <==> open && !ok)
      && (r == AlreadyDone <==> open && ok && !needed)
      && (r.ActedDirectly? <==> open && ok && needed && direct)
      && (r.ActedDirectly? ==> r.outcome == act)
      && (open && ok && needed && !direct ==> r.Queued? || r == ChannelNotFound || r == PostFailed)
      && (r.Queued? ==> r.request == ApprovalRequest(author.member.id, user.id, if adding then "promote" else "demote",
                                                     reason, map["role_id" := JInt(role.id)]))
  {
    RoleCommandChecks(cog, guild, author, user, role, reason, adding, act, posted);
    RoleCommandActs(cog, guild, author, user, role, reason, adding, act, posted);
  }

  /** The first three checks of the promote/demote flow. */
  lemma RoleCommandChecks(cog: Cog, guild: Option<Guild>, author: Presser, user: Member, role: Role,
                        reason: Option<string>, adding: bool, act: ActOutcome, posted: Option<int>)
    requires guild.Some? && author.AsMember?
    requires GetGuildCfg(cog.cfg, cog.settings, guild.value).Ok?
    ensures var c := GetGuildCfg(cog.cfg, cog.settings, guild.value).value;
      var g := guild.value;
      var r := RoleCommand(cog, guild, author, user, role, reason, adding, act, posted).1;
      var open := IsPersonal(cog.cfg, guild) || IsConfigured(c);
      var ok := RoleRejectReason(g, role, c).None?;
      var needed := adding != HasRole(user, role);
      var direct := IsApprover(author.member, c.approverRoleNames) && !c.safeMode;
      && (r == NotConfigured <==> !open)
      && (r.Refused? <==> open && !ok)
      && (r == AlreadyDone <==> open && ok && !needed)
  {
  }


  /** What happens once the checks pass: act directly, or queue a request carrying the role id. */
  lemma RoleCommandActs(cog: Cog, guild: Option<Guild>, author: Presser, user: Member, role: Role,
                        reason: Option<string>, adding: bool, act: ActOutcome, posted: Option<int>)
    requires guild.Some? && author.AsMember?
    requires GetGuildCfg(cog.cfg, cog.settings, guild.value).Ok?
    ensures var c := GetGuildCfg(cog.cfg, cog.settings, guild.value).value;
      var g := guild.value;
      var r := RoleCommand(cog, guild, author, user, role, reason, adding, act, posted).1;
      var open := IsPersonal(cog.cfg, guild) || IsConfigured(c);
      var ok := RoleRejectReason(g, role, c).None?;
      var needed := adding != HasRole(user, role);
      var direct := IsApprover(author.member, c.approverRoleNames) && !c.safeMode;
      && (r.ActedDirectly? <==> open && ok && needed && direct)
      && (r.ActedDirectly? ==> r.outcome == act)
      && (open && ok && needed && !direct ==> r.Queued? || r == ChannelNotFound || r == PostFailed)
      && (r.Queued? ==> r.request == ApprovalRequest(author.member.id, user.id, if adding then "promote" else "demote",
                                                     reason, map["role_id" := JInt(role.id)]))
  {
  }


  /** `kick`: like promote/demote, but with no role guardrail and an empty payload. */
  function KickCommand(cog: Cog, guild: Option<Guild>, author: Presser, user: Member,
                       reason: Option<string>, act: ActOutcome, posted: Option<int>)
    : (res: (Cog, CommandResult))
    ensures !res.1.Queued? ==> res.0 == cog
  {
    if guild.None? || author.NotMember? then (cog, OutsideGuild)
    else
      var g := guild.value;
      match GetGuildCfg(cog.cfg, cog.settings, g)
      case Err(_) => (cog, ConfigCrash)
      case Ok(c) =>
        if !IsPersonal(cog.cfg, guild) && !IsConfigured(c) then (cog, NotConfigured)
        else if IsApprover(author.member, c.approverRoleNames) && !c.safeMode then (cog, ActedDirectly(act))
        else PostApproval(cog, g, c, ApprovalRequest(author.member.id, user.id, "kick", reason, map[]), posted)
  }

  /**
   * A kick is never refused by a guardrail or treated as a no-op; an
   * approver outside safe mode kicks at once, anyone else queues a request
   * with an empty payload.
   */
  lemma KickCommandFlow(cog: Cog, guild: Option<Guild>, author: Presser, user: Member,
                        reason: Option<string>, act: ActOutcome, posted: Option<int>)
    requires guild.Some? && author.AsMember?
    requires GetGuildCfg(cog.cfg, cog.settings, guild.value).Ok?
    ensures var c := GetGuildCfg(cog.cfg, cog.settings, guild.value).value;
      var r := KickCommand(cog, guild, author, user, reason, act, posted).1;
      var open := IsPersonal(cog.cfg, guild) || IsConfigured(c);
      var direct := IsApprover(author.member, c.approverRoleNames) && !c.safeMode;
      && !r.Refused? && r != AlreadyDone
      && (r == NotConfigured <==> !open)
      && (r.ActedDirectly? <==> open && direct)
      && (r.Queued? ==> r.request == ApprovalRequest(author.member.id, user.id, "kick", reason, map[]))
      && (r.Queued? ==> open && !direct)
  {
  }

  // ---------------------------------------------------------------- executing a decision

  /** A member action that reached Discord. */
  datatype MemberAction = AddRole(targetId: int, roleId: int) | RemoveRole(targetId: int, roleId: int) | KickMember(targetId: int)

  /** Why an approved request failed. */
  datatype Failure =
    | TargetMissing
    | MissingRoleId
    | RoleGone
    | SettingsBroken
    | Guardrail(reason: Reject)
    | AlreadyHasRole
    | LacksRole
    | ActionRaised
    | UnknownAction(action: string)
    | EditRaised(done: MemberAction)     // the action succeeded, updating the message did not
    | NotifyRaised(done: MemberAction)   // the action and the edit succeeded, the requester's notice raised

  /** What `requester.send` did: delivered, refused with `Forbidden` (DMs closed), or another HTTP error. */
  datatype DmOutcome = DmDelivered | DmForbidden | DmRaised

  /** The requester's notice: not attempted, or attempted with what the send did. */
  datatype Notice = NoNotice | Attempted(outcome: DmOutcome)

  /**
   * What `_execute_request` did. `viewRemoved` is whether the edit with
   * `view=None` went through, taking the buttons off the request message.
   * A denial whose notice raised lets the exception escape the callback.
   */
  datatype Execution =
    | NoGuild
    | Denied(viewRemoved: bool, notice: Notice)
    | Executed(done: MemberAction, notice: Notice)
    | Failed(failure: Failure, viewRemoved: bool)

  /** Whether `isinstance(approver, Member)` holds after the `get_member` fallback. */
  predicate ApproverIsMember(g: Guild, approver: Presser) {
    approver.AsMember? || approver.userId in g.members
  }

  /** `_notify_requester` is attempted for a member approver and finds the requester in the guild. */
  predicate Notifies(g: Guild, approver: Presser, req: ApprovalRequest) {
    ApproverIsMember(g, approver) && req.requesterId in g.members
  }

  /** The checks and the action of an approved promote or demote. */
  function ExecuteRoleChange(cog: Cog, g: Guild, req: ApprovalRequest, act: ActOutcome): (r: Result<MemberAction, Failure>)
    requires req.action == "promote" || req.action == "demote"
  {
    if req.targetId !in g.members then Err(TargetMissing)
    else
      var target := g.members[req.targetId];
      var rid := Get(req.payload, "role_id", JNull);
      if !IsPyInt(rid) then Err(MissingRoleId)
      else if GetRole(g, PyIntValue(rid)).None? then Err(RoleGone)
      else
        var role := GetRole(g, PyIntValue(rid)).value;
        match GetGuildCfg(cog.cfg, cog.settings, g)
        case Err(_) => Err(SettingsBroken)
        case Ok(c) =>
          if RoleRejectReason(g, role, c).Some? then Err(Guardrail(RoleRejectReason(g, role, c).value))
          else if req.action == "promote" && HasRole(target, role) then Err(AlreadyHasRole)
          else if req.action == "demote" && !HasRole(target, role) then Err(LacksRole)
          else if act != ActOk then Err(ActionRaised)
          else if req.action == "promote" then Ok(AddRole(req.targetId, role.id))
          else Ok(RemoveRole(req.targetId, role.id))
  }

  /** The checks and the action of an approved request, up to the member action. */
  function ApprovedStep(cog: Cog, g: Guild, req: ApprovalRequest, act: ActOutcome): (r: Result<MemberAction, Failure>)
    ensures r.Ok? ==> act == ActOk
  {
    if req.action == "promote" || req.action == "demote" then ExecuteRoleChange(cog, g, req, act)
    else if req.action == "kick" then
      (if req.targetId !in g.members then Err(TargetMissing)
       else if act != ActOk then Err(ActionRaised)
       else Ok(KickMember(req.targetId)))
    else Err(UnknownAction(req.action))
  }

  /**
   * `_execute_request` for the decision `approved`: a denial edits the
   * message and notifies; an approval re-checks everything, performs the
   * action, edits the message and notifies, and an exception at any of
   * these steps is reported on the message by a second edit instead. The
   * cog is left as it is: a decided request stays in `pending`.
   */
  function ExecuteRequest(cog: Cog, guild: Option<Guild>, approver: Presser, req: ApprovalRequest,
                          approved: bool, act: ActOutcome, editOk: bool, failEditOk: bool, dm: DmOutcome)
    : (e: Execution)
  {
    if guild.None? then NoGuild
    else
      var g := guild.value;
      var notice := if Notifies(g, approver, req) then Attempted(dm) else NoNotice;
      if !approved then Denied(editOk, notice)
      else
        match ApprovedStep(cog, g, req, act)
        case Err(f) => Failed(f, failEditOk)
        case Ok(done) =>
          if !editOk then Failed(EditRaised(done), failEditOk)
          else if notice == Attempted(DmRaised) then Failed(NotifyRaised(done), true)
          else Executed(done, notice)
  }

  /** The member action an execution performed, if any. */
  function Performed(e: Execution): Option<MemberAction> {
    match e
    case Executed(done, _) => Some(done)
    case Failed(EditRaised(done), _) => Some(done)
    case Failed(NotifyRaised(done), _) => Some(done)
    case _ => None
  }

  /** Whether the request message lost its buttons. */
  function ViewRemoved(e: Execution): bool {
    match e
    case NoGuild => false
    case Denied(v, _) => v
    case Executed(_, _) => true
    case Failed(_, v) => v
  }

  /** A denial never touches the member, and only a denial or a success notifies the requester. */
  lemma DenyPerformsNothing(cog: Cog, guild: Option<Guild>, approver: Presser, req: ApprovalRequest,
                            act: ActOutcome, editOk: bool, failEditOk: bool, dm: DmOutcome)
    requires guild.Some?
    ensures ExecuteRequest(cog, guild, approver, req, false, act, editOk, failEditOk, dm)
      == Denied(editOk, if Notifies(guild.value, approver, req) then Attempted(dm) else NoNotice)
    ensures Performed(ExecuteRequest(cog, guild, approver, req, false, act, editOk, failEditOk, dm)).None?
  {
  }

  /**
   * An approved promote or demote is carried out only when, at execution
   * time, the target is still a member, the payload names an existing role
   * that passes the guardrails, and the target does not already have
   * (promote) or still has (demote) that role.
   */
  lemma ApprovedRoleChangeRechecks(cog: Cog, guild: Option<Guild>, approver: Presser, req: ApprovalRequest,
                                   act: ActOutcome, editOk: bool, failEditOk: bool, dm: DmOutcome)
    requires Performed(ExecuteRequest(cog, guild, approver, req, true, act, editOk, failEditOk, dm)).Some?
    requires req.action == "promote" || req.action == "demote"
    ensures var g := guild.value;
      var done := Performed(ExecuteRequest(cog, guild, approver, req, true, act, editOk, failEditOk, dm)).value;
      && act == ActOk
      && req.targetId in g.members
      && "role_id" in req.payload && IsPyInt(req.payload["role_id"])
      && GetRole(g, PyIntValue(req.payload["role_id"])).Some?
      && GetGuildCfg(cog.cfg, cog.settings, g).Ok?
      && RoleRejectReason(g, GetRole(g, PyIntValue(req.payload["role_id"])).value, GetGuildCfg(cog.cfg, cog.settings, g).value).None?
      && (req.action == "promote" ==>
            done == AddRole(req.targetId, PyIntValue(req.payload["role_id"]))
            && !HasRole(g.members[req.targetId], GetRole(g, PyIntValue(req.payload["role_id"])).value))
      && (req.action == "demote" ==>
            done == RemoveRole(req.targetId, PyIntValue(req.payload["role_id"]))
            && HasRole(g.members[req.targetId], GetRole(g, PyIntValue(req.payload["role_id"])).value))
  {
  }

  /** An action other than promote, demote or kick always fails and touches nobody. */
  lemma UnknownActionFails(cog: Cog, g: Guild, approver: Presser, req: ApprovalRequest, act: ActOutcome, editOk: bool, failEditOk: bool, dm: DmOutcome)
    requires req.action != "promote" && req.action != "demote" && req.action != "kick"
    ensures ExecuteRequest(cog, Some(g), approver, req, true, act, editOk, failEditOk, dm) == Failed(UnknownAction(req.action), failEditOk)
  {
  }

  /**
   * A notice to the requester is attempted exactly on a denial or a full
   * success, and only when the approver is a member and the requester is
   * still in the guild; closed DMs are swallowed, but any other error of the
   * notice after an approved action turns the outcome into a reported
   * execution failure, with the action already done.
   */
  lemma NotifiedOnlyOnDecision(cog: Cog, g: Guild, approver: Presser, req: ApprovalRequest,
                               approved: bool, act: ActOutcome, editOk: bool, failEditOk: bool, dm: DmOutcome)
    ensures var e := ExecuteRequest(cog, Some(g), approver, req, approved, act, editOk, failEditOk, dm);
      var step := ApprovedStep(cog, g, req, act);
      && (e.Denied? <==> !approved)
      && (e.Denied? || e.Executed? ==> (e.notice.Attempted? <==> Notifies(g, approver, req)))
      && (e.Denied? || e.Executed? ==> (e.notice.Attempted? ==> e.notice.outcome == dm))
      && (e.Executed? <==> approved && step.Ok? && editOk && !(Notifies(g, approver, req) && dm == DmRaised))
      && (e.Executed? ==> act == ActOk && e.done == step.value && e.notice != Attempted(DmRaised))
      && (approved && step.Ok? && editOk && Notifies(g, approver, req) && dm == DmRaised ==>
            e == Failed(NotifyRaised(step.value), true) && Performed(e) == Some(step.value))
  {
  }

  /**
   * Every decision in a guild edits the request message with `view=None`:
   * the denial and the success through their own edit, a failure through the
   * edit that reports it. The buttons stay live exactly when the edit that
   * was meant to remove them raised (and, after a failed approval edit, the
   * failure edit raised too).
   */
  lemma DecisionRemovesView(cog: Cog, g: Guild, approver: Presser, req: ApprovalRequest,
                            approved: bool, act: ActOutcome, editOk: bool, failEditOk: bool, dm: DmOutcome)
    ensures var e := ExecuteRequest(cog, Some(g), approver, req, approved, act, editOk, failEditOk, dm);
      var step := ApprovedStep(cog, g, req, act);
      && (!ViewRemoved(e) <==>
            || (!approved && !editOk)
            || (approved && step.Err? && !failEditOk)
            || (approved && step.Ok? && !editOk && !failEditOk))
      && (editOk && failEditOk ==> ViewRemoved(e))
  {
  }

  // ---------------------------------------------------------------- setup

  datatype SetupResult = SetupOutsideGuild | SetupDenied | Configured

  /** `/rolecop_setup`: administrators or role managers store the guild's approval settings. */
  function Setup(cog: Cog, guild: Option<Guild>, author: Presser, channel: Channel, role1: Role,
                 role2: Option<Role>, boundary: Option<Role>, safeMode: bool): (res: (Cog, SetupResult))
    ensures res.1 != Configured ==> res.0 == cog
    ensures res.1 == Configured <==> guild.Some? && author.AsMember? && (author.member.isAdmin || author.member.canManageRoles)
    ensures res.1 == Configured ==>
      && res.0.pending == cog.pending && res.0.cfg == cog.cfg
      && res.0.settings.Keys == cog.settings.Keys + {GuildKey(guild.value)}
      && (forall k :: k in cog.settings && k != GuildKey(guild.value) ==> res.0.settings[k] == cog.settings[k])
  {
    if guild.None? || author.NotMember? then (cog, SetupOutsideGuild)
    else if !(author.member.isAdmin || author.member.canManageRoles) then (cog, SetupDenied)
    else
      var names := [JStr(role1.name)] + (if role2.Some? then [JStr(role2.value.name)] else []);
      var entry := map[
        "safe_mode" := JBool(safeMode),
        "approvals_channel_name" := JStr(channel.name),
        "approvals_channel_id" := JInt(channel.id),
        "approver_role_names" := JList(names),
        "max_managed_role_id" := (if boundary.Some? then JInt(boundary.value.id) else JNull)];
      (cog.(settings := cog.settings[GuildKey(guild.value) := JObj(entry)]), Configured)
  }

  /**
   * After setup the guild counts as configured, approvers are exactly the
   * one or two chosen role names (plus administrators), requests go to the
   * chosen channel's id, and safe mode is as chosen except in the personal
   * guild.
   */
  lemma SetupConfigures(cog: Cog, g: Guild, author: Presser, channel: Channel, role1: Role,
                        role2: Option<Role>, boundary: Option<Role>, safeMode: bool)
    requires author.AsMember? && (author.member.isAdmin || author.member.canManageRoles)
    ensures var out := Setup(cog, Some(g), author, channel, role1, role2, boundary, safeMode).0;
      var r := GetGuildCfg(out.cfg, out.settings, g);
      && r.Ok?
      && IsConfigured(r.value)
      && r.value.approvalsChannelId == JInt(channel.id)
      && r.value.approverRoleNames == [JStr(role1.name)] + (if role2.Some? then [JStr(role2.value.name)] else [])
      && (1 <= |r.value.approverRoleNames| <= 2)
      && (r.value.safeMode <==> safeMode && !IsPersonal(cog.cfg, Some(g)))
      && (boundary.Some? ==> Boundary(g, r.value) == GetRole(g, boundary.value.id))
  {
    var out := Setup(cog, Some(g), author, channel, role1, role2, boundary, safeMode).0;
    var names := [JStr(role1.name)] + (if role2.Some? then [JStr(role2.value.name)] else []);
    var entry := map[
      "safe_mode" := JBool(safeMode),
      "approvals_channel_name" := JStr(channel.name),
      "approvals_channel_id" := JInt(channel.id),
      "approver_role_names" := JList(names),
      "max_managed_role_id" := (if boundary.Some? then JInt(boundary.value.id) else JNull)];
    assert out.cfg == cog.cfg && out.settings[GuildKey(g)] == JObj(entry);
    GuildCfgResolution(out.cfg, out.settings, g);
    var c := GetGuildCfg(out.cfg, out.settings, g).value;
    assert c.approverRoleNames == names;
    assert c.approvalsChannelId == JInt(channel.id);
    assert c.maxManagedRoleId == (if boundary.Some? then JInt(boundary.value.id) else JNull);
  }
}

=== FILE: seqs.dfy ===
/**
 * Order-preserving de-duplication, the Python idiom
 * `seen = set(); for x in xs: if key(x) in seen: continue; seen.add(key(x)); out.append(x)`
 * shared by the streamer-list loader and the login resolver.
 */
module Seqs {

  /** The keys of `xs`, in order. */
  function KeysOf<T, K>(xs: seq<T>, key: T -> K): (ks: seq<K>)
    ensures |ks| == |xs|
    ensures forall i :: 0 <= i < |xs| ==> ks[i] == key(xs[i])
  {
    seq(|xs|, i requires 0 <= i < |xs| => key(xs[i]))
  }

  /** `xs` with every element whose key already occurred earlier dropped. */
  function KeepFirst<T, K(==)>(xs: seq<T>, key: T -> K): seq<T>
    decreases |xs|
  {
    if |xs| == 0 then []
    else
      var init := xs[..|xs| - 1];
      var last := xs[|xs| - 1];
      if key(last) in KeysOf(init, key) then KeepFirst(init, key) else KeepFirst(init, key) + [last]
  }

  /** Index of the first element with key `k` (|xs| when there is none). */
  function FirstWithKey<T, K(==)>(xs: seq<T>, key: T -> K, k: K): (i: nat)
    ensures i <= |xs|
    ensures i < |xs| ==> key(xs[i]) == k
    ensures forall j :: 0 <= j < i ==> key(xs[j]) != k
  {
    if |xs| == 0 then 0
    else if key(xs[0]) == k then 0
    else 1 + FirstWithKey(xs[1..], key, k)
  }

  /** `x` is the first element of `xs` carrying its key. */
  ghost predicate FirstOfKey<T, K>(xs: seq<T>, key: T -> K, x: T) {
    FirstWithKey(xs, key, key(x)) < |xs| && xs[FirstWithKey(xs, key, key(x))] == x
  }

  lemma FirstWithKeyPrefix<T, K>(xs: seq<T>, x: T, key: T -> K, k: K)
    requires FirstWithKey(xs, key, k) < |xs|
    ensures FirstWithKey(xs + [x], key, k) == FirstWithKey(xs, key, k)
  {
    assert (xs + [x])[FirstWithKey(xs, key, k)] == xs[FirstWithKey(xs, key, k)];
    assert forall j :: 0 <= j < |xs| ==> (xs + [x])[j] == xs[j];
  }

  lemma FirstWithKeyAppended<T, K>(xs: seq<T>, x: T, key: T -> K)
    requires key(x) !in KeysOf(xs, key)
    ensures FirstWithKey(xs + [x], key, key(x)) == |xs|
  {
    assert forall j :: 0 <= j < |xs| ==> (xs + [x])[j] == xs[j] && KeysOf(xs, key)[j] == key(xs[j]);
    assert (xs + [x])[|xs|] == x;
  }

  /** De-duplication never lengthens the input. */
  lemma {:induction false} KeepFirstLength<T, K>(xs: seq<T>, key: T -> K)
    ensures |KeepFirst(xs, key)| <= |xs|
    decreases |xs|
  {
    if |xs| > 0 {
      KeepFirstLength(xs[..|xs| - 1], key);
    }
  }

  /** Every element kept is the first element of the input carrying its key. */
  lemma {:induction false} KeepFirstOrigin<T, K>(xs: seq<T>, key: T -> K)
    ensures forall i :: 0 <= i < |KeepFirst(xs, key)| ==> FirstOfKey(xs, key, KeepFirst(xs, key)[i])
    decreases |xs|
  {
    if |xs| > 0 {
      var init := xs[..|xs| - 1];
      var last := xs[|xs| - 1];
      assert xs == init + [last];
      KeepFirstOrigin(init, key);
      var p := KeepFirst(init, key);
      forall i | 0 <= i < |p|
        ensures FirstWithKey(xs, key, key(p[i])) == FirstWithKey(init, key, key(p[i]))
      {
        FirstWithKeyPrefix(init, last, key, key(p[i]));
      }
      if key(last) !in KeysOf(init, key) {
        FirstWithKeyAppended(init, last, key);
      }
    }
  }

  /**
   * Kept elements appear in the order of their keys' first occurrences; in
   * particular no two kept elements share a key.
   */
  lemma {:induction false} KeepFirstOrder<T, K>(xs: seq<T>, key: T -> K)
    ensures forall i, j :: 0 <= i < j < |KeepFirst(xs, key)| ==>
      FirstWithKey(xs, key, key(KeepFirst(xs, key)[i])) < FirstWithKey(xs, key, key(KeepFirst(xs, key)[j]))
    ensures forall i, j :: 0 <= i < j < |KeepFirst(xs, key)| ==> key(KeepFirst(xs, key)[i]) != key(KeepFirst(xs, key)[j])
    decreases |xs|
  {
    if |xs| > 0 {
      var init := xs[..|xs| - 1];
      var last := xs[|xs| - 1];
      assert xs == init + [last];
      KeepFirstOrder(init, key);
      KeepFirstOrigin(init, key);
      var p := KeepFirst(init, key);
      forall i | 0 <= i < |p|
        ensures FirstWithKey(xs, key, key(p[i])) == FirstWithKey(init, key, key(p[i])) < |init|
      {
        FirstWithKeyPrefix(init, last, key, key(p[i]));
      }
      if key(last) !in KeysOf(init, key) {
        FirstWithKeyAppended(init, last, key);
        var r := p + [last];
        assert forall i :: 0 <= i < |p| ==> r[i] == p[i];
        assert r[|p|] == last;
      }
    }
  }

  /** Every key of the input is kept. */
  lemma {:induction false} KeepFirstCovers<T, K>(xs: seq<T>, key: T -> K)
    ensures forall x :: x in xs ==> key(x) in KeysOf(KeepFirst(xs, key), key)
    decreases |xs|
  {
    if |xs| > 0 {
      var init := xs[..|xs| - 1];
      var last := xs[|xs| - 1];
      assert xs == init + [last];
      KeepFirstCovers(init, key);
      var p := KeepFirst(init, key);
      if key(last) in KeysOf(init, key) {
        var m :| 0 <= m < |init| && KeysOf(init, key)[m] == key(last);
        assert init[m] in init;
      } else {
        var r := p + [last];
        forall x | x in xs
          ensures key(x) in KeysOf(r, key)
        {
          if x == last {
            assert KeysOf(r, key)[|p|] == key(x);
          } else {
            assert x in init;
            var n :| 0 <= n < |p| && KeysOf(p, key)[n] == key(x);
            assert KeysOf(r, key)[n] == key(x);
          }
        }
      }
    }
  }

  /** Appending an element whose key is new keeps it at the end; one with an old key is dropped. */
  lemma KeepFirstAppend<T, K>(xs: seq<T>, x: T, key: T -> K)
    ensures key(x) in KeysOf(xs, key) ==> KeepFirst(xs + [x], key) == KeepFirst(xs, key)
    ensures key(x) !in KeysOf(xs, key) ==> KeepFirst(xs + [x], key) == KeepFirst(xs, key) + [x]
  {
    assert (xs + [x])[..|xs|] == xs;
  }

  /** The keys kept are exactly the keys occurring in the input. */
  lemma KeepFirstKeys<T, K>(xs: seq<T>, key: T -> K)
    ensures forall k :: k in KeysOf(KeepFirst(xs, key), key) <==> k in KeysOf(xs, key)
  {
    KeepFirstOrigin(xs, key);
    KeepFirstCovers(xs, key);
    var r := KeepFirst(xs, key);
    forall k | k in KeysOf(r, key)
      ensures k in KeysOf(xs, key)
    {
      var i :| 0 <= i < |r| && KeysOf(r, key)[i] == k;
      assert KeysOf(xs, key)[FirstWithKey(xs, key, key(r[i]))] == k;
    }
    forall k | k in KeysOf(xs, key)
      ensures k in KeysOf(r, key)
    {
      var i :| 0 <= i < |xs| && KeysOf(xs, key)[i] == k;
      assert xs[i] in xs;
    }
  }

  /**
   * When `key2` is determined by `key1` on the elements of `xs`, de-duplicating
   * by `key1` first and then by `key2` is the same as de-duplicating by `key2` alone.
   */
  lemma {:induction false} KeepFirstCoarser<T, K1, K2>(xs: seq<T>, key1: T -> K1, key2: T -> K2, via: K1 -> K2)
    requires forall x :: x in xs ==> key2(x) == via(key1(x))
    ensures KeepFirst(KeepFirst(xs, key1), key2) == KeepFirst(xs, key2)
    decreases |xs|
  {
    if |xs| > 0 {
      var init := xs[..|xs| - 1];
      var last := xs[|xs| - 1];
      assert xs == init + [last];
      assert forall x :: x in init ==> x in xs;
      KeepFirstCoarser(init, key1, key2, via);
      CoarserStep(init, last, key1, key2, via);
    }
  }

  /** The inductive step of `KeepFirstCoarser`: one more element at the end. */
  lemma CoarserStep<T, K1, K2>(init: seq<T>, last: T, key1: T -> K1, key2: T -> K2, via: K1 -> K2)
    requires forall x :: x in init ==> key2(x) == via(key1(x))
    requires key2(last) == via(key1(last))
    requires KeepFirst(KeepFirst(init, key1), key2) == KeepFirst(init, key2)
    ensures KeepFirst(KeepFirst(init + [last], key1), key2) == KeepFirst(init + [last], key2)
  {
    var p := KeepFirst(init, key1);
    KeepFirstAppend(init, last, key1);
    KeepFirstAppend(init, last, key2);
    if key1(last) in KeysOf(init, key1) {
      var m :| 0 <= m < |init| && KeysOf(init, key1)[m] == key1(last);
      assert init[m] in init;
      assert KeysOf(init, key2)[m] == key2(last);
    } else {
      assert KeepFirst(init + [last], key1) == p + [last];
      CoarserKeys(init, key1, key2, via, key2(last));
      KeepFirstAppend(p, last, key2);
    }
  }

  /** De-duplicating by a finer key keeps every coarser key that occurs, and no other. */
  lemma CoarserKeys<T, K1, K2>(xs: seq<T>, key1: T -> K1, key2: T -> K2, via: K1 -> K2, k: K2)
    requires forall x :: x in xs ==> key2(x) == via(key1(x))
    ensures k in KeysOf(KeepFirst(xs, key1), key2) <==> k in KeysOf(xs, key2)
  {
    var p := KeepFirst(xs, key1);
    KeepFirstOrigin(xs, key1);
    KeepFirstCovers(xs, key1);
    if k in KeysOf(p, key2) {
      var i :| 0 <= i < |p| && KeysOf(p, key2)[i] == k;
      assert FirstOfKey(xs, key1, p[i]);
      assert KeysOf(xs, key2)[FirstWithKey(xs, key1, key1(p[i]))] == k;
    }
    if k in KeysOf(xs, key2) {
      var i :| 0 <= i < |xs| && KeysOf(xs, key2)[i] == k;
      assert xs[i] in xs;
      var n :| 0 <= n < |p| && KeysOf(p, key1)[n] == key1(xs[i]);
      assert FirstOfKey(xs, key1, p[n]);
      assert p[n] in xs;
      assert KeysOf(p, key2)[n] == k;
    }
  }

  /** `r` is `xs` with some elements left out and the rest kept in order. */
  ghost predicate Subsequence<T>(r: seq<T>, xs: seq<T>)
    decreases |xs|
  {
    if |r| == 0 then true
    else if |xs| == 0 then false
    else if r[0] == xs[0] then Subsequence(r[1..], xs[1..])
    else Subsequence(r, xs[1..])
  }

  /** Every element of a subsequence occurs in the sequence. */
  lemma {:induction false} SubsequenceElements<T>(r: seq<T>, xs: seq<T>)
    requires Subsequence(r, xs)
    ensures forall x :: x in r ==> x in xs
    decreases |xs|
  {
    if |r| > 0 && |xs| > 0 {
      if r[0] == xs[0] {
        SubsequenceElements(r[1..], xs[1..]);
        assert forall x :: x in r ==> x == r[0] || x in r[1..];
      } else {
        SubsequenceElements(r, xs[1..]);
      }
      assert forall x :: x in xs[1..] ==> x in xs;
    }
  }

  /** A prefix of a subsequence is a subsequence. */
  lemma {:induction false} SubsequencePrefix<T>(r: seq<T>, xs: seq<T>, n: nat)
    requires Subsequence(r, xs) && n <= |r|
    ensures Subsequence(r[..n], xs)
    decreases |xs|
  {
    if n > 0 && |xs| > 0 {
      if r[0] == xs[0] {
        SubsequencePrefix(r[1..], xs[1..], n - 1);
        assert r[..n][1..] == r[1..][..n - 1];
      } else {
        SubsequencePrefix(r, xs[1..], n);
      }
    }
  }
}

=== FILE: stat_commands.dfy ===
/**
 * StatWrangler's `/game_stats` command (modules/statwrangler/commands.py):
 * username suggestions from the saved names of a game, the saved-name list
 * update, the platform names Siege accepts, and the order in which the
 * command rejects a request before it answers with Siege stats or a tracker
 * link. The older stand-alone bot (modules/statwrangler/main.py) differs in
 * small ways and is modelled alongside as the `Legacy` members.
 *
 * The saved names file is the map `Store` (a missing or unreadable file is
 * the empty map); the Siege scraper and the URL validator are parameters.
 */
module StatCommands {
  import opened Base
  import opened Text
  import opened Seqs
  import opened StatLinks

  /** The saved usernames: game key to names in the order they were first used. */
  type Store = map<string, seq<string>>

  /** Discord accepts at most this many suggestions. */
  const SuggestionLimit: nat := 25

  /** `usernames.get(game, [])`. */
  function NamesFor(store: Store, game: string): (r: seq<string>)
    ensures game in store ==> r == store[game]
    ensures game !in store ==> r == []
  {
    if game in store then store[game] else []
  }

  // ---------------------------------------------------------------- suggestions

  /** `typed.lower() in name.lower()`. */
  predicate Matches(name: string, typed: string) {
    Contains(Lower(name), Lower(typed))
  }

  /** Every text contains itself and the empty text. */
  lemma ContainsTrivial(s: string)
    ensures Contains(s, s) && Contains(s, "")
  {
    assert SliceAt(s, s, 0);
    assert SliceAt(s, "", 0);
  }

  /** The names that contain `typed`, ignoring case, in their stored order. */
  function Matching(names: seq<string>, typed: string): (r: seq<string>)
    ensures |r| <= |names|
    ensures forall x :: x in r <==> x in names && Matches(x, typed)
  {
    if |names| == 0 then []
    else (if Matches(names[0], typed) then [names[0]] else []) + Matching(names[1..], typed)
  }

  /** The matches keep the stored order. */
  lemma {:induction false} MatchingInOrder(names: seq<string>, typed: string)
    ensures Subsequence(Matching(names, typed), names)
    decreases |names|
  {
    if |names| > 0 {
      MatchingInOrder(names[1..], typed);
      var rest := Matching(names[1..], typed);
      if Matches(names[0], typed) {
        assert Matching(names, typed) == [names[0]] + rest;
        assert ([names[0]] + rest)[1..] == rest;
      } else {
        assert Matching(names, typed) == rest;
        assert |rest| > 0 ==> rest[0] in rest;
      }
    }
  }

  /** Nothing typed matches every name. */
  lemma {:induction false} MatchingNothingTyped(names: seq<string>)
    ensures Matching(names, "") == names
    decreases |names|
  {
    if |names| > 0 {
      ContainsTrivial(Lower(names[0]));
      assert Lower("") == "";
      MatchingNothingTyped(names[1..]);
      assert [names[0]] + names[1..] == names;
    }
  }

  /** `xs[:n]`. */
  function Take<T>(xs: seq<T>, n: nat): (r: seq<T>)
    ensures |r| == if |xs| <= n then |xs| else n
    ensures r == xs[..|r|]
  {
    if |xs| <= n then xs else xs[..n]
  }

  /** The text `username_autocomplete` matches with: the typed text, stripped, or nothing. */
  function TypedText(value: Option<string>): string {
    Strip(value.GetOr(""))
  }

  /** `username_autocomplete`: `value` is the typed text and `game` the game option, either possibly absent. */
  function Autocomplete(store: Store, value: Option<string>, game: Option<string>): (r: seq<string>)
    ensures game.None? || game.value == "" ==> r == []
    ensures |r| <= SuggestionLimit
    ensures game.Some? && game.value != "" ==>
      forall x :: x in r ==> x in NamesFor(store, game.value) && Matches(x, TypedText(value))
  {
    Suggestions(store, TypedText(value), game)
  }

  /** The suggestions for the stripped typed text `current`. */
  function Suggestions(store: Store, current: string, game: Option<string>): (r: seq<string>)
    ensures game.None? || game.value == "" ==> r == []
    ensures |r| <= SuggestionLimit
    ensures game.Some? && game.value != "" ==>
      forall x :: x in r ==> x in NamesFor(store, game.value) && Matches(x, current)
  {
    if game.None? || game.value == "" then []
    else
      var names := NamesFor(store, game.value);
      if current == "" then
        MatchingNothingTyped(names);
        Take(names, SuggestionLimit)
      else
        Take(Matching(names, current), SuggestionLimit)
  }

  /**
   * The suggestions are the first matches in stored order: as many as there
   * are matches up to 25, so when there are at most 25 every match is offered.
   */
  lemma AutocompleteFirstMatches(store: Store, value: Option<string>, game: string)
    requires game != ""
    ensures var m := Matching(NamesFor(store, game), TypedText(value));
      var r := Autocomplete(store, value, Some(game));
      && |r| == (if |m| <= SuggestionLimit then |m| else SuggestionLimit)
      && r == m[..|r|]
      && Subsequence(r, NamesFor(store, game))
  {
    var names := NamesFor(store, game);
    var current := TypedText(value);
    MatchingNothingTyped(names);
    MatchingInOrder(names, current);
    var m := Matching(names, current);
    SubsequencePrefix(m, names, |Autocomplete(store, value, Some(game))|);
  }

  /** Surrounding spaces in the typed text do not change the suggestions. */
  lemma AutocompleteIgnoresPadding(store: Store, typed: string, game: Option<string>)
    ensures Autocomplete(store, Some(typed), game) == Autocomplete(store, Some(Strip(typed)), game)
  {
    StripIdempotent(typed);
    assert TypedText(Some(typed)) == TypedText(Some(Strip(typed)));
  }

  /**
   * The older `username_autocomplete`: the typed text itself is added to the
   * candidates when it is new, and the matches are not capped.
   */
  function LegacyAutocomplete(store: Store, game: Option<string>, current: string): (r: seq<string>)
    ensures game.None? || game.value == "" ==> r == []
  {
    if game.None? || game.value == "" then []
    else
      var names := NamesFor(store, game.value);
      var candidates := if current != "" && current !in names then names + [current] else names;
      Matching(candidates, current)
  }

  /**
   * The older suggestions are exactly the stored names that match plus the
   * typed text itself, whatever their number.
   */
  lemma LegacyAutocompleteMembers(store: Store, game: string, current: string, x: string)
    requires game != ""
    ensures x in LegacyAutocomplete(store, Some(game), current) <==>
      (x in NamesFor(store, game) && Matches(x, current)) || (x == current && current != "")
  {
    ContainsTrivial(Lower(current));
  }

  // ---------------------------------------------------------------- saved names

  /** The store key `pull_stats` uses for a game option. */
  function GameKey(game: string): string {
    Lower(Strip(game))
  }

  /**
   * The saved-name update of `pull_stats`: the stripped username is appended
   * to its game's list when it is non-empty and not yet there. The `bool`
   * tells whether the file is written.
   */
  function SaveUsername(store: Store, game: string, username: string): (r: (Store, bool))
    ensures var k := GameKey(game); var u := Strip(username);
      && (r.1 <==> u != "" && u !in NamesFor(store, k))
      && (u != "" ==> u in NamesFor(r.0, k))
      && (r.1 ==> NamesFor(r.0, k) == NamesFor(store, k) + [u])
      && (!r.1 ==> r.0 == store)
      && (forall g :: g != k ==> (g in r.0 <==> g in store) && NamesFor(r.0, g) == NamesFor(store, g))
  {
    var k := GameKey(game);
    var u := Strip(username);
    var names := NamesFor(store, k);
    if u != "" && u !in names then (store[k := names + [u]], true) else (store, false)
  }

  /** Saving the same name twice writes once: the second call changes nothing. */
  lemma SaveUsernameIdempotent(store: Store, game: string, username: string)
    ensures var s := SaveUsername(store, game, username).0;
      SaveUsername(s, game, username) == (s, false)
  {
  }

  /** Saved lists without repeats stay without repeats. */
  lemma SaveUsernameNoRepeats(store: Store, game: string, username: string)
    requires forall g :: g in store ==> NoRepeats(store[g])
    ensures var s := SaveUsername(store, game, username).0;
      forall g :: g in s ==> NoRepeats(s[g])
  {
    var k := GameKey(game);
    var r := SaveUsername(store, game, username);
    if r.1 {
      AppendNoRepeats(NamesFor(store, k), Strip(username));
    }
    forall g | g in r.0
      ensures NoRepeats(r.0[g])
    {
      assert r.0[g] == NamesFor(r.0, g);
    }
  }

  /** No name occurs twice. */
  predicate NoRepeats(xs: seq<string>) {
    forall i, j :: 0 <= i < j < |xs| ==> xs[i] != xs[j]
  }

  /** Appending a new name keeps a list without repeats. */
  lemma AppendNoRepeats(xs: seq<string>, u: string)
    requires NoRepeats(xs) && u !in xs
    ensures NoRepeats(xs + [u])
  {
    forall i, j | 0 <= i < j < |xs + [u]|
      ensures (xs + [u])[i] != (xs + [u])[j]
    {
      if j == |xs| {
        assert (xs + [u])[i] == xs[i];
      }
    }
  }

  /**
   * The older update: the game key is only lower-cased and the username is
   * saved as typed, even when empty.
   */
  function LegacySaveUsername(store: Store, game: string, username: string): (r: (Store, bool))
    ensures var k := Lower(game);
      && (r.1 <==> username !in NamesFor(store, k))
      && username in NamesFor(r.0, k)
      && (r.1 ==> NamesFor(r.0, k) == NamesFor(store, k) + [username])
      && (!r.1 ==> r.0 == store)
      && (forall g :: g != k ==> (g in r.0 <==> g in store) && NamesFor(r.0, g) == NamesFor(store, g))
  {
    var k := Lower(game);
    var names := NamesFor(store, k);
    if username !in names then (store[k := names + [username]], true) else (store, false)
  }

  /** For a game key and username with no surrounding spaces and a non-empty name, both updates agree. */
  lemma SaveUsernameAgrees(store: Store, game: string, username: string)
    requires Strip(game) == game && Strip(username) == username && username != ""
    ensures SaveUsername(store, game, username) == LegacySaveUsername(store, game, username)
  {
  }

  /** The older update records an empty username; the current one does not. */
  lemma LegacySavesEmptyName()
    ensures LegacySaveUsername(map[], "siege", "") == (map["siege" := [""]], true)
    ensures SaveUsername(map[], "siege", "") == (map[], false)
  {
    assert Strip("") == "";
    assert Lower("siege") == "siege";
    assert NamesFor(map[], "siege") + [""] == [""];
  }

  // ---------------------------------------------------------------- platform

  const PlatformNames: set<string> := {"pc", "xbox", "playstation"}
  const PlatformCodes: set<string> := {"ubi", "xbl", "psn"}

  /** `platform_map.get(p)`. */
  function PlatformCode(p: string): (r: Option<string>)
    ensures r.Some? <==> p in PlatformNames
    ensures r.Some? ==> r.value in PlatformCodes
  {
    if p == "pc" then Some("ubi")
    else if p == "xbox" then Some("xbl")
    else if p == "playstation" then Some("psn")
    else None
  }

  /** Distinct platform names map to distinct codes. */
  lemma PlatformCodeInjective(a: string, b: string)
    requires PlatformCode(a).Some? && PlatformCode(a) == PlatformCode(b)
    ensures a == b
  {
  }

  /** The platform after normalisation: none given, a known platform's code, or an unknown one. */
  datatype PlatformChoice = NoPlatform | Chosen(code: string) | Invalid

  /** `pull_stats`'s platform handling: stripped and lower-cased when given. */
  function ReadPlatform(platform: Option<string>): (r: PlatformChoice)
    ensures r.NoPlatform? <==> platform.None? || platform.value == ""
    ensures r.Invalid? <==> platform.Some? && platform.value != "" && GameKey(platform.value) !in PlatformNames
    ensures r.Chosen? ==> r.code in PlatformCodes && PlatformCode(GameKey(platform.value)) == Some(r.code)
  {
    if platform.None? || platform.value == "" then NoPlatform
    else match PlatformCode(Lower(Strip(platform.value)))
      case None => Invalid
      case Some(c) => Chosen(c)
  }

  /** The older platform handling: lower-cased only. */
  function LegacyReadPlatform(platform: Option<string>): (r: PlatformChoice)
    ensures r.NoPlatform? <==> platform.None? || platform.value == ""
    ensures r.Invalid? <==> platform.Some? && platform.value != "" && Lower(platform.value) !in PlatformNames
    ensures r.Chosen? ==> r.code in PlatformCodes && PlatformCode(Lower(platform.value)) == Some(r.code)
  {
    if platform.None? || platform.value == "" then NoPlatform
    else match PlatformCode(Lower(platform.value))
      case None => Invalid
      case Some(c) => Chosen(c)
  }

  /**
   * A platform name with whitespace around it is accepted now, and was
   * rejected by the older bot, which only lower-cased.
   */
  lemma PaddedPlatform(pad: string, p: string, pad2: string)
    requires p in PlatformNames
    requires |pad| > 0 && AllSpace(pad) && AllSpace(pad2)
    ensures ReadPlatform(Some(pad + p + pad2)) == Chosen(PlatformCode(p).value)
    ensures LegacyReadPlatform(Some(pad + p + pad2)) == Invalid
  {
    var padded := pad + p + pad2;
    StripPadded(pad, p, pad2);
    PlatformNameNormal(p);
    assert GameKey(padded) == p;
    var l := Lower(padded);
    assert IsSpace(l[0]) by {
      assert padded[0] == pad[0];
      LowerPreservesSpace(padded);
    }
    PlatformsStartWithLetters();
  }

  /** No platform name starts with whitespace. */
  lemma PlatformsStartWithLetters()
    ensures forall q :: q in PlatformNames ==> |q| > 0 && !IsSpace(q[0])
  {
    assert "pc"[0] == 'p' && "xbox"[0] == 'x' && "playstation"[0] == 'p';
  }

  // ---------------------------------------------------------------- games

  datatype Game = Siege | Fortnite | Valorant

  /** The game behind a key of `game_scrapers`. */
  function GameOf(key: string): (r: Option<Game>)
    ensures r.Some? <==> key in {"siege", "fortnite", "valorant"}
  {
    if key == "siege" then Some(Siege)
    else if key == "fortnite" then Some(Fortnite)
    else if key == "valorant" then Some(Valorant)
    else None
  }

  /** The key a game is chosen by. */
  function GameName(g: Game): (key: string) {
    match g
    case Siege => "siege"
    case Fortnite => "fortnite"
    case Valorant => "valorant"
  }

  /** Game names and keys are inverse. */
  lemma GameNameRoundTrip(g: Game, key: string)
    ensures GameOf(GameName(g)) == Some(g)
    ensures GameOf(key).Some? ==> GameName(GameOf(key).value) == key
  {
  }

  /** `requires_platform`: only Siege's scraper needs a platform. */
  predicate RequiresPlatform(g: Game) {
    g == Siege
  }

  // ---------------------------------------------------------------- replies

  /** The six values the cog unpacks; an absent value is `None`, an empty text is falsy too. */
  datatype SiegeStats = SiegeStats(
    kd: Option<string>, level: Option<string>, rank: Option<string>, rankedKd: Option<string>,
    profileImg: Option<string>, rankImg: Option<string>)

  /**
   * The Siege stats embed: the overall and ranked values, the thumbnail and
   * the rank image. The ranked section is shown exactly when there is a rank image.
   */
  datatype SiegeCard = SiegeCard(
    level: string, kd: string, rank: string, rankedKd: string,
    thumbnail: Option<string>, rankImage: Option<string>)

  const NotAvailable: string := "N/A"

  /** `v or "N/A"`. */
  function OrNotAvailable(v: Option<string>): (r: string)
    ensures r != ""
    ensures v.Some? && v.value != "" ==> r == v.value
  {
    if v.Some? && v.value != "" then v.value else NotAvailable
  }

  /** `validate_url`: the URL when it is non-empty and the validator accepts it. */
  function ValidateUrl(url: Option<string>, valid: string -> bool): (r: Option<string>)
    ensures r.Some? <==> url.Some? && url.value != "" && valid(url.value)
    ensures r.Some? ==> r == url
  {
    if url.Some? && url.value != "" && valid(url.value) then url else None
  }

  /** The older `validate_url`, which relies on the validator alone. */
  function LegacyValidateUrl(url: Option<string>, valid: string -> bool): (r: Option<string>)
    ensures r.Some? <==> url.Some? && valid(url.value)
    ensures r.Some? ==> r == url
  {
    if url.Some? && valid(url.value) then url else None
  }

  /** A validator that rejects the empty text makes both checks the same. */
  lemma ValidateUrlAgrees(url: Option<string>, valid: string -> bool)
    requires !valid("")
    ensures ValidateUrl(url, valid) == LegacyValidateUrl(url, valid)
  {
  }

  /** The embed built from the scraper's values: no field is empty, only validated images are shown. */
  function SiegeCardOf(s: SiegeStats, valid: string -> bool): (c: SiegeCard)
    ensures c.level != "" && c.kd != "" && c.rank != "" && c.rankedKd != ""
    ensures c.thumbnail.Some? ==> c.thumbnail == s.profileImg && valid(c.thumbnail.value)
    ensures c.rankImage.Some? ==> c.rankImage == s.rankImg && valid(c.rankImage.value)
  {
    SiegeCard(OrNotAvailable(s.level), OrNotAvailable(s.kd), OrNotAvailable(s.rank), OrNotAvailable(s.rankedKd),
      ValidateUrl(s.profileImg, valid), ValidateUrl(s.rankImg, valid))
  }

  /** Six `None`s give an embed of "N/A" values with no images and no ranked section. */
  lemma SiegeCardNothingFound(valid: string -> bool)
    ensures SiegeCardOf(SiegeStats(None, None, None, None, None, None), valid)
      == SiegeCard(NotAvailable, NotAvailable, NotAvailable, NotAvailable, None, None)
  {
  }

  /**
   * What `get_r6siege_player_data` (modules/statwrangler/events/r6/r6_scraper.py)
   * did: found the values, timed out waiting for the page, or raised.
   */
  datatype ScrapeOutcome = Scraped(stats: SiegeStats) | ScrapeTimedOut | ScrapeRaised

  /** The tuple the scraper hands back, by its arity. */
  datatype ScrapeResult = SixValues(six: SiegeStats) | SevenValues(seven: LegacySiegeStats)

  /**
   * The scraper's return: the six values on success, but seven `None`s on
   * its timeout and error paths, left from when it also returned the play time.
   */
  function R6Scrape(o: ScrapeOutcome): (r: ScrapeResult)
    ensures r.SixValues? <==> o.Scraped?
    ensures o.Scraped? ==> r.six == o.stats
    ensures r.SevenValues? ==> r.seven == LegacySiegeStats(None, None, None, None, None, None, None)
  {
    match o
    case Scraped(st) => SixValues(st)
    case _ => SevenValues(LegacySiegeStats(None, None, None, None, None, None, None))
  }

  /** A tuple unpacked into a fixed number of names: the built embed, or the `ValueError` of a wrong arity. */
  datatype Unpacked<C> = Unpacked(card: C) | ArityError

  /** The cog unpacks six names: seven values raise, and nothing is replied. */
  function CogSiegeCard(r: ScrapeResult, valid: string -> bool): (c: Unpacked<SiegeCard>)
    ensures c.Unpacked? <==> r.SixValues?
    ensures c.Unpacked? ==> c.card == SiegeCardOf(r.six, valid)
  {
    match r
    case SixValues(st) => Unpacked(SiegeCardOf(st, valid))
    case SevenValues(_) => ArityError
  }

  /** How `/game_stats` answers; `C` is the Siege embed. */
  datatype StatReply<C> =
    | InvalidPlatformReply
    | UnsupportedGame
    | PlatformRequired
    | SiegeStatsReply(card: C)
    | Link(reply: LinkReply)

  /**
   * The answer of `pull_stats` once the platform and the game are read: an
   * unknown platform, an unknown game and Siege without a platform are
   * rejected in that order; Siege is answered with the embed `siege` builds
   * for the platform code and the other games with their tracker link for
   * the username `u`.
   */
  function Answer<C>(p: PlatformChoice, game: Option<Game>, u: string, siege: string -> C): (r: StatReply<C>)
    ensures r.InvalidPlatformReply? <==> p.Invalid?
    ensures r.UnsupportedGame? <==> !p.Invalid? && game.None?
    ensures r.PlatformRequired? <==> p.NoPlatform? && game == Some(Siege)
    ensures r.SiegeStatsReply? <==> p.Chosen? && game == Some(Siege)
    ensures r.SiegeStatsReply? ==> r.card == siege(p.code)
    ensures r.Link? <==> !p.Invalid? && game.Some? && game.value != Siege
    ensures r.Link? && game == Some(Fortnite) ==> r.reply == FortniteReply(u)
    ensures r.Link? && game == Some(Valorant) ==> r.reply == ValorantReply(u)
    ensures r.Link? && game == Some(Valorant) && ParseRiotId(u).Some? ==> r.reply == ValorantReplyAsWritten(u)
  {
    if p.Invalid? then InvalidPlatformReply
    else match game
      case None => UnsupportedGame
      case Some(g) =>
        if RequiresPlatform(g) && p.NoPlatform? then PlatformRequired
        else match g
          case Siege => SiegeStatsReply(siege(p.code))
          case Fortnite => Link(FortniteReply(u))
          case Valorant =>
            if ParseRiotId(u).Some? then ValorantReplyAgrees(u); Link(ValorantReply(u))
            else Link(ValorantReply(u))
  }

  /** The Siege embed for a platform code: the scraper's result for `u` on that platform, unpacked. */
  function SiegeEmbed(scrape: (string, string) -> ScrapeResult, u: string, valid: string -> bool)
    : string -> Unpacked<SiegeCard>
  {
    code => CogSiegeCard(scrape(u, code), valid)
  }

  /**
   * `pull_stats`: the username is saved first, whatever happens next; the
   * answer is then given for the stripped username and the normalised
   * platform and game.
   */
  function PullStats(store: Store, game: string, username: string, platform: Option<string>,
                     scrape: (string, string) -> ScrapeResult, valid: string -> bool)
    : (r: (Store, StatReply<Unpacked<SiegeCard>>))
    ensures r.0 == SaveUsername(store, game, username).0
    ensures r.1.InvalidPlatformReply? <==> ReadPlatform(platform).Invalid?
    ensures r.1.UnsupportedGame? <==> !ReadPlatform(platform).Invalid? && GameOf(GameKey(game)).None?
    ensures r.1.PlatformRequired? <==>
      ReadPlatform(platform).NoPlatform? && GameOf(GameKey(game)) == Some(Siege)
    ensures r.1.SiegeStatsReply? ==>
      && GameOf(GameKey(game)) == Some(Siege) && ReadPlatform(platform).Chosen?
      && (r.1.card.Unpacked? <==> scrape(Strip(username), ReadPlatform(platform).code).SixValues?)
      && (r.1.card.Unpacked? ==> r.1.card.card == SiegeCardOf(scrape(Strip(username), ReadPlatform(platform).code).six, valid))
    ensures r.1.Link? ==>
      || (GameOf(GameKey(game)) == Some(Fortnite) && r.1.reply == FortniteReply(Strip(username)))
      || (GameOf(GameKey(game)) == Some(Valorant) && r.1.reply == ValorantReply(Strip(username)))
    ensures r.1.Link? && GameOf(GameKey(game)) == Some(Valorant) && ParseRiotId(Strip(username)).Some? ==>
      r.1.reply == ValorantReplyAsWritten(Strip(username))
  {
    var u := Strip(username);
    (SaveUsername(store, game, username).0,
     Answer(ReadPlatform(platform), GameOf(GameKey(game)), u, SiegeEmbed(scrape, u, valid)))
  }

  /**
   * A Siege request with a platform reaches the scraper; when the scrape
   * times out or raises, unpacking its seven `None`s raises and no stats
   * are shown.
   */
  lemma PullStatsFailedScrape(store: Store, game: string, username: string, platform: Option<string>,
                              o: ScrapeOutcome, valid: string -> bool)
    requires GameOf(GameKey(game)) == Some(Siege) && ReadPlatform(platform).Chosen?
    ensures var r := PullStats(store, game, username, platform, (u: string, code: string) => R6Scrape(o), valid).1;
      r.SiegeStatsReply? && (r.card.ArityError? <==> !o.Scraped?)
  {
  }

  /** Every supported game with an acceptable platform gets an answer, never a rejection. */
  lemma PullStatsAnswers(store: Store, game: string, username: string, platform: Option<string>,
                         scrape: (string, string) -> ScrapeResult, valid: string -> bool)
    requires GameOf(GameKey(game)).Some?
    requires ReadPlatform(platform).Chosen? || (GameOf(GameKey(game)) != Some(Siege) && !ReadPlatform(platform).Invalid?)
    ensures var r := PullStats(store, game, username, platform, scrape, valid).1;
      r.SiegeStatsReply? || r.Link?
  {
  }

  /** The link games ignore the platform, as long as it is not an unknown one. */
  lemma LinkGamesIgnorePlatform(store: Store, game: string, username: string, p1: Option<string>, p2: Option<string>,
                                scrape: (string, string) -> ScrapeResult, valid: string -> bool)
    requires GameOf(GameKey(game)) == Some(Fortnite) || GameOf(GameKey(game)) == Some(Valorant)
    requires !ReadPlatform(p1).Invalid? && !ReadPlatform(p2).Invalid?
    ensures PullStats(store, game, username, p1, scrape, valid) == PullStats(store, game, username, p2, scrape, valid)
  {
  }

  /** The seven values the stand-alone bot unpacks: the cog's six plus the play time. */
  datatype LegacySiegeStats = LegacySiegeStats(
    kd: Option<string>, level: Option<string>, playtime: Option<string>, rank: Option<string>,
    rankedKd: Option<string>, profileImg: Option<string>, rankImg: Option<string>)

  /** The older Siege embed, with the play time among the overall values. */
  datatype LegacySiegeCard = LegacySiegeCard(
    level: string, kd: string, playtime: string, rank: string, rankedKd: string,
    thumbnail: Option<string>, rankImage: Option<string>)

  /** The older embed: "N/A" for missing values, images checked by the older validator. */
  function LegacySiegeCardOf(s: LegacySiegeStats, valid: string -> bool): (c: LegacySiegeCard)
    ensures c.level != "" && c.kd != "" && c.playtime != "" && c.rank != "" && c.rankedKd != ""
    ensures c.thumbnail.Some? ==> c.thumbnail == s.profileImg && valid(c.thumbnail.value)
    ensures c.rankImage.Some? ==> c.rankImage == s.rankImg && valid(c.rankImage.value)
  {
    LegacySiegeCard(OrNotAvailable(s.level), OrNotAvailable(s.kd), OrNotAvailable(s.playtime),
      OrNotAvailable(s.rank), OrNotAvailable(s.rankedKd),
      LegacyValidateUrl(s.profileImg, valid), LegacyValidateUrl(s.rankImg, valid))
  }

  /** The stand-alone bot unpacks seven names: six values raise, and nothing is replied. */
  function LegacyUnpackCard(r: ScrapeResult, valid: string -> bool): (c: Unpacked<LegacySiegeCard>)
    ensures c.Unpacked? <==> r.SevenValues?
    ensures c.Unpacked? ==> c.card == LegacySiegeCardOf(r.seven, valid)
  {
    match r
    case SevenValues(st) => Unpacked(LegacySiegeCardOf(st, valid))
    case SixValues(_) => ArityError
  }

  /**
   * Against the scraper as it stands, the cog shows the card exactly when
   * the scrape succeeds and raises otherwise, and the stand-alone bot does
   * the reverse: it raises on every success and shows an all-"N/A" card
   * after a failure.
   */
  lemma ScrapeArity(o: ScrapeOutcome, valid: string -> bool)
    ensures CogSiegeCard(R6Scrape(o), valid).Unpacked? <==> o.Scraped?
    ensures o.Scraped? ==> CogSiegeCard(R6Scrape(o), valid) == Unpacked(SiegeCardOf(o.stats, valid))
    ensures LegacyUnpackCard(R6Scrape(o), valid).Unpacked? <==> !o.Scraped?
    ensures !o.Scraped? ==>
      LegacyUnpackCard(R6Scrape(o), valid) == Unpacked(LegacySiegeCard(NotAvailable, NotAvailable, NotAvailable, NotAvailable, NotAvailable, None, None))
  {
  }

  /** The older Siege embed for a platform code. */
  function LegacySiegeEmbed(scrape: (string, string) -> ScrapeResult, u: string, valid: string -> bool)
    : string -> Unpacked<LegacySiegeCard>
  {
    code => LegacyUnpackCard(scrape(u, code), valid)
  }

  /** The exception the older command lets escape: the scraper table indexed by an unknown game. */
  datatype CommandError = KeyError(key: string)

  /**
   * The older `pull_stats`. The scraper table is indexed before the game is
   * checked, so an unknown game raises instead of getting the "not
   * supported" answer, which is never given.
   */
  function LegacyPullStats(store: Store, game: string, username: string, platform: Option<string>,
                           scrape: (string, string) -> ScrapeResult, valid: string -> bool)
    : (r: (Store, Result<StatReply<Unpacked<LegacySiegeCard>>, CommandError>))
    ensures r.0 == LegacySaveUsername(store, game, username).0
    ensures r.1.Err? <==> !LegacyReadPlatform(platform).Invalid? && GameOf(Lower(game)).None?
    ensures r.1.Err? ==> r.1.error == KeyError(Lower(game))
    ensures r.1.Ok? ==> !r.1.value.UnsupportedGame?
    ensures r.1.Ok? && r.1.value.InvalidPlatformReply? <==> LegacyReadPlatform(platform).Invalid?
    ensures r.1.Ok? && r.1.value.PlatformRequired? <==>
      LegacyReadPlatform(platform).NoPlatform? && GameOf(Lower(game)) == Some(Siege)
    ensures r.1.Ok? && r.1.value.SiegeStatsReply? ==>
      && GameOf(Lower(game)) == Some(Siege) && LegacyReadPlatform(platform).Chosen?
      && (r.1.value.card.Unpacked? <==> scrape(username, LegacyReadPlatform(platform).code).SevenValues?)
      && (r.1.value.card.Unpacked? ==>
            r.1.value.card.card == LegacySiegeCardOf(scrape(username, LegacyReadPlatform(platform).code).seven, valid))
    ensures r.1.Ok? && r.1.value.Link? ==>
      || (GameOf(Lower(game)) == Some(Fortnite) && r.1.value.reply == FortniteReply(username))
      || (GameOf(Lower(game)) == Some(Valorant) && r.1.value.reply == ValorantReply(username))
    ensures r.1.Ok? && r.1.value.Link? && GameOf(Lower(game)) == Some(Valorant) && ParseRiotId(username).Some? ==>
      r.1.value.reply == ValorantReplyAsWritten(username)
  {
    var key := Lower(game);
    var p := LegacyReadPlatform(platform);
    (LegacySaveUsername(store, game, username).0,
     if !p.Invalid? && GameOf(key).None? then Err(KeyError(key))
     else Ok(Answer(p, GameOf(key), username, LegacySiegeEmbed(scrape, username, valid))))
  }

  /**
   * For a game chosen from the fixed list, a trimmed username and a platform
   * given in lower case, both commands save the same names and give the same
   * answer on the link games and the same rejections.
   */
  lemma LegacyAgreesOnChoices(store: Store, game: string, username: string, platform: Option<string>,
                              scrape: (string, string) -> ScrapeResult, oldScrape: (string, string) -> ScrapeResult,
                              valid: string -> bool)
    requires Strip(game) == game && Lower(game) == game && GameOf(game).Some?
    requires Strip(username) == username && username != ""
    requires platform.None? || platform.value in PlatformNames
    ensures var now := PullStats(store, game, username, platform, scrape, valid);
      var before := LegacyPullStats(store, game, username, platform, oldScrape, valid);
      && now.0 == before.0
      && before.1.Ok?
      && (GameOf(game) != Some(Siege) ==> before.1.value.Link? && now.1.Link? && before.1.value.reply == now.1.reply)
      && (now.1.PlatformRequired? <==> before.1.value.PlatformRequired?)
  {
    SaveUsernameAgrees(store, game, username);
    PlatformSameReading(platform);
    PullStatsOfNormal(store, game, username, platform, scrape, valid);
    LegacyPullStatsOfKnown(store, game, username, platform, oldScrape, valid);
    AnswerIgnoresEmbed(ReadPlatform(platform), GameOf(game), username,
      SiegeEmbed(scrape, username, valid), LegacySiegeEmbed(oldScrape, username, valid));
  }

  /** With a game key and username that need no normalising, the answer is given for them as they are. */
  lemma PullStatsOfNormal(store: Store, game: string, username: string, platform: Option<string>,
                          scrape: (string, string) -> ScrapeResult, valid: string -> bool)
    requires Strip(game) == game && Lower(game) == game
    requires Strip(username) == username
    ensures PullStats(store, game, username, platform, scrape, valid).1
      == Answer(ReadPlatform(platform), GameOf(game), username, SiegeEmbed(scrape, username, valid))
  {
    assert GameKey(game) == game;
  }

  /** For a known game, the older command gives the answer without raising. */
  lemma LegacyPullStatsOfKnown(store: Store, game: string, username: string, platform: Option<string>,
                               scrape: (string, string) -> ScrapeResult, valid: string -> bool)
    requires Lower(game) == game && GameOf(game).Some?
    ensures LegacyPullStats(store, game, username, platform, scrape, valid).1
      == Ok(Answer(LegacyReadPlatform(platform), GameOf(game), username, LegacySiegeEmbed(scrape, username, valid)))
  {
  }

  /** Apart from the Siege embed, the answer does not depend on how the embed is built. */
  lemma AnswerIgnoresEmbed<C, D>(p: PlatformChoice, game: Option<Game>, u: string, siege: string -> C, other: string -> D)
    ensures var a := Answer(p, game, u, siege); var b := Answer(p, game, u, other);
      && (a.Link? <==> b.Link?) && (a.Link? ==> a.reply == b.reply)
      && (a.PlatformRequired? <==> b.PlatformRequired?)
      && (a.SiegeStatsReply? <==> b.SiegeStatsReply?)
  {
  }

  /** A game key is already stripped and lower-case, as `LegacyAgreesOnChoices` needs. */
  lemma GameNameNormal(g: Game)
    ensures Strip(GameName(g)) == GameName(g) && GameKey(GameName(g)) == GameName(g) && Lower(GameName(g)) == GameName(g)
  {
    match g {
      case Siege => LowerWordNormal("siege");
      case Fortnite => LowerWordNormal("fortnite");
      case Valorant => LowerWordNormal("valorant");
    }
  }

  /** Both platform readings agree on an absent platform and on the exact platform names. */
  lemma PlatformSameReading(platform: Option<string>)
    requires platform.None? || platform.value in PlatformNames
    ensures ReadPlatform(platform) == LegacyReadPlatform(platform)
    ensures !ReadPlatform(platform).Invalid?
  {
    if platform.Some? {
      PlatformNameNormal(platform.value);
    }
  }

  /** A platform name is already stripped and lower-case. */
  lemma PlatformNameNormal(p: string)
    requires p in PlatformNames
    ensures Strip(p) == p && GameKey(p) == p && Lower(p) == p
  {
    PlatformNameCases(p);
    PlatformNamesNormal(p);
  }

  lemma PlatformNameCases(p: string)
    requires p in PlatformNames
    ensures p == "pc" || p == "xbox" || p == "playstation"
  {
  }

  lemma PlatformNamesNormal(p: string)
    requires p == "pc" || p == "xbox" || p == "playstation"
    ensures Strip(p) == p && Lower(p) == p
  {
    PcNormal();
    XboxNormal();
    PlaystationNormal();
  }

  lemma PcNormal()
    ensures Strip("pc") == "pc" && Lower("pc") == "pc"
  {
    assert LowerWord("pc");
    LowerWordNormal("pc");
  }

  lemma XboxNormal()
    ensures Strip("xbox") == "xbox" && Lower("xbox") == "xbox"
  {
    assert LowerWord("xbox");
    LowerWordNormal("xbox");
  }

  lemma PlaystationNormal()
    ensures Strip("playstation") == "playstation" && Lower("playstation") == "playstation"
  {
    assert LowerWord("playstation");
    LowerWordNormal("playstation");
  }
}

=== FILE: stat_guilds.dfy ===
/**
 * StatWrangler's guild list (modules/statwrangler/events/bot_init.py): the
 * JSON file `{"servers": [{"id": ..., "name": ...}, ...]}` that records the
 * servers the bot has joined, appended to when it joins a server and merged
 * with the connected servers when it starts.
 *
 * The file is modelled by its state on disk: absent, empty, not JSON, or a
 * decoded document. Python's exceptions on documents of another shape are
 * the error `BadDocument`.
 */
module StatGuilds {
  import opened Base
  import opened Text
  import opened Json

  /** A connected Discord server. */
  datatype Guild = Guild(id: int, name: string)

  /** The guild file on disk. */
  datatype GuildFile = NoFile | EmptyFile | Unparsable | Parsed(doc: Json)

  /** What the handlers let escape: a decode error, or a lookup on a document of the wrong shape. */
  datatype FileError = DecodeError | BadDocument

  const ServersKey: string := "servers"

  /** `{"servers": []}`, written to an absent or empty file. */
  const EmptyDoc: Json := JObj(map[ServersKey := JList([])])

  /** The record appended for a guild: its id as text, and its name. */
  function Entry(g: Guild): (e: Json)
    ensures e.JObj? && "id" in e.fields && PyStr(e.fields["id"]) == IntToString(g.id)
  {
    JObj(map["id" := JStr(IntToString(g.id)), "name" := JStr(g.name)])
  }

  /** An entry counts as tracking `id` when it is an object whose `id` prints as `id`. */
  predicate Tracks(e: Json, id: string) {
    e.JObj? && "id" in e.fields && PyStr(e.fields["id"]) == id
  }

  /** The `servers` list of a document, when the document is an object holding one. */
  function ServerList(d: Json): (r: Option<seq<Json>>)
    ensures r.Some? <==> d.JObj? && ServersKey in d.fields && d.fields[ServersKey].JList?
  {
    if d.JObj? && ServersKey in d.fields && d.fields[ServersKey].JList? then Some(d.fields[ServersKey].items) else None
  }

  /** Some entry of `es` tracks `id`. */
  predicate Listed(es: seq<Json>, id: string) {
    exists i :: 0 <= i < |es| && Tracks(es[i], id)
  }

  /** The document lists an entry tracking `id`. */
  predicate TrackedIn(d: Json, id: string) {
    ServerList(d).Some? && Listed(ServerList(d).value, id)
  }

  // ---------------------------------------------------------------- on_guild_join

  /**
   * `any(str(g["id"]) == id for g in servers)`: stops at the first match; an
   * entry reached before any match that is not an object with an `id` raises.
   */
  function AnyTracks(es: seq<Json>, id: string): (r: Result<bool, FileError>)
    ensures r == Ok(true) ==> Listed(es, id)
    ensures r == Ok(false) <==> (forall i :: 0 <= i < |es| ==> Tracks(es[i], id) || (es[i].JObj? && "id" in es[i].fields)) && !Listed(es, id)
    ensures r.Err? ==> exists i :: 0 <= i < |es| && !(es[i].JObj? && "id" in es[i].fields)
  {
    if |es| == 0 then Ok(false)
    else if !(es[0].JObj? && "id" in es[0].fields) then Err(BadDocument)
    else if PyStr(es[0].fields["id"]) == id then
      assert Tracks(es[0], id);
      Ok(true)
    else
      var rest := AnyTracks(es[1..], id);
      assert forall i :: 1 <= i < |es| ==> es[i] == es[1..][i - 1];
      assert Listed(es[1..], id) ==> Listed(es, id);
      rest
  }

  /** When every entry is an object with an `id`, the scan answers whether the guild is listed. */
  lemma AnyTracksWellFormed(es: seq<Json>, id: string)
    requires forall i :: 0 <= i < |es| ==> es[i].JObj? && "id" in es[i].fields
    ensures AnyTracks(es, id) == Ok(Listed(es, id))
  {
  }

  /** After a scan that found nothing, an appended entry for the guild is found. */
  lemma {:induction false} AnyTracksAppended(es: seq<Json>, id: string, e: Json)
    requires AnyTracks(es, id) == Ok(false) && Tracks(e, id)
    ensures AnyTracks(es + [e], id) == Ok(true)
    decreases |es|
  {
    if |es| == 0 {
      assert es + [e] == [e];
    } else {
      assert (es + [e])[0] == es[0];
      assert (es + [e])[1..] == es[1..] + [e];
      AnyTracksAppended(es[1..], id, e);
    }
  }

  /** The document `on_guild_join` reads: an absent or empty file is first initialised. */
  function JoinLoad(file: GuildFile): (r: Result<Json, FileError>)
    ensures r.Err? <==> file.Unparsable?
  {
    match file
    case NoFile => Ok(EmptyDoc)
    case EmptyFile => Ok(EmptyDoc)
    case Unparsable => Err(DecodeError)
    case Parsed(d) => Ok(d)
  }

  /**
   * `on_guild_join`: the document afterwards, or the exception. The guild is
   * appended, and the file rewritten, only when no entry tracks its id.
   */
  function JoinGuild(file: GuildFile, guild: Guild): (r: Result<Json, FileError>)
    ensures file.Unparsable? ==> r == Err(DecodeError)
    ensures file.NoFile? || file.EmptyFile? ==> r == Ok(JObj(map[ServersKey := JList([Entry(guild)])]))
    ensures r.Ok? ==> TrackedIn(r.value, IntToString(guild.id))
    ensures r.Ok? && file.Parsed? ==>
      && ServerList(file.doc).Some?
      && var before := ServerList(file.doc).value;
         var after := ServerList(r.value).value;
         && (after == before || after == before + [Entry(guild)])
         && r.value.fields == file.doc.fields[ServersKey := JList(after)]
         && (after == before <==> Listed(before, IntToString(guild.id)))
  {
    match JoinLoad(file)
    case Err(e) => Err(e)
    case Ok(d) =>
      match ServerList(d)
      case None => Err(BadDocument)
      case Some(es) =>
        var id := IntToString(guild.id);
        match AnyTracks(es, id)
        case Err(e) => Err(e)
        case Ok(found) =>
          if found then
            assert d.fields[ServersKey := JList(es)] == d.fields;
            Ok(d)
          else
            JoinAppends(d, es, guild);
            Ok(JObj(d.fields[ServersKey := JList(es + [Entry(guild)])]))
  }

  /** Appending the guild's entry to a list that lacks it makes the guild tracked. */
  lemma JoinAppends(d: Json, es: seq<Json>, guild: Guild)
    requires ServerList(d) == Some(es) && !Listed(es, IntToString(guild.id))
    ensures var es2 := es + [Entry(guild)];
      var r := JObj(d.fields[ServersKey := JList(es2)]);
      && TrackedIn(r, IntToString(guild.id))
      && ServerList(r) == Some(es2)
      && es2 != es
      && (es == [] ==> es2 == [Entry(guild)])
      && (d == EmptyDoc ==> r == JObj(map[ServersKey := JList(es2)]))
  {
    var es2 := es + [Entry(guild)];
    assert Tracks(es2[|es|], IntToString(guild.id));
    assert |es2| != |es|;
  }

  /** Joining the same guild again changes nothing: the guild is already tracked. */
  lemma JoinGuildIdempotent(file: GuildFile, guild: Guild)
    requires JoinGuild(file, guild).Ok?
    ensures JoinGuild(Parsed(JoinGuild(file, guild).value), guild) == JoinGuild(file, guild)
  {
    var d := JoinGuild(file, guild).value;
    var id := IntToString(guild.id);
    var d0 := JoinLoad(file).value;
    var es := ServerList(d0).value;
    match AnyTracks(es, id) {
      case Ok(found) =>
        if !found {
          AnyTracksAppended(es, id, Entry(guild));
          assert ServerList(d).value == es + [Entry(guild)];
        }
    }
  }

  // ---------------------------------------------------------------- on_ready_bot

  /**
   * The `servers` object `on_ready_bot` works on: undecodable JSON and a
   * missing or non-list `servers` start again from `{"servers": []}`. The
   * `"servers" in data` test itself raises on a number, boolean or null, and
   * on a list or text that does contain "servers" the lookup `data["servers"]` raises.
   */
  function ReadyData(file: GuildFile): (r: Result<map<string, Json>, FileError>)
    ensures r.Ok? ==> ServersKey in r.value && r.value[ServersKey].JList?
    ensures r.Ok? && file.Parsed? && ServerList(file.doc).Some? ==> r.value == file.doc.fields
    ensures r.Ok? && !(file.Parsed? && ServerList(file.doc).Some?) ==> r.value == EmptyDoc.fields
    ensures file.Parsed? && file.doc.JObj? ==> r.Ok?
    ensures !file.Parsed? ==> r.Ok?
  {
    match file
    case Parsed(d) =>
      (match d
       case JObj(m) =>
         if ServersKey in m && m[ServersKey].JList? then Ok(m) else Ok(EmptyDoc.fields)
       case JList(xs) => if JStr(ServersKey) in xs then Err(BadDocument) else Ok(EmptyDoc.fields)
       case JStr(s) => if Contains(s, ServersKey) then Err(BadDocument) else Ok(EmptyDoc.fields)
       case _ => Err(BadDocument))
    case _ => Ok(EmptyDoc.fields)
  }

  /**
   * The ids one entry contributes to `existing_ids`: an object's `id` when it
   * has one. `"id" in s` on a list or text without "id" skips it; with
   * "id", the `s.get` that follows raises, as does the test on any other value.
   */
  function EntryIds(e: Json): (r: Result<set<string>, FileError>)
    ensures e.JObj? ==> r.Ok?
    ensures r.Ok? ==> forall id :: id in r.value <==> Tracks(e, id)
  {
    match e
    case JObj(m) => if "id" in m then Ok({PyStr(m["id"])}) else Ok({})
    case JList(xs) => if JStr("id") in xs then Err(BadDocument) else Ok({})
    case JStr(s) => if Contains(s, "id") then Err(BadDocument) else Ok({})
    case _ => Err(BadDocument)
  }

  /** `existing_ids`: the ids the entries track, or the exception the comprehension raises. */
  function KnownIds(es: seq<Json>): (r: Result<set<string>, FileError>)
    ensures r.Ok? ==> forall id :: id in r.value <==> Listed(es, id)
  {
    if |es| == 0 then Ok({})
    else match (EntryIds(es[0]), KnownIds(es[1..]))
      case (Ok(a), Ok(b)) =>
        assert forall i :: 1 <= i < |es| ==> es[i] == es[1..][i - 1];
        assert forall id :: Listed(es, id) ==> Tracks(es[0], id) || Listed(es[1..], id);
        assert forall id :: Listed(es[1..], id) ==> Listed(es, id);
        Ok(a + b)
      case _ => Err(BadDocument)
  }

  /** The ids are computed from both parts of a list when both parts allow it. */
  lemma {:induction false} KnownIdsAppend(a: seq<Json>, b: seq<Json>)
    requires KnownIds(a).Ok? && KnownIds(b).Ok?
    ensures KnownIds(a + b) == Ok(KnownIds(a).value + KnownIds(b).value)
    decreases |a|
  {
    if |a| == 0 {
      assert a + b == b;
      assert KnownIds(a).value == {};
      assert {} + KnownIds(b).value == KnownIds(b).value;
    } else {
      assert (a + b)[0] == a[0];
      assert (a + b)[1..] == a[1..] + b;
      assert EntryIds(a[0]).Ok? && KnownIds(a[1..]).Ok?;
      KnownIdsAppend(a[1..], b);
      var e := EntryIds(a[0]).value;
      assert KnownIds(a).value == e + KnownIds(a[1..]).value;
      assert KnownIds(a + b).value == e + KnownIds(a[1..] + b).value;
      assert e + (KnownIds(a[1..]).value + KnownIds(b).value) == (e + KnownIds(a[1..]).value) + KnownIds(b).value;
    }
  }

  /** The guilds whose id is not among `known`, in their order. */
  function UntrackedGuilds(guilds: seq<Guild>, known: set<string>): (r: seq<Guild>)
    ensures |r| <= |guilds|
    ensures forall g :: g in r <==> g in guilds && IntToString(g.id) !in known
    ensures |r| == 0 <==> forall g :: g in guilds ==> IntToString(g.id) in known
  {
    if |guilds| == 0 then []
    else
      var rest := UntrackedGuilds(guilds[1..], known);
      assert forall g :: g in guilds <==> g == guilds[0] || g in guilds[1..];
      if IntToString(guilds[0].id) in known then rest else [guilds[0]] + rest
  }

  /** The entries recorded for `gs`, one each, in order. */
  function Entries(gs: seq<Guild>): (r: seq<Json>)
    ensures |r| == |gs|
    ensures forall i :: 0 <= i < |gs| ==> r[i] == Entry(gs[i])
  {
    seq(|gs|, i requires 0 <= i < |gs| => Entry(gs[i]))
  }

  /** Recorded entries are objects with an id, so the next start-up can read them. */
  lemma {:induction false} EntriesIds(gs: seq<Guild>)
    ensures KnownIds(Entries(gs)).Ok?
    decreases |gs|
  {
    if |gs| > 0 {
      EntriesIds(gs[1..]);
      assert Entries(gs)[1..] == Entries(gs[1..]);
    }
  }

  /** The file state the handler leaves when it stops early: only the initialisation happened. */
  function Initialised(file: GuildFile): (r: GuildFile)
    ensures file.NoFile? || file.EmptyFile? ==> r == Parsed(EmptyDoc)
    ensures !(file.NoFile? || file.EmptyFile?) ==> r == file
  {
    if file.NoFile? || file.EmptyFile? then Parsed(EmptyDoc) else file
  }

  /** The entries `on_ready_bot` starts from. */
  function ReadyEntries(file: GuildFile): seq<Json>
    requires ReadyData(file).Ok?
  {
    ReadyData(file).value[ServersKey].items
  }

  /** The handler stops early, its exception caught by the outer `try`. */
  predicate ReadyAborts(file: GuildFile) {
    ReadyData(file).Err? || KnownIds(ReadyEntries(file)).Err?
  }

  /** The connected guilds `on_ready_bot` appends: those whose id no entry tracks. */
  function Appended(file: GuildFile, guilds: seq<Guild>): (r: seq<Guild>)
    ensures ReadyAborts(file) ==> r == []
    ensures !ReadyAborts(file) ==>
      forall g :: g in r <==> g in guilds && !Listed(ReadyEntries(file), IntToString(g.id))
    ensures !ReadyAborts(file) ==>
      (|r| == 0 <==> forall g :: g in guilds ==> Listed(ReadyEntries(file), IntToString(g.id)))
  {
    if ReadyAborts(file) then [] else UntrackedGuilds(guilds, KnownIds(ReadyEntries(file)).value)
  }

  /**
   * `on_ready_bot`'s merge: the file after it. The file is rewritten only
   * when some guild is appended; the set of ids tracked before the loop is
   * not updated inside it.
   */
  function Ready(file: GuildFile, guilds: seq<Guild>): (r: GuildFile)
  {
    var added := Appended(file, guilds);
    if |added| == 0 then Initialised(file)
    else
      var m := ReadyData(file).value;
      Parsed(JObj(m[ServersKey := JList(ReadyEntries(file) + Entries(added))]))
  }

  /** Without appended guilds the file keeps the entries the merge started from, or there were none. */
  lemma InitialisedEntries(file: GuildFile)
    requires ReadyData(file).Ok?
    ensures ReadyEntries(file) == [] || (Initialised(file).Parsed? && ServerList(Initialised(file).doc) == Some(ReadyEntries(file)))
  {
  }

  /** With appended guilds the file holds the document with their entries after the earlier ones. */
  lemma AppendedShape(file: GuildFile, guilds: seq<Guild>)
    requires |Appended(file, guilds)| > 0
    ensures !ReadyAborts(file)
    ensures var r := Ready(file, guilds);
      var all := ReadyEntries(file) + Entries(Appended(file, guilds));
      && r == Parsed(JObj(ReadyData(file).value[ServersKey := JList(all)]))
      && ServerList(r.doc) == Some(all)
  {
  }

  /** An entry listed in either part is listed in the concatenation. */
  lemma ListedConcat(a: seq<Json>, b: seq<Json>, id: string)
    requires Listed(a, id) || Listed(b, id)
    ensures Listed(a + b, id)
  {
    if Listed(a, id) {
      var i :| 0 <= i < |a| && Tracks(a[i], id);
      assert (a + b)[i] == a[i];
    } else {
      var i :| 0 <= i < |b| && Tracks(b[i], id);
      assert (a + b)[|a| + i] == b[i];
    }
  }

  /** The entries recorded for some guilds track each of them. */
  lemma EntriesListed(gs: seq<Guild>, g: Guild)
    requires g in gs
    ensures Listed(Entries(gs), IntToString(g.id))
  {
    var k :| 0 <= k < |gs| && gs[k] == g;
    assert Tracks(Entries(gs)[k], IntToString(g.id));
  }

  /** When the merge runs to the end, a connected guild is tracked in the file afterwards. */
  lemma ReadyTracks(file: GuildFile, guilds: seq<Guild>, g: Guild)
    requires !ReadyAborts(file) && g in guilds
    ensures Ready(file, guilds).Parsed? && TrackedIn(Ready(file, guilds).doc, IntToString(g.id))
  {
    var es := ReadyEntries(file);
    var added := Appended(file, guilds);
    var id := IntToString(g.id);
    if |added| == 0 {
      assert Listed(es, id);
      InitialisedEntries(file);
    } else {
      AppendedShape(file, guilds);
      if !Listed(es, id) {
        EntriesListed(added, g);
      }
      ListedConcat(es, Entries(added), id);
    }
  }

  /** When the merge runs to the end, every connected guild is tracked in the file afterwards. */
  lemma ReadyTracksAll(file: GuildFile, guilds: seq<Guild>)
    requires !ReadyAborts(file)
    ensures forall g :: g in guilds ==> Ready(file, guilds).Parsed? && TrackedIn(Ready(file, guilds).doc, IntToString(g.id))
  {
    forall g | g in guilds
      ensures Ready(file, guilds).Parsed? && TrackedIn(Ready(file, guilds).doc, IntToString(g.id))
    {
      ReadyTracks(file, guilds, g);
    }
  }

  /** The file is rewritten exactly when some connected guild was untracked. */
  lemma ReadyWritesOnlyNew(file: GuildFile, guilds: seq<Guild>)
    requires !ReadyAborts(file)
    ensures |Appended(file, guilds)| > 0 <==> exists g :: g in guilds && !Listed(ReadyEntries(file), IntToString(g.id))
    ensures |Appended(file, guilds)| == 0 ==> Ready(file, guilds) == Initialised(file)
  {
  }

  /**
   * A rewritten file keeps every earlier entry, in order, before the new
   * ones, and keeps the document's other keys.
   */
  lemma ReadyKeepsEntries(file: GuildFile, guilds: seq<Guild>)
    requires |Appended(file, guilds)| > 0
    ensures var m := ReadyData(file).value;
      var es := ReadyEntries(file);
      var r := Ready(file, guilds);
      && r.Parsed? && r.doc.JObj?
      && r.doc.fields.Keys == m.Keys
      && (forall k :: k in m && k != ServersKey ==> r.doc.fields[k] == m[k])
      && ServerList(r.doc).Some?
      && |ServerList(r.doc).value| > |es|
      && ServerList(r.doc).value[..|es|] == es
  {
    var es := ReadyEntries(file);
    var m := ReadyData(file).value;
    var all := es + Entries(Appended(file, guilds));
    AppendedShape(file, guilds);
    MapUpdateKeeps(m, ServersKey, JList(all));
    assert all[..|es|] == es;
  }

  /** Replacing the value of a present key keeps the keys and every other value. */
  lemma MapUpdateKeeps(m: map<string, Json>, k: string, v: Json)
    requires k in m
    ensures m[k := v].Keys == m.Keys
    ensures forall k2 :: k2 in m && k2 != k ==> m[k := v][k2] == m[k2]
  {
  }

  /** A rewritten file reads back, without aborting, as the entries it was written with. */
  lemma ReadyReadsBack(file: GuildFile, guilds: seq<Guild>)
    requires |Appended(file, guilds)| > 0
    ensures Ready(file, guilds).Parsed?
    ensures !ReadyAborts(Ready(file, guilds))
    ensures ReadyEntries(Ready(file, guilds)) == ReadyEntries(file) + Entries(Appended(file, guilds))
  {
    var es := ReadyEntries(file);
    var all := es + Entries(Appended(file, guilds));
    AppendedShape(file, guilds);
    var m2 := ReadyData(file).value[ServersKey := JList(all)];
    ReadyDataOfList(m2);
    EntriesIds(Appended(file, guilds));
    KnownIdsAppend(es, Entries(Appended(file, guilds)));
  }

  /** An object whose `servers` is a list is read as it is. */
  lemma ReadyDataOfList(m: map<string, Json>)
    requires ServersKey in m && m[ServersKey].JList?
    ensures ReadyData(Parsed(JObj(m))) == Ok(m)
  {
  }

  /** After appending, the merged file tracks every guild, so a second merge appends nothing. */
  lemma ReadyAgainAppendsNothing(file: GuildFile, guilds: seq<Guild>)
    requires |Appended(file, guilds)| > 0
    ensures Ready(file, guilds).Parsed?
    ensures |Appended(Ready(file, guilds), guilds)| == 0
  {
    ReadyReadsBack(file, guilds);
    AppendedShape(file, guilds);
    ReadyTracksAll(file, guilds);
  }

  /** Without appended guilds, merging the initialised file changes nothing. */
  lemma ReadyOfInitialised(file: GuildFile, guilds: seq<Guild>)
    requires |Appended(file, guilds)| == 0
    ensures Ready(Initialised(file), guilds) == Initialised(file)
  {
    var init := Initialised(file);
    assert ReadyData(init) == ReadyData(file);
    assert Appended(init, guilds) == [];
  }

  /** Running the merge twice is running it once. */
  lemma ReadyIdempotent(file: GuildFile, guilds: seq<Guild>)
    ensures Ready(Ready(file, guilds), guilds) == Ready(file, guilds)
  {
    if |Appended(file, guilds)| > 0 {
      ReadyAgainAppendsNothing(file, guilds);
    } else {
      ReadyOfInitialised(file, guilds);
    }
  }
}

=== FILE: stat_links.dfy ===
/**
 * StatWrangler's profile links: the Valorant tracker link built from a Riot
 * id `name#1234` (modules/statwrangler/events/valorant/link_gen.py) and the
 * Fortnite tracker link (modules/statwrangler/events/fortnite/link_gen.py),
 * with the reply the `/game_stats` command builds from the Valorant one.
 */
module StatLinks {
  import opened Base
  import opened Text

  const ValorantPrefix: string := "https://tracker.gg/valorant/profile/riot/"
  const ValorantHash: string := "%23"
  const ValorantSuffix: string := "/overview"
  const FortnitePrefix: string := "https://fortnitetracker.com/profile/all/"

  /** The four characters after position `i` exist and are digits. */
  predicate CodeAt(s: string, i: int) {
    0 <= i && i + 5 <= |s| && AllDigits(s[i + 1..i + 5])
  }

  /**
   * `re.match(r"([^#]+)#(\d{4})", s)`: at least one non-`#` character from
   * the start, the first `#`, and four digits; the rest of the text is not
   * looked at. The groups are the name and the code.
   */
  function ParseRiotId(s: string): (r: Option<(string, string)>)
    ensures r.Some? <==> 1 <= IndexOf(s, '#') && CodeAt(s, IndexOf(s, '#'))
    ensures r.Some? ==> r.value.0 == s[..IndexOf(s, '#')] && r.value.1 == s[IndexOf(s, '#') + 1..IndexOf(s, '#') + 5]
  {
    var i := IndexOf(s, '#');
    if 1 <= i && CodeAt(s, i) then Some((s[..i], s[i + 1..i + 5])) else None
  }

  /** A non-empty name without `#`, then `#`, four digits and any rest, parses to that name and code. */
  lemma ParseRiotIdOf(name: string, code: string, rest: string)
    requires |name| > 0 && (forall j :: 0 <= j < |name| ==> name[j] != '#')
    requires |code| == 4 && AllDigits(code)
    ensures ParseRiotId(name + "#" + code + rest) == Some((name, code))
  {
    var s := name + "#" + code + rest;
    assert forall j :: 0 <= j < |name| ==> s[j] == name[j];
    assert s[|name|] == '#';
    assert IndexOf(s, '#') == |name|;
    assert s[..|name|] == name;
    assert s[|name| + 1..|name| + 5] == code;
  }

  /** Text that does not start with a name, a `#` and four digits does not parse. */
  lemma ParseRiotIdRejects(s: string)
    requires |s| == 0 || s[0] == '#' || (forall j :: 0 <= j < |s| ==> s[j] != '#')
    ensures ParseRiotId(s).None?
  {
    if |s| > 0 && s[0] == '#' {
      assert IndexOf(s, '#') == 0;
    }
  }

  /** What `generate_val_link` returns: the URL, or the tuple `(None, None, None)`. */
  datatype ValLink = ValUrl(url: string) | NoneTriple

  /** `generate_val_link`. */
  function GenerateValLink(s: string): (r: ValLink)
    ensures r.NoneTriple? <==> ParseRiotId(s).None?
  {
    match ParseRiotId(s)
    case None => NoneTriple
    case Some((name, code)) => ValUrl(ValorantPrefix + name + ValorantHash + code + ValorantSuffix)
  }

  /** A well-formed Riot id gives the tracker URL for exactly its name and code. */
  lemma ValLinkOf(name: string, code: string, rest: string)
    requires |name| > 0 && (forall j :: 0 <= j < |name| ==> name[j] != '#')
    requires |code| == 4 && AllDigits(code)
    ensures GenerateValLink(name + "#" + code + rest) == ValUrl(ValorantPrefix + name + ValorantHash + code + ValorantSuffix)
  {
    ParseRiotIdOf(name, code, rest);
  }

  /** `generate_link`: the Fortnite tracker URL, with the username neither checked nor escaped. */
  function GenerateLink(username: string): (url: string)
    ensures |url| == |FortnitePrefix| + |username|
    ensures url[..|FortnitePrefix|] == FortnitePrefix && url[|FortnitePrefix|..] == username
  {
    FortnitePrefix + username
  }

  /** Distinct usernames give distinct Fortnite URLs, and the URL is never empty. */
  lemma GenerateLinkInjective(a: string, b: string)
    ensures GenerateLink(a) != ""
    ensures GenerateLink(a) == GenerateLink(b) ==> a == b
  {
    assert |FortnitePrefix| > 0;
  }

  /** The `/game_stats` reply on the link path. */
  datatype LinkReply = LinkEmbed(value: string) | LinkFailed

  /** Python truthiness of what `generate_val_link` returns: a non-empty tuple is true. */
  predicate ValLinkTruthy(v: ValLink) {
    v.NoneTriple? || v.url != ""
  }

  /** `str()` of what `generate_val_link` returns, as the embed field shows it. */
  function ValLinkText(v: ValLink): string {
    match v
    case ValUrl(u) => u
    case NoneTriple => "(None, None, None)"
  }

  /**
   * The Valorant reply as the command is written: `if not url` cannot catch
   * the error tuple, so a malformed id is answered with a "link" reading
   * "(None, None, None)".
   */
  function ValorantReplyAsWritten(username: string): (r: LinkReply)
    ensures r.LinkEmbed?
  {
    var v := GenerateValLink(username);
    if !ValLinkTruthy(v) then LinkFailed else LinkEmbed(ValLinkText(v))
  }

  /** A malformed Riot id is answered with the text of the error tuple, never with the failure notice. */
  lemma ValorantReplyAsWrittenShowsTuple()
    ensures ValorantReplyAsWritten("player") == LinkEmbed("(None, None, None)")
  {
    ParseRiotIdRejects("player");
  }

  /** The Valorant reply as intended: the failure notice exactly for a malformed Riot id. */
  function ValorantReply(username: string): (r: LinkReply)
    ensures r.LinkFailed? <==> ParseRiotId(username).None?
    ensures r.LinkEmbed? ==> GenerateValLink(username) == ValUrl(r.value)
  {
    match GenerateValLink(username)
    case NoneTriple => LinkFailed
    case ValUrl(u) => LinkEmbed(u)
  }

  /** The intended reply and the written one agree on every well-formed Riot id. */
  lemma ValorantReplyAgrees(username: string)
    requires ParseRiotId(username).Some?
    ensures ValorantReply(username) == ValorantReplyAsWritten(username)
    ensures ValorantReply(username).value[..|ValorantPrefix|] == ValorantPrefix
  {
    var (name, code) := ParseRiotId(username).value;
    var u := ValorantPrefix + name + ValorantHash + code + ValorantSuffix;
    assert u[..|ValorantPrefix|] == ValorantPrefix;
  }

  /** The Fortnite reply: `generate_link` never returns a falsy value for a string, so the link is always sent. */
  function FortniteReply(username: string): (r: LinkReply)
    ensures r == LinkEmbed(GenerateLink(username))
  {
    var url := GenerateLink(username);
    if url == "" then LinkFailed else LinkEmbed(url)
  }
}

=== FILE: stream_auth.dfy ===
/**
 * The Twitch app-token cache of StreamSentinel (modules/streamsentinel/twitch_auth.py):
 * a token is reused until five minutes before it expires, otherwise a new
 * one is requested with the client credentials; Helix headers carry the
 * client id and the bearer token.
 *
 * The clock is the parameter `now` (integer seconds); the token request is
 * its outcome, passed in.
 */
module TwitchAuth {
  import opened Base

  /** `_TOKEN_CACHE`: the last token obtained and when it expires. */
  datatype TokenCache = TokenCache(token: Option<string>, exp: int)

  /** The cache at start-up: no token, expiry 0. */
  const EmptyCache: TokenCache := TokenCache(None, 0)

  /** A cached token is not reused within this many seconds of its expiry. */
  const ExpiryMargin: int := 300

  /**
   * The outcome of the token POST: a request error (including an HTTP error
   * status), or the JSON answer's `access_token` and `expires_in` (absent or null as `None`).
   */
  datatype TokenReply = RequestFailed | Reply(accessToken: Option<string>, expiresIn: Option<int>)

  /** What one call of `get_twitch_oauth_token` returns, the cache afterwards, and whether it posted a request. */
  datatype TokenStep = TokenStep(token: Option<string>, cache: TokenCache, requested: bool)

  const ClientIdVar: string := "TWITCH_CLIENT_ID"
  const ClientSecretVar: string := "TWITCH_CLIENT_SECRET"

  /** Both client credentials are set and non-empty. */
  predicate HasCredentials(env: Env) {
    Provided(env, ClientIdVar) && Provided(env, ClientSecretVar)
  }

  /** The cached token may be reused at `now`. */
  predicate Reusable(cache: TokenCache, now: int) {
    cache.token.Some? && cache.token.value != "" && now < cache.exp - ExpiryMargin
  }

  /** `int(expires_in or 0)`. */
  function Lifetime(expiresIn: Option<int>): (s: int)
    ensures expiresIn.None? ==> s == 0
    ensures expiresIn.Some? ==> s == expiresIn.value
  {
    expiresIn.GetOr(0)
  }

  /** `get_twitch_oauth_token`. */
  function GetToken(env: Env, cache: TokenCache, now: int, reply: TokenReply): (r: TokenStep)
    ensures r.requested <==> HasCredentials(env) && !Reusable(cache, now)
    ensures r.token.Some? ==> r.token.value != "" && r.cache.token == r.token
  {
    if !HasCredentials(env) then TokenStep(None, cache, false)
    else if Reusable(cache, now) then TokenStep(cache.token, cache, false)
    else match reply
      case RequestFailed => TokenStep(None, cache, true)
      case Reply(t, e) =>
        if t.Some? && t.value != "" then TokenStep(t, TokenCache(t, now + Lifetime(e)), true)
        else TokenStep(None, cache, true)
  }

  /** Missing credentials: no token, no request, cache untouched. */
  lemma NoCredentials(env: Env, cache: TokenCache, now: int, reply: TokenReply)
    requires !HasCredentials(env)
    ensures GetToken(env, cache, now, reply) == TokenStep(None, cache, false)
  {
  }

  /** A reusable token is returned as it is, whatever the token endpoint would say. */
  lemma ReuseValid(env: Env, cache: TokenCache, now: int, reply: TokenReply)
    requires HasCredentials(env) && Reusable(cache, now)
    ensures GetToken(env, cache, now, reply) == TokenStep(cache.token, cache, false)
  {
  }

  /**
   * A request is made, and then: a token in the answer is cached with expiry
   * `now + expires_in` (0 when absent); no token or a failed request leaves
   * the cache and returns `None`.
   */
  lemma Refresh(env: Env, cache: TokenCache, now: int, reply: TokenReply)
    requires HasCredentials(env) && !Reusable(cache, now)
    ensures var r := GetToken(env, cache, now, reply);
      && r.requested
      && (reply.Reply? && reply.accessToken.Some? && reply.accessToken.value != "" ==>
            r.token == reply.accessToken && r.cache == TokenCache(reply.accessToken, now + Lifetime(reply.expiresIn)))
      && (!(reply.Reply? && reply.accessToken.Some? && reply.accessToken.value != "") ==>
            r.token.None? && r.cache == cache)
  {
  }

  /**
   * A fresh token living longer than the margin is reused, with no request,
   * by every later call made before its expiry minus the margin.
   */
  lemma FreshTokenReused(env: Env, cache: TokenCache, now: int, reply: TokenReply, later: int, reply2: TokenReply)
    requires GetToken(env, cache, now, reply).requested && GetToken(env, cache, now, reply).token.Some?
    requires later < now + Lifetime(reply.expiresIn) - ExpiryMargin
    ensures var first := GetToken(env, cache, now, reply);
      GetToken(env, first.cache, later, reply2) == TokenStep(first.token, first.cache, false)
  {
  }

  /** A token whose lifetime is within the margin is never reused: every call requests anew. */
  lemma ShortLivedNotReused(env: Env, cache: TokenCache, now: int, reply: TokenReply, later: int, reply2: TokenReply)
    requires HasCredentials(env)
    requires GetToken(env, cache, now, reply).requested && GetToken(env, cache, now, reply).token.Some?
    requires Lifetime(reply.expiresIn) <= ExpiryMargin && later >= now
    ensures GetToken(env, GetToken(env, cache, now, reply).cache, later, reply2).requested
  {
  }

  const BearerPrefix: string := "Bearer "

  /** `twitch_headers`: the Helix headers, with the cache after the token lookup. */
  function TwitchHeaders(env: Env, cache: TokenCache, now: int, reply: TokenReply)
    : (r: (Option<map<string, string>>, TokenCache))
    ensures r.1 == GetToken(env, cache, now, reply).cache
  {
    var step := GetToken(env, cache, now, reply);
    if !Provided(env, ClientIdVar) || step.token.None? then (None, step.cache)
    else (Some(map["Client-ID" := env[ClientIdVar], "Authorization" := BearerPrefix + step.token.value]), step.cache)
  }

  /**
   * Headers exist exactly when a token was obtained; they are then exactly
   * the client id and a bearer authorisation from which the token reads back.
   */
  lemma HeadersSpec(env: Env, cache: TokenCache, now: int, reply: TokenReply)
    ensures var h := TwitchHeaders(env, cache, now, reply).0;
      var t := GetToken(env, cache, now, reply).token;
      && (h.Some? <==> t.Some?)
      && (h.Some? ==>
            && h.value.Keys == {"Client-ID", "Authorization"}
            && h.value["Client-ID"] == env[ClientIdVar]
            && |h.value["Authorization"]| > |BearerPrefix|
            && h.value["Authorization"][..|BearerPrefix|] == BearerPrefix
            && h.value["Authorization"][|BearerPrefix|..] == t.value)
  {
    var t := GetToken(env, cache, now, reply).token;
    if t.Some? {
      var a := BearerPrefix + t.value;
      assert a[..|BearerPrefix|] == BearerPrefix;
      assert a[|BearerPrefix|..] == t.value;
    }
  }
}

=== FILE: stream_env.dfy ===
/**
 * StreamSentinel's start-up settings (modules/streamsentinel/env_check.py):
 * four required variables, a channel id that must be an integer, and a
 * time zone and poll interval with defaults.
 */
module StreamEnv {
  import opened Base
  import opened Text
  import opened Seqs

  datatype EnvConfig = EnvConfig(
    discordToken: string,
    discordChannelId: int,
    twitchClientId: string,
    twitchClientSecret: string,
    timezone: string,
    pollSeconds: int)

  const DefaultTimezone: string := "America/Chicago"
  const DefaultPollSeconds: int := 60

  /** The required variables, in the order a missing one is reported. */
  const RequiredNames: seq<string> := ["DISCORD_TOKEN", "DISCORD_CHANNEL_ID", "TWITCH_CLIENT_ID", "TWITCH_CLIENT_SECRET"]

  /**
   * What `get_env_vars` returns: the configuration, or `None` after logging
   * either the missing variables or a bad channel id.
   */
  datatype EnvOutcome = Loaded(cfg: EnvConfig) | MissingVars(names: seq<string>) | ChannelNotAnInt(value: string)

  /** The exception `get_env_vars` lets escape: `int()` of a non-integer `POLL_SECONDS`. */
  datatype EnvError = PollSecondsNotAnInt(value: string)

  /** The names among `names` that are unset or empty, in the order of `names`. */
  function MissingOf(env: Env, names: seq<string>): (r: seq<string>)
    ensures |r| <= |names|
    ensures forall n :: n in r <==> n in names && !Provided(env, n)
  {
    if |names| == 0 then []
    else (if Provided(env, names[0]) then [] else [names[0]]) + MissingOf(env, names[1..])
  }

  /** The missing names come in the fixed order of `names`. */
  lemma {:induction false} MissingInOrder(env: Env, names: seq<string>)
    ensures Subsequence(MissingOf(env, names), names)
    decreases |names|
  {
    if |names| > 0 {
      MissingInOrder(env, names[1..]);
      var rest := MissingOf(env, names[1..]);
      if !Provided(env, names[0]) {
        assert MissingOf(env, names) == [names[0]] + rest;
        assert ([names[0]] + rest)[1..] == rest;
      } else {
        assert MissingOf(env, names) == rest;
        assert |rest| > 0 ==> rest[0] in rest;
      }
    }
  }

  /** All four required variables are set and non-empty. */
  predicate AllProvided(env: Env) {
    Provided(env, "DISCORD_TOKEN") && Provided(env, "DISCORD_CHANNEL_ID")
    && Provided(env, "TWITCH_CLIENT_ID") && Provided(env, "TWITCH_CLIENT_SECRET")
  }

  /** Nothing is reported missing exactly when all four are provided. */
  lemma NoneMissing(env: Env)
    ensures |MissingOf(env, RequiredNames)| == 0 <==> AllProvided(env)
  {
    assert RequiredNames[0] in RequiredNames && RequiredNames[1] in RequiredNames;
    assert RequiredNames[2] in RequiredNames && RequiredNames[3] in RequiredNames;
    var m := MissingOf(env, RequiredNames);
    assert |m| > 0 ==> m[0] in m;
  }

  /** `os.getenv(name, default)`: an empty value is kept, only an unset variable takes the default. */
  function GetEnvOr(env: Env, name: string, default: string): (r: string)
    ensures name in env ==> r == env[name]
    ensures name !in env ==> r == default
  {
    GetEnv(env, name).GetOr(default)
  }

  /**
   * `get_env_vars`. `POLL_SECONDS` is parsed first and outside the `try`,
   * so a bad value raises before anything else is checked.
   */
  function GetEnvVars(env: Env): (r: Result<EnvOutcome, EnvError>)
    ensures r.Err? <==> ParseInt(GetEnvOr(env, "POLL_SECONDS", "60")).None?
    ensures r.Ok? && r.value.MissingVars? ==> |r.value.names| > 0
    ensures r.Ok? ==> (r.value.MissingVars? <==> !AllProvided(env))
    ensures r.Ok? && r.value.MissingVars? ==> r.value.names == MissingOf(env, RequiredNames)
    ensures r.Ok? && r.value.ChannelNotAnInt? ==> ParseInt(env["DISCORD_CHANNEL_ID"]).None?
    ensures r.Ok? && r.value.Loaded? ==>
      && AllProvided(env)
      && r.value.cfg.discordToken == env["DISCORD_TOKEN"]
      && Some(r.value.cfg.discordChannelId) == ParseInt(env["DISCORD_CHANNEL_ID"])
      && r.value.cfg.twitchClientId == env["TWITCH_CLIENT_ID"]
      && r.value.cfg.twitchClientSecret == env["TWITCH_CLIENT_SECRET"]
      && r.value.cfg.timezone == GetEnvOr(env, "TIMEZONE", DefaultTimezone)
      && Some(r.value.cfg.pollSeconds) == ParseInt(GetEnvOr(env, "POLL_SECONDS", "60"))
  {
    var pollText := GetEnvOr(env, "POLL_SECONDS", "60");
    match ParseInt(pollText)
    case None => Err(PollSecondsNotAnInt(pollText))
    case Some(poll) =>
      var missing := MissingOf(env, RequiredNames);
      NoneMissing(env);
      if |missing| > 0 then
        Ok(MissingVars(missing))
      else
        match ParseInt(env["DISCORD_CHANNEL_ID"])
        case None => Ok(ChannelNotAnInt(env["DISCORD_CHANNEL_ID"]))
        case Some(channel) =>
          Ok(Loaded(EnvConfig(env["DISCORD_TOKEN"], channel, env["TWITCH_CLIENT_ID"], env["TWITCH_CLIENT_SECRET"],
            GetEnvOr(env, "TIMEZONE", DefaultTimezone), poll)))
  }

  /** Python's `None` result. */
  predicate IsNone(o: EnvOutcome) {
    !o.Loaded?
  }

  /** The default `POLL_SECONDS` text is how Python prints the default interval. */
  lemma DefaultPollText()
    ensures IntToString(DefaultPollSeconds) == "60"
  {
    assert NatToString(6) == "6";
    assert NatToString(60) == NatToString(6) + [DigitChar(0)];
  }

  /** With neither optional variable set, the time zone and poll interval take their defaults. */
  lemma Defaults(env: Env)
    requires "TIMEZONE" !in env && "POLL_SECONDS" !in env
    requires GetEnvVars(env).Ok? && GetEnvVars(env).value.Loaded?
    ensures GetEnvVars(env).value.cfg.timezone == DefaultTimezone
    ensures GetEnvVars(env).value.cfg.pollSeconds == DefaultPollSeconds
  {
    DefaultPollText();
    ParseIntOfIntToString(60);
  }

  /** The variables a configuration is read back from, ids and interval written as Python prints them. */
  function EnvOf(cfg: EnvConfig): (env: Env)
    ensures forall n :: n in RequiredNames ==> n in env
  {
    map["DISCORD_TOKEN" := cfg.discordToken,
        "DISCORD_CHANNEL_ID" := IntToString(cfg.discordChannelId),
        "TWITCH_CLIENT_ID" := cfg.twitchClientId,
        "TWITCH_CLIENT_SECRET" := cfg.twitchClientSecret,
        "TIMEZONE" := cfg.timezone,
        "POLL_SECONDS" := IntToString(cfg.pollSeconds)]
  }

  /** Every configuration with non-empty credentials is read back unchanged. */
  lemma GetEnvVarsRoundTrip(cfg: EnvConfig)
    requires cfg.discordToken != "" && cfg.twitchClientId != "" && cfg.twitchClientSecret != ""
    ensures GetEnvVars(EnvOf(cfg)) == Ok(Loaded(cfg))
  {
    var env := EnvOf(cfg);
    assert env["DISCORD_TOKEN"] == cfg.discordToken;
    assert env["DISCORD_CHANNEL_ID"] == IntToString(cfg.discordChannelId);
    assert env["TWITCH_CLIENT_ID"] == cfg.twitchClientId;
    assert env["TWITCH_CLIENT_SECRET"] == cfg.twitchClientSecret;
    assert GetEnvOr(env, "TIMEZONE", DefaultTimezone) == cfg.timezone;
    assert GetEnvOr(env, "POLL_SECONDS", "60") == IntToString(cfg.pollSeconds);
    ParseIntOfIntToString(cfg.discordChannelId);
    ParseIntOfIntToString(cfg.pollSeconds);
    NoneMissing(env);
  }
}

=== FILE: stream_list.dfy ===
/**
 * The StreamSentinel streamer list (modules/streamsentinel/streamer_list_loader.py):
 * one Twitch login per line, `#` starting a comment, blank lines skipped,
 * logins lower-cased and de-duplicated with the first occurrence kept.
 */
module StreamerList {
  import opened Base
  import opened Text
  import opened Seqs

  /** The login a line contributes: the text before any `#`, stripped and lower-cased ("" for none). */
  function LineKey(line: string): string {
    Lower(Strip(Before(line, '#')))
  }

  /** The non-empty keys of the lines, in file order, before de-duplication. */
  function NonEmptyKeys(lines: seq<string>, key: string -> string): (ks: seq<string>)
    decreases |lines|
  {
    if |lines| == 0 then []
    else
      var k := key(lines[|lines| - 1]);
      if k == "" then NonEmptyKeys(lines[..|lines| - 1], key) else NonEmptyKeys(lines[..|lines| - 1], key) + [k]
  }

  /** The non-empty line keys of the file. */
  function LineKeys(lines: seq<string>): seq<string> {
    NonEmptyKeys(lines, LineKey)
  }

  /** The identity, as the de-duplication key of a login. */
  function Self(s: string): string { s }

  /** What `load_streamers` returns for the lines of the file: the first occurrence of each key, in order. */
  function Streamers(lines: seq<string>): seq<string> {
    KeepFirst(LineKeys(lines), Self)
  }

  /** A login as the loader hands it out. */
  predicate WellFormedLogin(k: string) {
    k != "" && IsLower(k) && (forall i :: 0 <= i < |k| ==> k[i] != '#') && Strip(k) == k
  }

  /** Every non-empty line key is lower-case, has no `#`, and has no surrounding whitespace. */
  lemma LineKeyShape(line: string)
    ensures LineKey(line) != "" ==> WellFormedLogin(LineKey(line))
  {
    LineKeyLower(line);
    LineKeyNoHash(line);
    LineKeyStripped(line);
  }

  lemma LineKeyLower(line: string)
    ensures IsLower(LineKey(line))
  {
    LowerIsLower(Strip(Before(line, '#')));
  }

  lemma LineKeyNoHash(line: string)
    ensures forall i :: 0 <= i < |LineKey(line)| ==> LineKey(line)[i] != '#'
  {
    var t := Strip(Before(line, '#'));
    StripNoHash(Before(line, '#'));
    assert forall j :: 0 <= j < |t| ==> Lower(t)[j] == LowerChar(t[j]);
  }

  /** Stripping adds no `#`. */
  lemma StripNoHash(b: string)
    requires forall j :: 0 <= j < |b| ==> b[j] != '#'
    ensures forall j :: 0 <= j < |Strip(b)| ==> Strip(b)[j] != '#'
  {
    var t := Strip(b);
    var i :| SliceAt(b, t, i);
    assert forall j :: 0 <= j < |t| ==> t[j] == b[i + j];
  }

  lemma LineKeyStripped(line: string)
    ensures Strip(LineKey(line)) == LineKey(line)
  {
    StripLower(Strip(Before(line, '#')));
    StripIdempotent(Before(line, '#'));
  }

  /** Every key collected is non-empty and is the key of some line; there are no more keys than lines. */
  lemma {:induction false} NonEmptyKeysFrom(lines: seq<string>, key: string -> string)
    ensures |NonEmptyKeys(lines, key)| <= |lines|
    ensures forall k :: k in NonEmptyKeys(lines, key) ==> k != "" && exists j :: 0 <= j < |lines| && key(lines[j]) == k
    decreases |lines|
  {
    if |lines| > 0 {
      var init := lines[..|lines| - 1];
      NonEmptyKeysFrom(init, key);
      assert forall j :: 0 <= j < |init| ==> lines[j] == init[j];
    }
  }

  /** Every line with a non-empty key contributes it. */
  lemma {:induction false} NonEmptyKeysComplete(lines: seq<string>, key: string -> string)
    ensures forall j :: 0 <= j < |lines| && key(lines[j]) != "" ==> key(lines[j]) in NonEmptyKeys(lines, key)
    decreases |lines|
  {
    if |lines| > 0 {
      var init := lines[..|lines| - 1];
      NonEmptyKeysComplete(init, key);
      assert forall j :: 0 <= j < |init| ==> lines[j] == init[j];
    }
  }

  lemma NonEmptyKeysSnoc(lines: seq<string>, i: int, key: string -> string)
    requires 0 <= i < |lines|
    ensures key(lines[i]) == "" ==> NonEmptyKeys(lines[..i + 1], key) == NonEmptyKeys(lines[..i], key)
    ensures key(lines[i]) != "" ==> NonEmptyKeys(lines[..i + 1], key) == NonEmptyKeys(lines[..i], key) + [key(lines[i])]
  {
    assert lines[..i + 1][..i] == lines[..i];
  }

  lemma KeysOfSelf(ks: seq<string>)
    ensures KeysOf(ks, Self) == ks
  {
  }

  /**
   * `load_streamers`: a missing file gives `[]`; otherwise the lines are
   * read one by one, and a key not yet seen is appended.
   */
  method LoadStreamers(file: Option<seq<string>>) returns (out: seq<string>)
    ensures file.None? ==> out == []
    ensures file.Some? ==> out == Streamers(file.value)
  {
    if file.None? {
      return [];
    }
    var lines := file.value;
    out := [];
    var seen: set<string> := {};
    var i := 0;
    while i < |lines|
      invariant 0 <= i <= |lines|
      invariant out == KeepFirst(LineKeys(lines[..i]), Self)
      invariant forall k :: k in seen <==> k in LineKeys(lines[..i])
    {
      var key := LineKey(lines[i]);
      NonEmptyKeysSnoc(lines, i, LineKey);
      if key != "" {
        KeepFirstAppend(LineKeys(lines[..i]), key, Self);
        KeysOfSelf(LineKeys(lines[..i]));
        if key !in seen {
          seen := seen + {key};
          out := out + [key];
        }
      }
      i := i + 1;
    }
    assert lines[..i] == lines;
  }

  /**
   * The properties the loader promises: entries are well-formed logins,
   * pairwise distinct, each the first occurrence of its key in file order,
   * every non-empty line key is present, and there are at most as many
   * entries as lines.
   */
  lemma StreamersSpec(lines: seq<string>)
    ensures var out := Streamers(lines);
      && |out| <= |lines|
      && (forall k :: k in out ==> WellFormedLogin(k))
      && (forall i, j :: 0 <= i < j < |out| ==> out[i] != out[j])
      && (forall j :: 0 <= j < |lines| && LineKey(lines[j]) != "" ==> LineKey(lines[j]) in out)
      && (forall k :: k in out <==> k in LineKeys(lines))
  {
    var ks := LineKeys(lines);
    var out := Streamers(lines);
    NonEmptyKeysFrom(lines, LineKey);
    NonEmptyKeysComplete(lines, LineKey);
    forall k | k in ks
      ensures WellFormedLogin(k)
    {
      var j :| 0 <= j < |lines| && LineKey(lines[j]) == k;
      LineKeyShape(lines[j]);
    }
    KeepFirstLength(ks, Self);
    KeepFirstOrder(ks, Self);
    KeepFirstKeys(ks, Self);
    assert KeysOf(out, Self) == out;
    assert KeysOf(ks, Self) == ks;
  }

  lemma {:induction false} NonEmptyKeysConcat(a: seq<string>, b: seq<string>, key: string -> string)
    ensures NonEmptyKeys(a + b, key) == NonEmptyKeys(a, key) + NonEmptyKeys(b, key)
    decreases |b|
  {
    if |b| == 0 {
      assert a + b == a;
    } else {
      assert (a + b)[..|a + b| - 1] == a + b[..|b| - 1];
      assert (a + b)[|a + b| - 1] == b[|b| - 1];
      NonEmptyKeysConcat(a, b[..|b| - 1], key);
    }
  }

  lemma {:induction false} RepeatsIgnored(lines: seq<string>, extra: seq<string>, key: string -> string)
    requires forall j :: 0 <= j < |extra| ==> key(extra[j]) == "" || key(extra[j]) in NonEmptyKeys(lines, key)
    ensures KeepFirst(NonEmptyKeys(lines + extra, key), Self) == KeepFirst(NonEmptyKeys(lines, key), Self)
    decreases |extra|
  {
    if |extra| == 0 {
      assert lines + extra == lines;
    } else {
      var e := extra[..|extra| - 1];
      var x := extra[|extra| - 1];
      RepeatsIgnored(lines, e, key);
      assert lines + extra == (lines + e) + [x];
      NonEmptyKeysConcat(lines + e, [x], key);
      NonEmptyKeysConcat(lines, e, key);
      var ks := NonEmptyKeys(lines + e, key);
      assert [x][..0] == [];
      if key(x) != "" {
        assert NonEmptyKeys([x], key) == [key(x)];
        assert key(x) in ks;
        assert KeysOf(ks, Self) == ks;
        KeepFirstAppend(ks, key(x), Self);
      } else {
        assert NonEmptyKeys([x], key) == [];
        assert ks + [] == ks;
      }
    }
  }

  /**
   * Appending lines that are blank, comments, or repeat a login already
   * listed (in any letter case) leaves the streamer list as it was.
   */
  lemma RepeatsAndBlanksIgnored(lines: seq<string>, extra: seq<string>)
    requires forall j :: 0 <= j < |extra| ==> LineKey(extra[j]) == "" || LineKey(extra[j]) in LineKeys(lines)
    ensures Streamers(lines + extra) == Streamers(lines)
  {
    RepeatsIgnored(lines, extra, LineKey);
  }
}

=== FILE: stream_status.dfy ===
/**
 * The Twitch Helix side of StreamSentinel
 * (modules/streamsentinel/twitch_stream_status.py): request batching,
 * resolution of streamer identifiers to logins, the hours-and-minutes
 * duration text, and the live "stream cards".
 *
 * Helix answers are passed in: the `data` list of a response (`[]` when the
 * request failed), with the fields the code reads as optional strings.
 */
module TwitchStatus {
  import opened Base
  import opened Text
  import opened Seqs

  /** The most logins one users or streams request carries. */
  const HelixBatch: nat := 100

  // ---------------------------------------------------------------- requests

  /** The logins `get_users`/`get_streams` put in the request: none for an empty list, else the first 100. */
  function BatchLogins(logins: seq<string>): (q: Option<seq<string>>)
    ensures q.None? <==> |logins| == 0
    ensures q.Some? ==> |q.value| <= HelixBatch && q.value <= logins
    ensures q.Some? ==> |q.value| == if |logins| < HelixBatch then |logins| else HelixBatch
  {
    if |logins| == 0 then None
    else if |logins| <= HelixBatch then Some(logins)
    else Some(logins[..HelixBatch])
  }

  /** The ids `get_games_by_ids` asks for: each distinct id once, and no request for an empty list. */
  function GameIdsQuery(ids: seq<string>): (q: Option<set<string>>)
    ensures q.None? <==> |ids| == 0
    ensures q.Some? ==> forall g :: g in q.value <==> g in ids
  {
    if |ids| == 0 then None else Some(set i | i in ids)
  }

  // ---------------------------------------------------------------- resolving identifiers

  /** A `/users` record: its `login` field, when present. */
  datatype HelixUser = HelixUser(login: Option<string>)

  /** A `/search/channels` record: its `display_name` and `broadcaster_login`, when present. */
  datatype SearchChannel = SearchChannel(displayName: Option<string>, broadcasterLogin: Option<string>)

  /** Python `a or b` for an optional string: `a` when present and non-empty. */
  function OrElse(a: Option<string>, b: string): (r: string)
    ensures a.Some? && a.value != "" ==> r == a.value
    ensures !(a.Some? && a.value != "") ==> r == b
  {
    if a.Some? && a.value != "" then a.value else b
  }

  /** The first search result whose display name, lower-cased, equals `lowered`. */
  function ExactMatch(results: seq<SearchChannel>, lowered: string): (r: Option<nat>)
    ensures r.Some? ==> r.value < |results| && Lower(results[r.value].displayName.GetOr("")) == lowered
    ensures r.Some? ==> forall j :: 0 <= j < r.value ==> Lower(results[j].displayName.GetOr("")) != lowered
    ensures r.None? ==> forall j :: 0 <= j < |results| ==> Lower(results[j].displayName.GetOr("")) != lowered
  {
    if |results| == 0 then None
    else if Lower(results[0].displayName.GetOr("")) == lowered then Some(0)
    else match ExactMatch(results[1..], lowered)
      case None => None
      case Some(j) => Some(j + 1)
  }

  /**
   * One identifier: the users lookup of its lower-cased form first, taking
   * the returned login (or the lowered identifier); otherwise the search,
   * preferring an exact display-name match over the first result. `None`
   * when neither finds anything. `search_channels` sends no request for an
   * empty query.
   */
  function ResolveOne(raw: string, usersFor: string -> seq<HelixUser>, searchFor: string -> seq<SearchChannel>)
    : (r: Option<string>)
  {
    var candidate := Lower(raw);
    var users := usersFor(candidate);
    if |users| > 0 then Some(Lower(OrElse(users[0].login, candidate)))
    else
      var results := if raw == "" then [] else searchFor(raw);
      if |results| == 0 then None
      else
        var chosen := match ExactMatch(results, candidate) case Some(j) => results[j] case None => results[0];
        Some(Lower(OrElse(chosen.broadcasterLogin, OrElse(chosen.displayName, candidate))))
  }

  /** What `ResolveOne` promises: lower-case logins, found exactly when a lookup returns something. */
  lemma ResolveOneSpec(raw: string, usersFor: string -> seq<HelixUser>, searchFor: string -> seq<SearchChannel>)
    ensures var r := ResolveOne(raw, usersFor, searchFor);
      && (r.Some? ==> IsLower(r.value))
      && (r.None? <==> |usersFor(Lower(raw))| == 0 && (raw == "" || |searchFor(raw)| == 0))
      && (|usersFor(Lower(raw))| > 0 && usersFor(Lower(raw))[0].login.Some? && usersFor(Lower(raw))[0].login.value != "" ==>
            r == Some(Lower(usersFor(Lower(raw))[0].login.value)))
      && (|usersFor(Lower(raw))| > 0 && !(usersFor(Lower(raw))[0].login.Some? && usersFor(Lower(raw))[0].login.value != "") ==>
            r == Some(Lower(raw)))
  {
    var users := usersFor(Lower(raw));
    if |users| > 0 {
      LowerIsLower(OrElse(users[0].login, Lower(raw)));
      LowerIsLower(raw);
    } else if raw != "" && |searchFor(raw)| > 0 {
      var results := searchFor(raw);
      var chosen := match ExactMatch(results, Lower(raw)) case Some(j) => results[j] case None => results[0];
      LowerIsLower(OrElse(chosen.broadcasterLogin, OrElse(chosen.displayName, Lower(raw))));
    }
  }

  /** An identifier paired with the login it resolved to. */
  type Resolution = (string, string)

  function Ident(p: Resolution): string { p.0 }
  function Login(p: Resolution): string { p.1 }

  /** `out` before de-duplication: every identifier that resolved, with its login, in input order. */
  function Resolutions(ids: seq<string>, usersFor: string -> seq<HelixUser>, searchFor: string -> seq<SearchChannel>)
    : (rs: seq<Resolution>)
    ensures forall p :: p in rs ==> p.0 in ids && ResolveOne(p.0, usersFor, searchFor) == Some(p.1)
    ensures forall raw :: raw in ids && ResolveOne(raw, usersFor, searchFor).Some? ==>
      (raw, ResolveOne(raw, usersFor, searchFor).value) in rs
    decreases |ids|
  {
    if |ids| == 0 then []
    else
      var rest := Resolutions(ids[1..], usersFor, searchFor);
      match ResolveOne(ids[0], usersFor, searchFor)
      case None => rest
      case Some(v) => [(ids[0], v)] + rest
  }

  /**
   * `resolve_to_logins`: the dict `out` keeps one entry per identifier in
   * first-insertion order (a repeated identifier resolves the same way and
   * only rewrites its entry); then the first identifier of each login is kept.
   */
  function ResolveToLogins(ids: seq<string>, usersFor: string -> seq<HelixUser>, searchFor: string -> seq<SearchChannel>)
    : seq<Resolution>
  {
    KeepFirst(KeepFirst(Resolutions(ids, usersFor, searchFor), Ident), Login)
  }

  /**
   * What `resolve_to_logins` returns: logins are lower-case and pairwise
   * distinct, so are identifiers; every pair is a resolution of one of the
   * identifiers; every login some identifier resolves to is present; and
   * each pair is the first resolution (in input order) giving its login.
   */
  lemma ResolveToLoginsSpec(ids: seq<string>, usersFor: string -> seq<HelixUser>, searchFor: string -> seq<SearchChannel>)
    ensures var out := ResolveToLogins(ids, usersFor, searchFor);
      var rs := Resolutions(ids, usersFor, searchFor);
      && (forall p :: p in out ==> p.0 in ids && ResolveOne(p.0, usersFor, searchFor) == Some(p.1) && IsLower(p.1))
      && (forall i, j :: 0 <= i < j < |out| ==> out[i].1 != out[j].1 && out[i].0 != out[j].0)
      && (forall raw :: raw in ids && ResolveOne(raw, usersFor, searchFor).Some? ==>
            ResolveOne(raw, usersFor, searchFor).value in KeysOf(out, Login))
      && (forall p :: p in out ==> FirstOfKey(rs, Login, p))
  {
    var rs := Resolutions(ids, usersFor, searchFor);
    var via := (k: string) => ResolveOne(k, usersFor, searchFor).GetOr("");
    assert forall p :: p in rs ==> Login(p) == via(Ident(p));
    KeepFirstCoarser(rs, Ident, Login, via);
    var out := KeepFirst(rs, Login);
    KeepFirstOrigin(rs, Login);
    KeepFirstOrder(rs, Login);
    KeepFirstCovers(rs, Login);
    forall p | p in out
      ensures p in rs && IsLower(p.1)
    {
      var i :| 0 <= i < |out| && out[i] == p;
      assert FirstOfKey(rs, Login, out[i]);
      ResolveOneSpec(p.0, usersFor, searchFor);
    }
    forall i, j | 0 <= i < j < |out|
      ensures out[i].0 != out[j].0
    {
      assert out[i] in out && out[j] in out;
      assert FirstOfKey(rs, Login, out[i]) && FirstOfKey(rs, Login, out[j]);
    }
    forall raw | raw in ids && ResolveOne(raw, usersFor, searchFor).Some?
      ensures ResolveOne(raw, usersFor, searchFor).value in KeysOf(out, Login)
    {
      assert (raw, ResolveOne(raw, usersFor, searchFor).value) in rs;
    }
  }

  /** `id_to_login[s]` for an association list: the login paired with the first matching identifier. */
  function LookupLogin(table: seq<Resolution>, s: string): (r: Option<string>)
    ensures r.Some? <==> exists i :: 0 <= i < |table| && table[i].0 == s
    ensures r.Some? ==> (s, r.value) in table
  {
    if |table| == 0 then None
    else if table[0].0 == s then Some(table[0].1)
    else LookupLogin(table[1..], s)
  }

  /** `[id_to_login[s] for s in streamers if s in id_to_login]`: resolved logins in streamer-list order. */
  function ResolvedLogins(streamers: seq<string>, table: seq<Resolution>): (logins: seq<string>)
    ensures |logins| <= |streamers|
    ensures forall l :: l in logins ==> exists s :: s in streamers && (s, l) in table
    ensures forall s :: s in streamers && LookupLogin(table, s).Some? ==> LookupLogin(table, s).value in logins
  {
    if |streamers| == 0 then []
    else
      var rest := ResolvedLogins(streamers[1..], table);
      match LookupLogin(table, streamers[0])
      case None => rest
      case Some(l) => [l] + rest
  }

  // ---------------------------------------------------------------- durations

  /**
   * The whole minutes of a duration in seconds, split by `divmod(minutes, 60)`.
   * Python's `//` and `divmod` floor, as Dafny's division does for a positive divisor.
   */
  function HoursMinutes(seconds: int): (hm: (int, int))
    ensures 0 <= hm.1 < 60
    ensures 60 * hm.0 + hm.1 == seconds / 60
    ensures 60 * (60 * hm.0 + hm.1) <= seconds < 60 * (60 * hm.0 + hm.1) + 60
  {
    var minutes := seconds / 60;
    (minutes / 60, minutes % 60)
  }

  /** The text of a duration of `h` hours and `m` minutes: "Xh Ym", or "Ym" for no hours. */
  function HmText(h: int, m: int): string {
    if h != 0 then IntToString(h) + "h " + IntToString(m) + "m" else IntToString(m) + "m"
  }

  /** `duration_hm` for a duration in seconds. */
  function DurationHm(seconds: int): string {
    var hm := HoursMinutes(seconds);
    HmText(hm.0, hm.1)
  }

  /** Reads "Xh Ym" or "Ym" back to whole minutes, numbers read with `parse`. */
  function ReadDurationWith(s: string, parse: string -> Option<int>): Option<int> {
    if |s| == 0 || s[|s| - 1] != 'm' then None
    else
      var body := s[..|s| - 1];
      var i := IndexOf(body, 'h');
      if i == |body| then parse(body)
      else
        var h := parse(body[..i]);
        var m := parse(body[i + 1..]);
        if h.Some? && m.Some? then Some(60 * h.value + m.value) else None
  }

  /** Reads a duration text back to whole minutes with Python's `int()`. */
  function ReadDuration(s: string): Option<int> {
    ReadDurationWith(s, ParseInt)
  }

  lemma ParseIntSameStrip(a: string, b: string)
    requires Strip(a) == Strip(b)
    ensures ParseInt(a) == ParseInt(b)
  {
  }

  /** A leading space does not change what `int()` reads. */
  lemma ParseIntSpaced(ms: string)
    ensures ParseInt(" " + ms) == ParseInt(ms)
  {
    assert AllSpace(" ") && AllSpace("");
    StripPadded(" ", ms, "");
    assert " " + ms + "" == " " + ms;
    ParseIntSameStrip(" " + ms, ms);
  }

  lemma IntToStringShape(i: int)
    ensures forall j :: 0 <= j < |IntToString(i)| ==> IntToString(i)[j] != 'h' && !IsSpace(IntToString(i)[j])
  {
    var s := IntToString(i);
    if i < 0 {
      assert forall j :: 1 <= j < |s| ==> s[j] == s[1..][j - 1];
    }
  }

  /** "Xh Ym" reads as 60·X + Y minutes when X has no `h` and both numbers parse. */
  lemma ReadHoursText(hs: string, ms: string, h: int, m: int, parse: string -> Option<int>)
    requires forall j :: 0 <= j < |hs| ==> hs[j] != 'h'
    requires parse(hs) == Some(h) && parse(" " + ms) == Some(m)
    ensures ReadDurationWith(hs + "h " + ms + "m", parse) == Some(60 * h + m)
  {
    var s := hs + "h " + ms + "m";
    var body := hs + "h " + ms;
    assert s[..|s| - 1] == body;
    assert body[|hs|] == 'h';
    assert forall j :: 0 <= j < |hs| ==> body[j] == hs[j];
    assert IndexOf(body, 'h') == |hs|;
    assert body[..|hs|] == hs;
    assert body[|hs| + 1..] == " " + ms;
  }

  /** "Ym" reads as Y minutes when Y has no `h` and parses. */
  lemma ReadMinutesText(ms: string, m: int, parse: string -> Option<int>)
    requires forall j :: 0 <= j < |ms| ==> ms[j] != 'h'
    requires parse(ms) == Some(m)
    ensures ReadDurationWith(ms + "m", parse) == Some(m)
  {
    var s := ms + "m";
    assert s[..|s| - 1] == ms;
    assert IndexOf(ms, 'h') == |ms|;
  }

  /** Any reader that reads back Python's printed integers reads back `HmText`. */
  lemma HmTextRoundTripWith(h: int, m: int, minutes: int, parse: string -> Option<int>)
    requires minutes == 60 * h + m
    requires parse(IntToString(h)) == Some(h)
    requires parse(IntToString(m)) == Some(m) && parse(" " + IntToString(m)) == Some(m)
    ensures ReadDurationWith(HmText(h, m), parse) == Some(minutes)
  {
    var hs, ms := IntToString(h), IntToString(m);
    if h != 0 {
      IntToStringShape(h);
      assert HmText(h, m) == hs + "h " + ms + "m";
      ReadHoursText(hs, ms, h, m, parse);
    } else {
      IntToStringShape(m);
      assert HmText(h, m) == ms + "m";
      ReadMinutesText(ms, m, parse);
    }
  }

  /** The duration text gives back the whole minutes of the duration. */
  lemma DurationRoundTrip(seconds: int)
    ensures ReadDuration(DurationHm(seconds)) == Some(seconds / 60)
  {
    var hm := HoursMinutes(seconds);
    ParseIntOfIntToString(hm.0);
    ParseIntOfIntToString(hm.1);
    ParseIntSpaced(IntToString(hm.1));
    HmTextRoundTripWith(hm.0, hm.1, seconds / 60, ParseInt);
  }

  // ---------------------------------------------------------------- stream cards

  /** A `/streams` record. `user_login` is taken to be present; the other fields are optional. */
  datatype LiveStream = LiveStream(
    userLogin: string,
    userName: Option<string>,
    title: Option<string>,
    gameId: Option<string>,
    gameName: Option<string>,
    startedAt: Option<string>)

  /** A `/games` record: its id and box-art template. */
  datatype GameInfo = GameInfo(id: string, boxArtUrl: Option<string>)

  /** One live card, as `build_stream_cards` fills it. */
  datatype Card = Card(
    login: string,
    displayName: string,
    title: string,
    gameName: string,
    gameId: Option<string>,
    boxArtUrl: Option<string>,
    startedAtIso: Option<string>,
    startedLabel: string)

  const DefaultGame: string := "Just Chatting"
  const BoxArtSize: string := "{width}x{height}"
  const BoxArtPixels: string := "285x380"
  const UnknownStart: string := "Unknown"

  /** `{g.get("id"): g for g in games}`: later records win. */
  function GamesById(games: seq<GameInfo>): (m: map<string, GameInfo>)
    ensures forall id :: id in m <==> exists i :: 0 <= i < |games| && games[i].id == id
    ensures forall id :: id in m ==> m[id] in games && m[id].id == id
    decreases |games|
  {
    if |games| == 0 then map[]
    else
      var g := games[|games| - 1];
      GamesById(games[..|games| - 1])[g.id := g]
  }

  /** The game ids worth looking up: every truthy `game_id` of the live streams, in order. */
  function StreamGameIds(live: seq<LiveStream>): (ids: seq<string>)
    ensures forall g :: g in ids <==> exists i :: 0 <= i < |live| && live[i].gameId == Some(g) && g != ""
  {
    if |live| == 0 then []
    else
      var s := live[0];
      (if s.gameId.Some? && s.gameId.value != "" then [s.gameId.value] else []) + StreamGameIds(live[1..])
  }

  /** The box art of a stream: the game's template with the size filled in, when both are known. */
  function BoxArt(s: LiveStream, games: map<string, GameInfo>): Option<string> {
    if s.gameId.Some? && s.gameId.value != "" && s.gameId.value in games then
      var tmpl := OrElse(games[s.gameId.value].boxArtUrl, "");
      if tmpl != "" then Some(ReplaceAll(tmpl, BoxArtSize, BoxArtPixels)) else None
    else None
  }

  /** The card of one live stream; `format` is `formatted_time` in the configured time zone. */
  function CardOf(s: LiveStream, games: map<string, GameInfo>, format: string -> string): Card {
    var started := s.startedAt.Some? && s.startedAt.value != "";
    Card(
      s.userLogin,
      OrElse(s.userName, s.userLogin),
      OrElse(s.title, ""),
      OrElse(s.gameName, DefaultGame),
      s.gameId,
      BoxArt(s, games),
      s.startedAt,
      if started then format(s.startedAt.value) else UnknownStart)
  }

  /** The defaults a card falls back on. */
  lemma CardDefaults(s: LiveStream, games: map<string, GameInfo>, format: string -> string)
    ensures var c := CardOf(s, games, format);
      && c.login == s.userLogin
      && (s.gameName.None? || s.gameName == Some("") ==> c.gameName == DefaultGame)
      && (s.title.None? || s.title == Some("") ==> c.title == "")
      && (s.userName.None? || s.userName == Some("") ==> c.displayName == s.userLogin)
      && (s.startedAt.None? || s.startedAt == Some("") ==> c.startedLabel == UnknownStart)
      && (c.boxArtUrl.Some? ==> s.gameId.Some? && s.gameId.value in games)
      && (s.gameId.None? || s.gameId.value !in games ==> c.boxArtUrl.None?)
      && (s.gameId.Some? && s.gameId.value in games && games[s.gameId.value].boxArtUrl.Some?
          && games[s.gameId.value].boxArtUrl.value != "" && s.gameId.value != "" ==>
            c.boxArtUrl == Some(ReplaceAll(games[s.gameId.value].boxArtUrl.value, BoxArtSize, BoxArtPixels)))
  {
  }

  /** The card map built from the first `|live|` streams; a later stream of the same login overwrites. */
  function Cards(live: seq<LiveStream>, games: map<string, GameInfo>, format: string -> string): (m: map<string, Card>)
    ensures forall k :: k in m <==> exists i :: 0 <= i < |live| && Lower(live[i].userLogin) == k
    decreases |live|
  {
    if |live| == 0 then map[]
    else
      var s := live[|live| - 1];
      Cards(live[..|live| - 1], games, format)[Lower(s.userLogin) := CardOf(s, games, format)]
  }

  /** `build_stream_cards` from the streams answer and the games answer. */
  function BuildStreamCards(live: seq<LiveStream>, games: seq<GameInfo>, format: string -> string): map<string, Card> {
    if |live| == 0 then map[] else Cards(live, GamesById(games), format)
  }

  /** Index of the last stream whose login lower-cases to `k`. */
  function LastWithLogin(live: seq<LiveStream>, k: string): (i: int)
    ensures -1 <= i < |live|
    ensures i >= 0 ==> Lower(live[i].userLogin) == k
    ensures forall j :: i < j < |live| ==> Lower(live[j].userLogin) != k
    decreases |live|
  {
    if |live| == 0 then -1
    else if Lower(live[|live| - 1].userLogin) == k then |live| - 1
    else LastWithLogin(live[..|live| - 1], k)
  }

  /**
   * Cards are keyed by the lower-cased login, and the card under a key is
   * the card of the last live stream with that login.
   */
  lemma {:induction false} CardsLastWins(live: seq<LiveStream>, games: map<string, GameInfo>, format: string -> string)
    ensures forall k :: k in Cards(live, games, format) ==>
      LastWithLogin(live, k) >= 0 && Cards(live, games, format)[k] == CardOf(live[LastWithLogin(live, k)], games, format)
    decreases |live|
  {
    if |live| > 0 {
      var init := live[..|live| - 1];
      CardsLastWins(init, games, format);
      forall k | k in Cards(live, games, format)
        ensures LastWithLogin(live, k) >= 0 && Cards(live, games, format)[k] == CardOf(live[LastWithLogin(live, k)], games, format)
      {
        if Lower(live[|live| - 1].userLogin) != k {
          assert LastWithLogin(live, k) == LastWithLogin(init, k);
          assert k in Cards(init, games, format);
          assert live[LastWithLogin(init, k)] == init[LastWithLogin(init, k)];
        }
      }
    }
  }
}

=== FILE: stream_watch.dfy ===
/**
 * One poll of StreamSentinel's announcement machine
 * (`StreamSentinel.stream_watch_once` in modules/streamsentinel/commands.py,
 * and its module-level copy over `STREAM_STATE` in modules/streamsentinel/main.py).
 *
 * Per lower-cased login the bot remembers the start time of the stream it
 * announced, the id of the announcement message and whether it marked that
 * message ended. A poll first announces every live login that has no open
 * announcement, then closes the announcements of logins no longer live.
 * Discord calls are outcomes passed in; the resolver's table and the live
 * cards are passed in as `resolve_to_logins` and `build_stream_cards` return them.
 */
module StreamWatch {
  import opened Base
  import opened Text
  import opened TwitchStatus

  /** The state kept for one login: `{start_dt, message_id, ended}`. */
  datatype Announcement = Announcement(startIso: Option<string>, messageId: Option<int>, ended: bool)

  type WatchState = map<string, Announcement>

  /** An announcement that was posted and not yet marked ended. */
  predicate Open(a: Announcement) {
    a.messageId.Some? && !a.ended
  }

  /** The start condition: no state, no message id, or the last announcement ended. */
  predicate NeedsAnnouncement(state: WatchState, key: string) {
    key !in state || state[key].messageId.None? || state[key].ended
  }

  /** The `start_dt` a new announcement records: the card's start when it has one. */
  function StartOf(c: Card): (r: Option<string>)
    ensures r.Some? <==> c.startedAtIso.Some? && c.startedAtIso.value != ""
    ensures r.Some? ==> r == c.startedAtIso
  {
    if c.startedAtIso.Some? && c.startedAtIso.value != "" then c.startedAtIso else None
  }

  /**
   * The start events over the resolved logins, in order. `send(key)` is the
   * id of the posted announcement, or `None` when posting raised, which
   * aborts the rest of the poll (the second component is then true).
   */
  function StartPhase(state: WatchState, logins: seq<string>, cards: map<string, Card>, send: string -> Option<int>)
    : (r: (WatchState, bool))
    ensures state.Keys <= r.0.Keys
    ensures forall k :: k in r.0 && k !in state ==> exists i :: 0 <= i < |logins| && Lower(logins[i]) == k && k in cards
    ensures forall k :: k in state && Open(state[k]) ==> r.0[k] == state[k]
    ensures !r.1 ==> forall i :: 0 <= i < |logins| && Lower(logins[i]) in cards ==>
      Lower(logins[i]) in r.0 && Open(r.0[Lower(logins[i])])
    ensures forall k :: k in state && k !in cards ==> k in r.0 && r.0[k] == state[k]
    ensures forall k :: k in r.0 && (k !in state || r.0[k] != state[k]) ==>
      && k in cards && NeedsAnnouncement(state, k)
      && r.0[k] == Announcement(StartOf(cards[k]), send(k), false)
    decreases |logins|
  {
    if |logins| == 0 then (state, false)
    else
      var key := Lower(logins[0]);
      if key in cards && NeedsAnnouncement(state, key) then
        match send(key)
        case None => (state, true)
        case Some(id) =>
          var next := state[key := Announcement(StartOf(cards[key]), Some(id), false)];
          var r := StartPhase(next, logins[1..], cards, send);
          assert forall i :: 1 <= i < |logins| ==> logins[i] == logins[1..][i - 1];
          r
      else
        var r := StartPhase(state, logins[1..], cards, send);
        assert forall i :: 1 <= i < |logins| ==> logins[i] == logins[1..][i - 1];
        r
  }

  /** The outcome of `channel.fetch_message`: the message's embeds, NotFound, or another HTTP error. */
  datatype Fetch = Found(embeds: seq<Embed>) | NotFound | HttpError

  datatype Field = Field(name: string, value: string, inline: bool)

  datatype Embed = Embed(title: Option<string>, fields: seq<Field>, footer: Option<string>)

  const EndedName: string := "Ended"
  const DurationName: string := "Duration"

  /** A field the ended update replaces. */
  predicate Replaced(f: Field) {
    f.name == EndedName || f.name == DurationName
  }

  /** The fields that survive the update, in order. */
  function KeptFields(fields: seq<Field>): (r: seq<Field>)
    ensures forall f :: f in r <==> f in fields && !Replaced(f)
    ensures |r| <= |fields|
  {
    if |fields| == 0 then []
    else (if Replaced(fields[0]) then [] else [fields[0]]) + KeptFields(fields[1..])
  }

  /** The ended update's fields: prior Ended/Duration fields dropped, then one of each appended. */
  function EndedFields(fields: seq<Field>, endLabel: string, duration: string): (r: seq<Field>)
    ensures |r| >= 2
    ensures r[..|r| - 2] == KeptFields(fields)
    ensures r[|r| - 2] == Field(EndedName, endLabel, true) && r[|r| - 1] == Field(DurationName, duration, true)
  {
    KeptFields(fields) + [Field(EndedName, endLabel, true), Field(DurationName, duration, true)]
  }

  /** Number of fields carrying the name `n`. */
  function CountNamed(fields: seq<Field>, n: string): nat {
    if |fields| == 0 then 0 else (if fields[0].name == n then 1 else 0) + CountNamed(fields[1..], n)
  }

  lemma {:induction false} CountNamedConcat(a: seq<Field>, b: seq<Field>, n: string)
    ensures CountNamed(a + b, n) == CountNamed(a, n) + CountNamed(b, n)
    decreases |a|
  {
    if |a| == 0 {
      assert a + b == b;
    } else {
      assert (a + b)[1..] == a[1..] + b;
      CountNamedConcat(a[1..], b, n);
    }
  }

  lemma {:induction false} KeptFieldsCount(fields: seq<Field>, n: string)
    ensures n == EndedName || n == DurationName ==> CountNamed(KeptFields(fields), n) == 0
    ensures n != EndedName && n != DurationName ==> CountNamed(KeptFields(fields), n) == CountNamed(fields, n)
    decreases |fields|
  {
    if |fields| > 0 {
      KeptFieldsCount(fields[1..], n);
      CountNamedConcat(if Replaced(fields[0]) then [] else [fields[0]], KeptFields(fields[1..]), n);
    }
  }

  /**
   * The updated message has exactly one Ended and one Duration field, and
   * every other name occurs as often as before.
   */
  lemma EndedFieldsCounts(fields: seq<Field>, endLabel: string, duration: string, n: string)
    ensures n == EndedName || n == DurationName ==> CountNamed(EndedFields(fields, endLabel, duration), n) == 1
    ensures n != EndedName && n != DurationName ==>
      CountNamed(EndedFields(fields, endLabel, duration), n) == CountNamed(fields, n)
  {
    var tail := [Field(EndedName, endLabel, true), Field(DurationName, duration, true)];
    KeptFieldsCount(fields, n);
    CountNamedConcat(KeptFields(fields), tail, n);
    assert tail[1..] == [Field(DurationName, duration, true)];
    assert tail[1..][1..] == [];
    assert CountNamed(tail[1..], n) == if n == DurationName then 1 else 0;
    assert |EndedName| != |DurationName|;
    assert CountNamed(tail, n) == (if n == EndedName then 1 else 0) + (if n == DurationName then 1 else 0);
  }

  lemma {:induction false} KeptFieldsIdempotent(fields: seq<Field>)
    ensures KeptFields(KeptFields(fields)) == KeptFields(fields)
    decreases |fields|
  {
    if |fields| > 0 {
      KeptFieldsIdempotent(fields[1..]);
      KeptFieldsConcat(if Replaced(fields[0]) then [] else [fields[0]], KeptFields(fields[1..]));
      if !Replaced(fields[0]) {
        assert [fields[0]][1..] == [];
      }
    }
  }

  lemma {:induction false} KeptFieldsConcat(a: seq<Field>, b: seq<Field>)
    ensures KeptFields(a + b) == KeptFields(a) + KeptFields(b)
    decreases |a|
  {
    if |a| == 0 {
      assert a + b == b;
    } else {
      assert (a + b)[1..] == a[1..] + b;
      KeptFieldsConcat(a[1..], b);
    }
  }

  /** Updating an already updated message replaces its Ended and Duration fields rather than adding more. */
  lemma EndedFieldsReplace(fields: seq<Field>, l1: string, d1: string, l2: string, d2: string)
    ensures EndedFields(EndedFields(fields, l1, d1), l2, d2) == EndedFields(fields, l2, d2)
  {
    var tail := [Field(EndedName, l1, true), Field(DurationName, d1, true)];
    KeptFieldsConcat(KeptFields(fields), tail);
    KeptFieldsIdempotent(fields);
    assert tail[1..] == [Field(DurationName, d1, true)];
    assert KeptFields(tail) == [];
  }

  /**
   * The embed written to an ended announcement: the message's first embed
   * (or a new "Stream Update" one) with its fields updated and the footer set.
   */
  function EndedEmbed(embeds: seq<Embed>, endLabel: string, duration: string): (e: Embed)
    ensures |embeds| > 0 ==> e.title == embeds[0].title && e.fields == EndedFields(embeds[0].fields, endLabel, duration)
    ensures |embeds| == 0 ==> e.title == Some("Stream Update") && e.fields == EndedFields([], endLabel, duration)
    ensures e.footer == Some("Stream ended")
  {
    var base := if |embeds| > 0 then embeds[0] else Embed(Some("Stream Update"), [], None);
    base.(fields := EndedFields(base.fields, endLabel, duration), footer := Some("Stream ended"))
  }

  /** The duration shown: from the recorded start, or zero when none was recorded. */
  function EndedDuration(a: Announcement, now: int, isoSeconds: string -> int): (d: string)
    ensures a.startIso.None? ==> d == DurationHm(0)
  {
    var start := if a.startIso.Some? then isoSeconds(a.startIso.value) else now;
    DurationHm(now - start)
  }

  /** The end step checks `message_id` for truthiness, so an id of 0 counts as none. */
  predicate HasMessage(a: Announcement) {
    a.messageId.Some? && a.messageId.value != 0
  }

  /**
   * The end event of one login: skipped while live, without a message or
   * once ended; otherwise marked ended on NotFound or on a successful edit,
   * and left as it is on any other HTTP error.
   */
  function EndOne(a: Announcement, live: bool, fetch: Fetch, editOk: bool): (r: Announcement)
    ensures r.startIso == a.startIso && r.messageId == a.messageId
    ensures live || !HasMessage(a) || a.ended ==> r == a
    ensures !live && HasMessage(a) && !a.ended ==>
      (r.ended <==> fetch.NotFound? || (fetch.Found? && editOk))
  {
    if live || !HasMessage(a) || a.ended then a
    else match fetch
      case NotFound => a.(ended := true)
      case HttpError => a
      case Found(_) => if editOk then a.(ended := true) else a
  }

  /** The end events, each login of the state ended on its own. */
  function EndPhase(state: WatchState, live: set<string>, fetch: string -> Fetch, editOk: string -> bool): (r: WatchState)
    ensures r.Keys == state.Keys
    ensures forall k :: k in r ==> r[k] == EndOne(state[k], k in live, fetch(k), editOk(k))
  {
    map k | k in state :: EndOne(state[k], k in live, fetch(k), editOk(k))
  }

  /**
   * The end loop as the source runs it: over a snapshot of the state's
   * items, in the dict's order `keys`, each visit writing back only its own
   * login's `ended` flag.
   */
  function EndLoop(state: WatchState, keys: seq<string>, live: set<string>, fetch: string -> Fetch,
                   editOk: string -> bool): (r: WatchState)
    ensures r.Keys == state.Keys
    decreases |keys|
  {
    if |keys| == 0 then state
    else
      var k := keys[0];
      var next := if k in state then state[k := EndOne(state[k], k in live, fetch(k), editOk(k))] else state;
      EndLoop(next, keys[1..], live, fetch, editOk)
  }

  /** No login is visited twice. */
  predicate Distinct(keys: seq<string>) {
    forall i, j :: 0 <= i < j < |keys| ==> keys[i] != keys[j]
  }

  /** After visiting distinct keys, exactly the visited logins hold their end event's result. */
  lemma {:induction false} EndLoopVisits(state: WatchState, keys: seq<string>, live: set<string>,
                                         fetch: string -> Fetch, editOk: string -> bool)
    requires Distinct(keys)
    ensures var r := EndLoop(state, keys, live, fetch, editOk);
      forall k :: k in r ==> r[k] == (if k in keys then EndOne(state[k], k in live, fetch(k), editOk(k)) else state[k])
    decreases |keys|
  {
    if |keys| > 0 {
      var k := keys[0];
      var next := if k in state then state[k := EndOne(state[k], k in live, fetch(k), editOk(k))] else state;
      assert Distinct(keys[1..]) by {
        forall i, j | 0 <= i < j < |keys[1..]| ensures keys[1..][i] != keys[1..][j] {
          assert keys[1..][i] == keys[i + 1] && keys[1..][j] == keys[j + 1];
        }
      }
      EndLoopVisits(next, keys[1..], live, fetch, editOk);
      assert k !in keys[1..] by {
        forall i | 0 <= i < |keys[1..]| ensures keys[1..][i] != k {
          assert keys[1..][i] == keys[i + 1];
        }
      }
      forall x | x in keys ensures x == k || x in keys[1..] {
        var i :| 0 <= i < |keys| && keys[i] == x;
        if i > 0 { assert keys[1..][i - 1] == x; }
      }
      forall x | x in keys[1..] ensures x in keys {
        var i :| 0 <= i < |keys[1..]| && keys[1..][i] == x;
        assert keys[i + 1] == x;
      }
    }
  }

  /**
   * Whatever order the dict yields its keys in, the end loop computes the
   * end phase: each login's end event depends on its own entry only.
   */
  lemma EndLoopAnyOrder(state: WatchState, keys: seq<string>, live: set<string>,
                        fetch: string -> Fetch, editOk: string -> bool)
    requires Distinct(keys)
    requires forall k :: k in state <==> k in keys
    ensures EndLoop(state, keys, live, fetch, editOk) == EndPhase(state, live, fetch, editOk)
  {
    EndLoopVisits(state, keys, live, fetch, editOk);
  }

  /** What one poll is given besides the state. */
  datatype PollInput = PollInput(
    channelOk: bool,                  // the configured channel exists and is a text channel or thread
    streamers: seq<string>,           // `load_streamers()`
    table: seq<Resolution>,           // `resolve_to_logins(streamers)`, in insertion order
    cards: map<string, Card>,         // `build_stream_cards(resolved_logins)`
    send: string -> Option<int>,      // id of the announcement posted for a login, None if posting raised
    fetch: string -> Fetch,           // fetching the announcement of a login
    editOk: string -> bool)           // whether editing it succeeded

  /** `stream_watch_once`. */
  function Poll(state: WatchState, p: PollInput): WatchState {
    if !p.channelOk || |p.streamers| == 0 then state
    else
      var logins := ResolvedLogins(p.streamers, p.table);
      if |logins| == 0 then state
      else
        var (started, aborted) := StartPhase(state, logins, p.cards, p.send);
        if aborted then started else EndPhase(started, p.cards.Keys, p.fetch, p.editOk)
  }

  /** A bad channel, an empty streamer list or nothing resolved leaves the state as it was. */
  lemma PollNoOp(state: WatchState, p: PollInput)
    requires !p.channelOk || |p.streamers| == 0 || |ResolvedLogins(p.streamers, p.table)| == 0
    ensures Poll(state, p) == state
  {
  }

  /** Entries are never removed; new ones are live resolved logins. */
  lemma PollNeverForgets(state: WatchState, p: PollInput)
    ensures state.Keys <= Poll(state, p).Keys
    ensures forall k :: k in Poll(state, p) && k !in state ==> k in p.cards
  {
    if p.channelOk && |p.streamers| > 0 && |ResolvedLogins(p.streamers, p.table)| > 0 {
      var logins := ResolvedLogins(p.streamers, p.table);
      var r := StartPhase(state, logins, p.cards, p.send);
      forall k | k in r.0 && k !in state
        ensures k in p.cards
      {
        var i :| 0 <= i < |logins| && Lower(logins[i]) == k && k in p.cards;
      }
    }
  }

  /**
   * After a poll in which no post failed, every live resolved login has an
   * open announcement: a start event fired for it, or its announcement was
   * already open and is kept.
   */
  lemma PollAnnouncesLive(state: WatchState, p: PollInput, login: string)
    requires p.channelOk && |p.streamers| > 0
    requires login in ResolvedLogins(p.streamers, p.table) && Lower(login) in p.cards
    requires !StartPhase(state, ResolvedLogins(p.streamers, p.table), p.cards, p.send).1
    ensures Lower(login) in Poll(state, p) && Open(Poll(state, p)[Lower(login)])
  {
    var logins := ResolvedLogins(p.streamers, p.table);
    var r := StartPhase(state, logins, p.cards, p.send);
    var i :| 0 <= i < |logins| && logins[i] == login;
    assert Lower(login) in r.0 && Open(r.0[Lower(login)]);
    PollAfterStart(state, p);
    EndKeepsOpenLive(r.0, p.cards.Keys, p.fetch, p.editOk, Lower(login));
  }

  /** A poll that resolved some logins and posted every announcement it had to ends with the end events. */
  lemma PollAfterStart(state: WatchState, p: PollInput)
    requires p.channelOk && |p.streamers| > 0 && |ResolvedLogins(p.streamers, p.table)| > 0
    requires !StartPhase(state, ResolvedLogins(p.streamers, p.table), p.cards, p.send).1
    ensures Poll(state, p) == EndPhase(StartPhase(state, ResolvedLogins(p.streamers, p.table), p.cards, p.send).0,
                                       p.cards.Keys, p.fetch, p.editOk)
  {
  }

  /** The end events leave an open announcement of a live login open. */
  lemma EndKeepsOpenLive(state: WatchState, live: set<string>, fetch: string -> Fetch, editOk: string -> bool, key: string)
    requires key in state && Open(state[key]) && key in live
    ensures key in EndPhase(state, live, fetch, editOk) && Open(EndPhase(state, live, fetch, editOk)[key])
  {
  }

  /**
   * A login that is not live and has no open announcement (never posted, or
   * already ended) is left exactly as it was by a poll.
   */
  lemma PollKeepsClosedOffline(state: WatchState, p: PollInput, key: string)
    requires key in state && !Open(state[key]) && key !in p.cards
    ensures key in Poll(state, p) && Poll(state, p)[key] == state[key]
  {
  }

  /** A live login whose announcement is open gets no new message and keeps its state. */
  lemma PollKeepsOpenLive(state: WatchState, p: PollInput, key: string)
    requires key in state && Open(state[key]) && key in p.cards
    ensures key in Poll(state, p) && Poll(state, p)[key] == state[key]
  {
  }

  /**
   * A login that is not live and whose announcement is open (with a non-zero
   * id) is marked ended exactly when the fetch says NotFound or the edit
   * succeeds; nothing else about it changes.
   */
  lemma PollEndsOffline(state: WatchState, p: PollInput, key: string)
    requires p.channelOk && |p.streamers| > 0 && |ResolvedLogins(p.streamers, p.table)| > 0
    requires key in state && Open(state[key]) && HasMessage(state[key]) && key !in p.cards
    requires !StartPhase(state, ResolvedLogins(p.streamers, p.table), p.cards, p.send).1
    ensures key in Poll(state, p)
    ensures Poll(state, p)[key] == state[key].(ended := p.fetch(key).NotFound? || (p.fetch(key).Found? && p.editOk(key)))
  {
  }
}

=== FILE: text.dfy ===
/**
 * Text helpers with the meaning Python gives them, restricted to ASCII:
 * `str.lower`, `str.strip`, `in` on strings, `str.replace`, `str(int)` and `int(str)`.
 */
module Text {
  import opened Base

  // ---------------------------------------------------------------- case

  predicate IsUpper(c: char) { 'A' <= c <= 'Z' }

  function LowerChar(c: char): (r: char)
    ensures !IsUpper(r)
    ensures !IsUpper(c) ==> r == c
  {
    if IsUpper(c) then (c as int + 32) as char else c
  }

  /** Python `s.lower()` on ASCII letters; every other character is kept. */
  function Lower(s: string): (r: string)
    ensures |r| == |s|
    ensures forall i :: 0 <= i < |s| ==> r[i] == LowerChar(s[i])
  {
    seq(|s|, i requires 0 <= i < |s| => LowerChar(s[i]))
  }

  predicate IsLower(s: string) {
    forall i :: 0 <= i < |s| ==> !IsUpper(s[i])
  }

  lemma LowerIsLower(s: string)
    ensures IsLower(Lower(s))
    ensures Lower(Lower(s)) == Lower(s)
  {
  }

  lemma LowerOfLower(s: string)
    requires IsLower(s)
    ensures Lower(s) == s
  {
  }

  lemma LowerConcat(a: string, b: string)
    ensures Lower(a + b) == Lower(a) + Lower(b)
  {
  }

  // ---------------------------------------------------------------- whitespace

  /** The ASCII characters for which Python's `str.isspace()` holds. */
  predicate IsSpace(c: char) {
    c == ' ' || (9 <= c as int <= 13) || (28 <= c as int <= 31)
  }

  function StripLeft(s: string): (r: string)
    ensures |r| <= |s| && r == s[|s| - |r|..]
    ensures r == [] || !IsSpace(r[0])
    ensures forall i :: 0 <= i < |s| - |r| ==> IsSpace(s[i])
  {
    if |s| > 0 && IsSpace(s[0]) then StripLeft(s[1..]) else s
  }

  function StripRight(s: string): (r: string)
    ensures |r| <= |s| && r == s[..|r|]
    ensures r == [] || !IsSpace(r[|r| - 1])
    ensures forall i :: |r| <= i < |s| ==> IsSpace(s[i])
  {
    if |s| > 0 && IsSpace(s[|s| - 1]) then StripRight(s[..|s| - 1]) else s
  }

  /** Python `s.strip()`: drop leading and trailing whitespace. */
  function Strip(s: string): (r: string)
    ensures |r| <= |s|
    ensures r == [] || (!IsSpace(r[0]) && !IsSpace(r[|r| - 1]))
    ensures exists i :: SliceAt(s, r, i)
  {
    var l := StripLeft(s);
    var r := StripRight(l);
    StripSlice(s, l, r);
    r
  }

  /** What `strip()` keeps is a slice of the input. */
  lemma StripSlice(s: string, l: string, r: string)
    requires |l| <= |s| && l == s[|s| - |l|..]
    requires |r| <= |l| && r == l[..|r|]
    ensures SliceAt(s, r, |s| - |l|)
  {
    assert r == s[|s| - |l|..|s| - |l| + |r|];
  }

  lemma StripNoSpace(s: string)
    requires forall i :: 0 <= i < |s| ==> !IsSpace(s[i])
    ensures Strip(s) == s
  {
  }

  predicate AllSpace(s: string) {
    forall i :: 0 <= i < |s| ==> IsSpace(s[i])
  }

  lemma {:induction false} StripLeftPad(pad: string, x: string)
    requires AllSpace(pad)
    ensures StripLeft(pad + x) == StripLeft(x)
    decreases |pad|
  {
    if |pad| > 0 {
      assert (pad + x)[1..] == pad[1..] + x;
      StripLeftPad(pad[1..], x);
    } else {
      assert pad + x == x;
    }
  }

  lemma {:induction false} StripRightPad(x: string, pad: string)
    requires AllSpace(pad)
    ensures StripRight(x + pad) == StripRight(x)
    decreases |pad|
  {
    if |pad| > 0 {
      assert (x + pad)[..|x + pad| - 1] == x + pad[..|pad| - 1];
      StripRightPad(x, pad[..|pad| - 1]);
    } else {
      assert x + pad == x;
    }
  }

  /** Leading whitespace ends inside `s` when `s` has a visible character. */
  lemma {:induction false} StripLeftAppend(s: string, t: string)
    requires !AllSpace(s)
    ensures StripLeft(s + t) == StripLeft(s) + t
    decreases |s|
  {
    assert (s + t)[0] == s[0];
    if IsSpace(s[0]) {
      assert (s + t)[1..] == s[1..] + t;
      StripLeftAppend(s[1..], t);
    }
  }

  /** Whitespace added around a string disappears under `strip()`. */
  lemma StripPadded(pad: string, s: string, pad2: string)
    requires AllSpace(pad) && AllSpace(pad2)
    ensures Strip(pad + s + pad2) == Strip(s)
  {
    assert pad + s + pad2 == pad + (s + pad2);
    StripLeftPad(pad, s + pad2);
    if AllSpace(s) {
      assert AllSpace(s + pad2);
      StripLeftPad(s + pad2, []);
      StripLeftPad(s, []);
      assert s + pad2 + [] == s + pad2;
      assert s + [] == s;
    } else {
      StripLeftAppend(s, pad2);
      StripRightPad(StripLeft(s), pad2);
    }
  }

  /** No character of `s` is whitespace, checked character by character so that literals evaluate. */
  predicate NoSpaces(s: string) {
    |s| == 0 || (!IsSpace(s[0]) && NoSpaces(s[1..]))
  }

  lemma {:induction false} NoSpacesAll(s: string)
    requires NoSpaces(s)
    ensures forall i :: 0 <= i < |s| ==> !IsSpace(s[i])
    decreases |s|
  {
    if |s| > 0 {
      NoSpacesAll(s[1..]);
      forall i | 1 <= i < |s|
        ensures !IsSpace(s[i])
      {
        assert s[i] == s[1..][i - 1];
      }
    }
  }

  /** A string without whitespace is its own `strip()`. */
  lemma NoSpacesStrip(s: string)
    requires NoSpaces(s)
    ensures forall i :: 0 <= i < |s| ==> !IsSpace(s[i])
    ensures Strip(s) == s
  {
    NoSpacesAll(s);
    StripNoSpace(s);
  }

  /** No character of `s` is an upper-case letter, checked character by character. */
  predicate NoUpper(s: string) {
    |s| == 0 || (!IsUpper(s[0]) && NoUpper(s[1..]))
  }

  /** A string without upper-case letters is its own `lower()`. */
  lemma {:induction false} NoUpperLower(s: string)
    requires NoUpper(s)
    ensures IsLower(s)
    ensures Lower(s) == s
    decreases |s|
  {
    if |s| > 0 {
      NoUpperLower(s[1..]);
      assert forall i :: 1 <= i < |s| ==> s[i] == s[1..][i - 1];
    }
    LowerOfLower(s);
  }

  /** Only lower-case ASCII letters, checked character by character so that literals evaluate. */
  predicate LowerWord(s: string) {
    |s| == 0 || ('a' <= s[0] <= 'z' && LowerWord(s[1..]))
  }

  /** A word of lower-case letters is its own `strip()` and `lower()`. */
  lemma {:induction false} LowerWordNormal(s: string)
    requires LowerWord(s)
    ensures NoSpaces(s) && NoUpper(s)
    ensures Strip(s) == s && Lower(s) == s
    decreases |s|
  {
    if |s| > 0 {
      LowerWordNormal(s[1..]);
    }
    NoSpacesStrip(s);
    NoUpperLower(s);
  }

  /** `strip()` of a stripped string changes nothing. */
  lemma StripIdempotent(s: string)
    ensures Strip(Strip(s)) == Strip(s)
  {
  }

  lemma {:induction false} StripLeftLower(s: string)
    ensures StripLeft(Lower(s)) == Lower(StripLeft(s))
    decreases |s|
  {
    if |s| > 0 {
      assert Lower(s)[1..] == Lower(s[1..]);
      StripLeftLower(s[1..]);
    }
  }

  lemma {:induction false} StripRightLower(s: string)
    ensures StripRight(Lower(s)) == Lower(StripRight(s))
    decreases |s|
  {
    if |s| > 0 {
      assert Lower(s)[..|s| - 1] == Lower(s[..|s| - 1]);
      StripRightLower(s[..|s| - 1]);
    }
  }

  /** Lower-casing and stripping commute. */
  lemma StripLower(s: string)
    ensures Strip(Lower(s)) == Lower(Strip(s))
  {
    StripLeftLower(s);
    StripRightLower(StripLeft(s));
  }

  lemma LowerPreservesSpace(s: string)
    ensures forall i :: 0 <= i < |s| ==> (IsSpace(Lower(s)[i]) <==> IsSpace(s[i]))
  {
  }

  // ---------------------------------------------------------------- search

  /** `r` is the slice of `s` that starts at offset `i`. */
  predicate SliceAt(s: string, r: string, i: int) {
    0 <= i && i + |r| <= |s| && s[i..i + |r|] == r
  }

  /** `needle in hay` for Python strings: `needle` occurs at some offset of `hay`. */
  predicate Contains(hay: string, needle: string) {
    exists i :: 0 <= i <= |hay| && SliceAt(hay, needle, i)
  }

  /** Index of the first occurrence of `c` in `s`, or `|s|` when there is none. */
  function IndexOf(s: string, c: char): (r: nat)
    ensures r <= |s|
    ensures r < |s| ==> s[r] == c
    ensures forall i :: 0 <= i < r ==> s[i] != c
  {
    if |s| == 0 then 0
    else if s[0] == c then 0
    else 1 + IndexOf(s[1..], c)
  }

  /** Python `s.split(c, 1)[0]`: the text before the first `c`. */
  function Before(s: string, c: char): (r: string)
    ensures r <= s
    ensures forall i :: 0 <= i < |r| ==> r[i] != c
    ensures |r| < |s| ==> s[|r|] == c
  {
    s[..IndexOf(s, c)]
  }

  /**
   * Python `s.replace(pat, rep)` for a non-empty pattern: occurrences are
   * replaced left to right and never overlap.
   */
  function ReplaceAll(s: string, pat: string, rep: string): string
    requires |pat| > 0
    decreases |s|
  {
    if |s| < |pat| then s
    else if s[..|pat|] == pat then rep + ReplaceAll(s[|pat|..], pat, rep)
    else [s[0]] + ReplaceAll(s[1..], pat, rep)
  }

  /** A text that never contains the pattern comes back unchanged. */
  lemma {:induction false} ReplaceAllAbsent(s: string, pat: string, rep: string)
    requires |pat| > 0
    requires !Contains(s, pat)
    ensures ReplaceAll(s, pat, rep) == s
    decreases |s|
  {
    if |s| < |pat| {
    } else {
      if s[..|pat|] == pat {
        assert SliceAt(s, pat, 0);
      }
      if Contains(s[1..], pat) {
        var i :| 0 <= i <= |s[1..]| && SliceAt(s[1..], pat, i);
        assert s[1..][i..i + |pat|] == s[i + 1..i + 1 + |pat|];
        assert SliceAt(s, pat, i + 1);
      }
      ReplaceAllAbsent(s[1..], pat, rep);
    }
  }

  /** A pattern at the very front is replaced, and the rest is processed after it. */
  lemma ReplaceAllFront(pat: string, rep: string, rest: string)
    requires |pat| > 0
    ensures ReplaceAll(pat + rest, pat, rep) == rep + ReplaceAll(rest, pat, rep)
  {
    assert (pat + rest)[..|pat|] == pat;
    assert (pat + rest)[|pat|..] == rest;
  }

  // ---------------------------------------------------------------- integers

  predicate IsDigit(c: char) { '0' <= c <= '9' }

  predicate AllDigits(s: string) {
    forall i :: 0 <= i < |s| ==> IsDigit(s[i])
  }

  function DigitChar(d: nat): (c: char)
    requires d < 10
    ensures IsDigit(c)
  {
    ('0' as int + d) as char
  }

  function DigitValue(c: char): (d: nat)
    requires IsDigit(c)
    ensures d < 10
    ensures DigitChar(d) == c
  {
    c as int - '0' as int
  }

  /** The number a run of decimal digits denotes (leading zeros allowed, as in Python). */
  function DigitsValue(s: string): nat
    requires AllDigits(s)
  {
    if |s| == 0 then 0 else 10 * DigitsValue(s[..|s| - 1]) + DigitValue(s[|s| - 1])
  }

  /** Python `str(n)` for a natural number. */
  function NatToString(n: nat): (r: string)
    ensures |r| > 0 && AllDigits(r)
    ensures DigitsValue(r) == n
    ensures |r| > 1 ==> r[0] != '0'
  {
    if n < 10 then [DigitChar(n)]
    else
      var r := NatToString(n / 10) + [DigitChar(n % 10)];
      assert r[..|r| - 1] == NatToString(n / 10);
      r
  }

  /** Python `str(i)` for an integer: a minus sign before the digits of a negative number. */
  function IntToString(i: int): (r: string)
    ensures |r| > 0
    ensures i >= 0 ==> AllDigits(r)
    ensures i < 0 ==> r[0] == '-' && AllDigits(r[1..])
  {
    if i < 0 then "-" + NatToString(-i) else NatToString(i)
  }

  /** Removes every underscore (Python allows single underscores between digits). */
  function Unscore(s: string): (r: string)
    ensures |r| <= |s|
    ensures (forall i :: 0 <= i < |s| ==> IsDigit(s[i]) || s[i] == '_') ==> AllDigits(r)
  {
    if |s| == 0 then []
    else if s[0] == '_' then Unscore(s[1..])
    else [s[0]] + Unscore(s[1..])
  }

  predicate IsDigitGroup(s: string) {
    && |s| > 0
    && IsDigit(s[0]) && IsDigit(s[|s| - 1])
    && (forall i :: 0 <= i < |s| ==> IsDigit(s[i]) || s[i] == '_')
    && (forall i :: 0 <= i < |s| - 1 ==> !(s[i] == '_' && s[i + 1] == '_'))
  }

  /**
   * Python `int(s)` for base-10 ASCII text: surrounding whitespace is ignored,
   * one optional sign, then digits with single underscores between them.
   * `None` is the `ValueError` Python raises.
   */
  function ParseInt(s: string): (r: Option<int>)
    ensures r.Some? ==> |Strip(s)| > 0
  {
    ParseStripped(Strip(s))
  }

  /** `int()` of text already stripped of surrounding whitespace. */
  function ParseStripped(t: string): (r: Option<int>)
    ensures r.Some? ==> |t| > 0
  {
    if |t| == 0 then None
    else
      var neg := t[0] == '-';
      var body := if t[0] == '-' || t[0] == '+' then t[1..] else t;
      if !IsDigitGroup(body) then None
      else
        var v: int := DigitsValue(Unscore(body));
        Some(if neg then -v else v)
  }

  lemma UnscoreDigits(s: string)
    requires AllDigits(s)
    ensures Unscore(s) == s
  {
  }

  /** Python's `int(str(i)) == i`. */
  lemma ParseIntOfIntToString(i: int)
    ensures ParseInt(IntToString(i)) == Some(i)
  {
    var s := IntToString(i);
    StripNoSpace(s);
    if i < 0 {
      assert s[0] == '-' && s[1..] == NatToString(-i);
      ParseSignedDigits(s);
    } else {
      ParseDigits(s);
    }
  }

  /** Plain digits parse to their value. */
  lemma ParseDigits(d: string)
    requires |d| > 0 && AllDigits(d)
    ensures ParseStripped(d) == Some(DigitsValue(d))
  {
    DigitsAreGroup(d);
    UnscoreDigits(d);
  }

  /** A minus sign and digits parse to the negated value. */
  lemma ParseSignedDigits(t: string)
    requires |t| > 1 && t[0] == '-' && AllDigits(t[1..])
    ensures ParseStripped(t) == Some(-(DigitsValue(t[1..]) as int))
  {
    DigitsAreGroup(t[1..]);
    UnscoreDigits(t[1..]);
  }

  /** Digits without underscores form a valid digit group. */
  lemma DigitsAreGroup(d: string)
    requires |d| > 0 && AllDigits(d)
    ensures IsDigitGroup(d)
  {
  }

  /** Distinct integers print differently. */
  lemma IntToStringInjective(a: int, b: int)
    requires IntToString(a) == IntToString(b)
    ensures a == b
  {
    ParseIntOfIntToString(a);
    ParseIntOfIntToString(b);
  }
}
